=== FILE: README.md ===
# Job-search assistant storage core in Dafny

This project models the storage core of a personal job-search assistant, whose
pages and assistant sit on top of it:

- `SimpleVectorStore` (`simple_vector_store.py`) keeps embedding vectors and
  their metadata records in two index-aligned lists. It answers k-nearest
  searches by cosine similarity.
- `JobSearchDB`, `InterviewDB` and `ResumeDB` (`storage/`) keep JSON lists of
  id-keyed records. Each offers append, first-match lookup, first-match
  replace, delete-all-matches, filtered listings and statistics.
- `storage/user_utils.py` turns a user identifier into a safe name, and
  composes the per-user data directory, vector-store path and Milvus
  collection name from it.
- `pages/questions.py` contributes two pure helpers: the sorted distinct
  values of a question field, and the free-text search filter.

Each store is modelled as pure functions over the list it would load. Each
function returns what the Python code would return, together with the list it
would write back. Outside inputs become parameters:

- the wall clock: a `now`/`stamp` string, or a `clock` function for `add_texts`;
- the embedding provider and the cosine similarity;
- the outcome of the Streamlit user lookup.

Modules:

| file | module | role |
|---|---|---|
| `wrappers.dfy` | `Wrappers` | `Option` and `Result` (`Err` carries the message a Python `ValueError` would) |
| `text.dfy` | `Text` | `str.lower()` on ASCII, `in` on strings, `<` on strings, `str(n)` |
| `seqs.dfy` | `Seqs` | list comprehensions as `Filter` (with `Selects`: exactly the passing elements, each once, in order), first match, replace-first, remove-all, slices `[:k]`, sums |
| `sorting.dfy` | `Sorting` | Python's stable `sort(key=…, reverse=True)` by insertion, with its stability lemma |
| `counting.dfy` | `Counting` | dict counting in insertion order (`Tally`) and "top `limit` by count" |
| `records.dfy` | `Records` | the id-keyed record list shared by the three JSON stores |
| `vector_store.dfy` | `VectorStore` | `SimpleVectorStore` |
| `job_search_db.dfy` | `JobSearch` | `JobSearchDB` |
| `interview_db.dfy` | `Interview` | `InterviewDB` |
| `resume_db.dfy` | `Resumes` | `ResumeDB` |
| `user_utils.dfy` | `UserPaths` | `storage/user_utils.py` |
| `question_bank.dfy` | `QuestionBank` | `get_unique_values` and the search filter of the question bank page |

A few behaviours of the vector store code are worth stating plainly:

- `delete` removes, for each id passed, only the first record carrying it
  (see Findings for what happens when an id is passed twice).
- `add_texts` applies `metadata.update(user)` last, so caller keys override
  the generated `id`, `text` and `timestamp` (`VectorStore.NewRecord`).
- Ids are built as `doc_<len(vectors)>_<timestamp>`, so they are distinct
  only within one call (`VectorStore.AddTextsIdsDistinct`). After a delete
  shrinks the list, a later id can repeat an earlier one if the clock reading
  also repeats.
- `similarities[:k]` is sliced for any integer `k`, so a negative `k` drops
  results from the end. `Seqs.SliceEnd` models that slice.
- Save failures are printed and swallowed. Persistence is outside the model.

## Model

| member | source | states |
|---|---|---|
| VectorStore.DocIdPosition | simple_vector_store.py:98 | the generated id `doc_<position>_<timestamp>` determines the position it was generated for |
| VectorStore.NewRecordKeys | simple_vector_store.py:105-113 | the stored record has exactly the keys id, text, timestamp plus the caller's keys; caller values win; id, text and timestamp are generated unless overridden |
| VectorStore.AddFirst | simple_vector_store.py:96-115 | after `n` loop iterations: the ids are `doc_<old length + i>_<timestamp i>` for each iteration `i`, the vectors are extended by the first `n` embeddings, and the metadata by one record per iteration built from text `i`, timestamp `i` and the user metadata of position `i` only when `i < len(metadatas)`; the store path is unchanged |
| VectorStore.AddTexts | simple_vector_store.py:86-122 | empty input changes nothing; otherwise one id per `zip(texts, embeddings)` pair, the vectors grow by those embeddings and the metadata by the matching records, each id names the position its vector took, and the two lists stay aligned |
| VectorStore.AddedRecordAt | simple_vector_store.py:96-115 | the record appended for text `i` carries that text, the id generated for its position and the caller's metadata `i` when there is one |
| VectorStore.AddTextsIdsDistinct | simple_vector_store.py:96-99 | the ids returned by one call are pairwise distinct |
| VectorStore.NewIdsDistinct | simple_vector_store.py:96-99 | ids generated for different positions differ, whatever timestamps the clock gives |
| VectorStore.ProjectNewRecord | simple_vector_store.py:149-156 | a stored record projects back to its text as content and the caller's non-reserved keys as metadata |
| VectorStore.TopK | simple_vector_store.py:144-149 | `similarities[:k]` holds `min(k, n)` pairs for `k >= 0`, each a stored position with its own score, non-increasing by score, ties in insertion order, each at least as high as every omitted score, an omitted position that ties a returned one lies after it (the stable sort keeps the earliest of equal scores at the cut), and all positions when `k` covers the store |
| VectorStore.RankingFacts | simple_vector_store.py:138-145 | the sorted similarity list is a permutation of the (position, score) pairs, sorted by score descending |
| VectorStore.RankingTie | simple_vector_store.py:145 | equal scores keep insertion order (the sort is stable) |
| VectorStore.SearchWithScore | simple_vector_store.py:160-189 | an empty store answers `[]`; an aligned store answers the projected records of the top-k positions with their scores |
| VectorStore.Search | simple_vector_store.py:130-158 | the same documents as the scored search, without scores |
| VectorStore.SearchCount | simple_vector_store.py:149-158 | an aligned store answers exactly `min(k, n)` results for `k >= 0`, never padded |
| VectorStore.AddThenSearch | simple_vector_store.py:86-158 | round trip: a text added without metadata is among the results when `k` covers the store, with the text as content and empty metadata |
| VectorStore.FirstMatches | simple_vector_store.py:197-202 | `indices_to_remove` lists, for each id, the position of the first record carrying it, and only such positions |
| VectorStore.FirstMatchesCount | simple_vector_store.py:197-202 | `indices_to_remove` lists each position exactly as many times as there are given ids whose first match it is, so an id passed twice lists its position twice |
| VectorStore.Descending | simple_vector_store.py:205 | `sorted(…, reverse=True)` is a permutation in non-increasing order |
| VectorStore.DeleteAsWritten | simple_vector_store.py:191-213 | `delete` as written: no ids means no change; both lists stay aligned |
| VectorStore.Delete | simple_vector_store.py:191-213 | corrected `delete`: no ids means no change; the metadata and the vectors each keep exactly the entries at the positions that are not the first match of a given id, in their original order, so position `k` of both lists comes from the same original position; the lists stay aligned |
| VectorStore.Doomed | simple_vector_store.py:197-202 | a position is deleted exactly when it holds the first record carrying one of the given ids |
| VectorStore.DeleteAsWrittenAgrees | simple_vector_store.py:196-210 | with pairwise distinct ids the code as written equals the corrected deletion |
| VectorStore.DuplicateIdOverDeletes | simple_vector_store.py:196-210 | with records `a`, `b`, deleting `["a", "a"]` as written removes both records |
| VectorStore.DuplicateIdDeletesOnce | simple_vector_store.py:196-210 | the corrected deletion of `["a", "a"]` leaves record `b` |
| VectorStore.DeleteIdempotent | simple_vector_store.py:191-213 | when store ids are unique, deleting the same ids twice is deleting them once |
| VectorStore.CollectionStats | simple_vector_store.py:215-223 | document count equals vector count exactly when the lists are aligned; status is `ready` |
| VectorStore.AddDocuments | simple_vector_store.py:124-128 | empty input changes nothing; the existing records, vectors and store path are kept, at most one record and one vector per document are appended, one per id, the ids are the generated `doc_<position>_<timestamp>` ones, and alignment is kept |
| VectorStore.AddDocumentsRecords | simple_vector_store.py:104-128 | the record stored for each added document keeps every key of the document's metadata, and holds its content as `text` unless the metadata brings its own `text` |
| VectorStore.RunKeepsAligned | simple_vector_store.py:86-213 | any sequence of adds and deletes keeps the two lists aligned, so the two counts agree |
| Records.Add | storage/interview_db.py:107-110 | append keeps the old records as a prefix and puts the new one last |
| Records.Get | storage/interview_db.py:112-118 | `None` exactly when no record has the id; otherwise the first record with it |
| Records.Replace | storage/interview_db.py:163-174 | `True` exactly when the id is present; only the first match is replaced; nothing is written otherwise |
| Records.Delete | storage/interview_db.py:176-184 | exactly the records with another id remain, each once, in stored order; `True` exactly when one was present |
| Records.AddThenGet | storage/interview_db.py:107-118 | a record added under a fresh id is what a lookup returns |
| Records.ReplaceThenGet | storage/interview_db.py:163-174 | after a successful update, a lookup returns the new record |
| Records.DeleteThenGet | storage/interview_db.py:176-184 | after a delete the id is gone, and deleting again reports `False` |
| Counting.Tally | storage/interview_db.py:392-403 | the dict counts: distinct keys, each with its number of occurrences, covering every value, summing to the number of values |
| Counting.TallyOrder | storage/interview_db.py:392-403 | the keys come in the order of their first occurrence: wherever a later key occurs, every earlier key has occurred before |
| Counting.TopCounts | storage/json_db.py:320-329 | `sorted(counts.items(), key=count, reverse=True)[:limit]`: the right length, true counts, distinct keys, non-increasing, every unlisted value counts no more than any listed one, and an unlisted value with the same count as a listed key occurs only after that key first occurred (the first seen wins a tie at the cut), and entries with equal counts come in first-occurrence order |
| Counting.RankedTies | storage/json_db.py:326 | entries with equal counts keep the tally's order, which is the order in which the keys first occur |
| Sorting.SortDesc | storage/interview_db.py:350 | the sort is a permutation with no element followed by a strictly greater key |
| Sorting.SortDescStable | storage/resume_db.py:230 | elements with equal keys keep their input order |
| JobSearch.AddApplication | storage/json_db.py:63-86 | `ValueError` with its message exactly when an open application for the same company and role (ignoring case) exists; otherwise appended and id returned |
| JobSearch.AddTwiceRejected | storage/json_db.py:76-80 | adding the same open application twice fails the second time |
| JobSearch.AddThenGet | storage/json_db.py:63-104 | an added application with a fresh id is what `get_application` returns |
| JobSearch.GetApplication | storage/json_db.py:88-104 | `None` exactly when the id is absent; otherwise the first record with it |
| JobSearch.SortBy | storage/json_db.py:139-146 | the sort is a permutation ordered by the key, in either direction |
| JobSearch.SortByStable | storage/json_db.py:139-146 | records with equal keys keep their stored order in both directions |
| JobSearch.ListApplications | storage/json_db.py:106-148 | exactly the records passing the status and company filters, ordered by the `sort_by` key, unsorted for an unknown key |
| JobSearch.ListAllIsPermutation | storage/json_db.py:106-148 | the unfiltered listing is a permutation of the store |
| JobSearch.ApplyUpdates | storage/json_db.py:168-172 | known fields named in `updates` take the new value, other fields keep theirs, and `updated_at` becomes now |
| JobSearch.UpdateApplication | storage/json_db.py:150-181 | `True` exactly when the id is present; only the first match is updated; nothing is written otherwise |
| JobSearch.DeleteApplication | storage/json_db.py:212-233 | exactly the records with another id remain, each once, in stored order; `True` exactly when one was present |
| JobSearch.DeleteThenGet | storage/json_db.py:212-233 | after a delete the id is not found |
| JobSearch.AppendNote | storage/json_db.py:250-257 | the old notes, one newline and the entry `[stamp] note`, nothing else; the entry alone when there were no notes |
| JobSearch.AddApplicationNote | storage/json_db.py:235-259 | `False` with no change for an unknown id; otherwise only the first match gets the note appended and `updated_at` set |
| JobSearch.TopCompanies | storage/json_db.py:320-329 | at most `limit` companies with their true counts, non-increasing, beating every company left out, on a tie at the cut the company seen first is kept, and companies with equal counts are listed in first-seen order |
| JobSearch.GetStats | storage/json_db.py:263-318 | an empty store reports zeros; the status tally sums to the total; active and responded are at most the total; responded counts the non-`applied` records |
| JobSearch.SearchApplications | storage/json_db.py:331-352 | the records whose lowered company, role, notes or location contain the lowered query, and no others, newest first |
| JobSearch.SearchExact | storage/json_db.py:331-352 | each matching record appears as often as it is stored, and the results are the matching part of the default listing in its order |
| JobSearch.SearchStable | storage/json_db.py:331-352 | results with equal `applied_date` keep their stored order |
| JobSearch.SearchEmptyQuery | storage/json_db.py:331-352 | the empty query returns every record |
| Interview.AddQuestion | storage/interview_db.py:97-110 | one question appended, its id returned |
| Interview.GetQuestion | storage/interview_db.py:112-118 | the first question with the id, `None` exactly when absent |
| Interview.ListQuestions | storage/interview_db.py:120-161 | exactly the questions passing every given filter (type, category and difficulty equality; company and tag membership), each once, in stored order; all of them with no filter |
| Interview.UpdateQuestion | storage/interview_db.py:163-174 | only the first match is replaced and stamped; `False` with no change when the id is absent |
| Interview.DeleteQuestion | storage/interview_db.py:176-184 | exactly the questions with another id remain, each once, in stored order; `True` exactly when one was present |
| Interview.UpdateThenGetQuestion | storage/interview_db.py:163-174 | an updated question is what a lookup returns |
| Interview.AddConcept | storage/interview_db.py:195-200 | one concept appended, its id returned |
| Interview.GetConcept | storage/interview_db.py:202-208 | the first concept with the id, `None` exactly when absent |
| Interview.ListConcepts | storage/interview_db.py:210-229 | exactly the concepts passing the category and tag filters, each once, in stored order; all of them with no filter |
| Interview.UpdateConcept | storage/interview_db.py:231-242 | only the first match is replaced and stamped; `False` with no change when absent |
| Interview.DeleteConcept | storage/interview_db.py:244-252 | exactly the concepts with another id remain, each once, in stored order; `True` exactly when one was present |
| Interview.AddCompany | storage/interview_db.py:256-267 | `ValueError` with its message exactly when a name equal ignoring case exists; otherwise appended; case-insensitive uniqueness of names is preserved |
| Interview.GetCompany | storage/interview_db.py:269-275 | the first entry with the id, `None` exactly when absent |
| Interview.GetCompanyByName | storage/interview_db.py:277-283 | the first entry whose name equals the argument ignoring case, `None` exactly when there is none |
| Interview.AddThenFindByName | storage/interview_db.py:256-283 | research just added is found by its name in any letter case |
| Interview.UpdateCompany | storage/interview_db.py:290-301 | only the first match is replaced and stamped; `False` with no change when absent |
| Interview.DeleteCompany | storage/interview_db.py:303-311 | exactly the entries with another id remain, each once, in stored order; `True` exactly when one was present |
| Interview.AddPracticeSession | storage/interview_db.py:315-320 | one session appended, its id returned |
| Interview.GetPracticeSession | storage/interview_db.py:322-328 | the first session with the id, `None` exactly when absent |
| Interview.ByDate | storage/interview_db.py:339-350 | the sessions of the given type, a permutation of them, most recent date first |
| Interview.ListPracticeSessions | storage/interview_db.py:330-353 | sessions of the given type, most recent first, all of them when `limit` is falsy, `min(limit, n)` of them for a positive limit |
| Interview.ListPracticeSessionsOrder | storage/interview_db.py:349-353 | equal dates keep stored order, and a truthy limit cuts the unlimited listing |
| Interview.UpdatePracticeSession | storage/interview_db.py:355-365 | only the first match is replaced, with no timestamp; `False` with no change when absent |
| Interview.DeletePracticeSession | storage/interview_db.py:367-375 | exactly the sessions with another id remain, each once, in stored order; `True` exactly when one was present |
| Interview.PracticePercentage | storage/interview_db.py:422 | 0 with no questions; otherwise practiced over total times 100, between 0 and 100, and 100 exactly when every question was practiced |
| Interview.PracticeHours | storage/interview_db.py:428 | minutes over 60 when positive, otherwise 0 |
| Interview.GetStats | storage/interview_db.py:379-429 | the type, difficulty and category tallies each account for every record; practiced is at most the total; the counts of concepts, companies and sessions; total minutes is the sum of durations |
| Resumes.LastIndex | storage/resume_db.py:248 | the position of the last occurrence of a character, -1 when absent |
| Resumes.SplitExt | storage/resume_db.py:248 | `os.path.splitext`: root and extension concatenate to the name; the extension is empty or a dot followed by no dot and no slash, and it is non-empty exactly when the last path component has a dot preceded by a non-dot in that component |
| Resumes.Join | storage/resume_db.py:250 | `os.path.join`: an absolute second part wins; otherwise a single separator between the parts |
| Resumes.StoredPath | storage/resume_db.py:248-250 | the stored file is `<files dir>/<resume id><extension>` |
| Resumes.StoredNameKeepsExtension | storage/resume_db.py:248-250 | after the files directory and the resume id, the stored name is a suffix of the original file name; that suffix is non-empty exactly when the name has an extension, and then it starts at the name's last dot |
| Resumes.AddResume | storage/resume_db.py:91-111 | appended, pointing at the stored file exactly when both bytes and an original file name are given |
| Resumes.GetResume | storage/resume_db.py:113-119 | the first resume with the id, `None` exactly when absent |
| Resumes.ListResumes | storage/resume_db.py:141-154 | exactly the resumes passing each non-`None` flag filter and the non-empty company filter, each once, in stored order |
| Resumes.UpdateResume | storage/resume_db.py:156-167 | only the first match is replaced and stamped; `False` with no change when absent |
| Resumes.DeleteResume | storage/resume_db.py:169-188 | exactly the resumes with another id remain, each once, in stored order; `True` exactly when the list shrank; the first match's non-empty file path is the file removed |
| Resumes.SetActiveResume | storage/resume_db.py:190-197 | same length and order; a record is active exactly when its id is the argument; no other field changes |
| Resumes.SetActiveThenListActive | storage/resume_db.py:190-197 | afterwards the active listing holds exactly the records with that id, non-empty when the id exists, and repeating the call changes nothing |
| Resumes.GetMasterResumes | storage/resume_db.py:199-201 | exactly the master resumes, each once, in stored order |
| Resumes.GetTailoredResumes | storage/resume_db.py:203-208 | exactly the non-master resumes, restricted to the given parent when one is given, each once, in stored order |
| Resumes.MastersAndTailoredPartition | storage/resume_db.py:199-208 | master and tailored listings together count every resume once |
| Resumes.AddVersion | storage/resume_db.py:212-217 | one version appended, its id returned |
| Resumes.GetVersions | storage/resume_db.py:219-231 | exactly that resume's versions, a permutation of them, most recent `created_at` first |
| Resumes.GetVersionsStable | storage/resume_db.py:230 | versions with equal `created_at` keep stored order |
| Resumes.MostUsedAfter | storage/resume_db.py:286-291 | the loop state after `n` resumes: the maximum so far (at least 0) and the name of the first resume that reached it, `None` while it is 0 |
| Resumes.MostUsedResume | storage/resume_db.py:285-291 | `None` exactly when no count is positive; otherwise the first resume holding the strict maximum count |
| Resumes.AverageSuccessRate | storage/resume_db.py:282-283 | 0 with no resumes; otherwise the mean success rate |
| Resumes.GetStats | storage/resume_db.py:273-301 | masters plus tailored equals the total; active is at most the total; total applications is the sum of counts; the most used resume as above |
| UserPaths.ReplaceDisallowed | storage/user_utils.py:66 | every character outside `[a-zA-Z0-9_-]` becomes `_`, and only those |
| UserPaths.Collapse | storage/user_utils.py:68 | no two underscores in a row; the first character is kept |
| UserPaths.CollapseKeeps | storage/user_utils.py:68 | collapsing deletes only underscores, so the other characters survive in order |
| UserPaths.CollapseClean | storage/user_utils.py:68 | a string without a double underscore is unchanged |
| UserPaths.CollapseRun | storage/user_utils.py:68 | a run of underscores of any length, followed by anything but an underscore, becomes one underscore |
| UserPaths.CollapseChar | storage/user_utils.py:68 | every character other than an underscore is kept, in its place |
| UserPaths.Strip | storage/user_utils.py:70 | no leading or trailing underscore |
| UserPaths.StripSlice | storage/user_utils.py:70 | the stripped string is the piece of the input between a run of leading and a run of trailing underscores |
| UserPaths.StripKeeps | storage/user_utils.py:70 | stripping deletes only underscores and keeps the character class and the absence of double underscores |
| UserPaths.Sanitize | storage/user_utils.py:66-70 | the result uses only allowed characters, has no `__` and no edge `_`, and keeps every non-underscore character of the replaced input in order |
| UserPaths.SanitizeClean | storage/user_utils.py:66-70 | an already clean name is unchanged |
| UserPaths.SanitizeIdempotent | storage/user_utils.py:66-70 | sanitising twice is sanitising once |
| UserPaths.SanitizeUserId | storage/user_utils.py:64-72 | the user id is clean and contains no path separator |
| UserPaths.ResolveUserId | storage/user_utils.py:86-91 | an explicit user id is used as given (even empty); otherwise the looked-up id, or `default_user` when the lookup raises |
| UserPaths.UserDataDir | storage/user_utils.py:75-93 | the directory lies under `./user_data/`, its first segment there reads back as the user for any id without `/`, and it ends in `/<base_dir>` |
| UserPaths.UserVectorStorePath | storage/user_utils.py:96-114 | the path lies under `./user_data/`, its first segment there reads back as the user for any id without `/`, and it ends in `/vector_store_<collection>` |
| UserPaths.UserCollectionName | storage/user_utils.py:117-139 | `<base>_<s>` where `s` is the user id sanitised to `[a-zA-Z0-9_]` with no `__` and no edge `_` |
| UserPaths.DataDirsSeparate | storage/user_utils.py:86-114 | two different users without `/` in their ids get different data-directory path strings and different vector-store path strings (as text; `.`, `..` and the empty id are not resolved) |
| UserPaths.SanitizedUsersSeparate | storage/user_utils.py:64-93 | users whose sanitised ids differ get different data-directory path strings |
| QuestionBank.InsertUnique | pages/questions.py:78-88 | adding a value to a strictly increasing list keeps it strictly increasing, with that value added |
| QuestionBank.SortedDistinct | pages/questions.py:88 | `sorted(set(xs))`: strictly increasing, with exactly the values of `xs` |
| QuestionBank.Gathered | pages/questions.py:79-87 | exactly the values some question contributes for the field |
| QuestionBank.GetUniqueValues | pages/questions.py:76-88 | strictly increasing (sorted, no repeats), with exactly the values the questions contribute for the field |
| QuestionBank.UniqueValuesByField | pages/questions.py:79-88 | the union of companies or tags; the set of categories or types; `[]` for any other field |
| QuestionBank.SearchQuestions | pages/questions.py:252-260 | exactly the questions whose lowered text, notes, any tag or category contains the lowered query, each once, in stored order; every question for an empty query |
| QuestionBank.SearchNarrows | pages/questions.py:252-260 | a question found by a query is found by every substring of it |
| Text.ContainsIffOccurs | storage/json_db.py:346-349 | `needle in hay` holds exactly when some window of `hay` equals `needle` |

## Left out

- Persistence: reading and writing the JSON, pickle and encrypted files, the plain-JSON fallback when decryption fails, and the swallowed I/O errors. Each store is the list it would load, and each operation returns the list it would write.
- The cosine similarity arithmetic (floating point) and the zero-norm guard. Scores come from a `cosine` parameter, and the embedding provider is the `embedDocuments`/`embedQuery` parameters.
- `datetime.now()`: timestamps and ISO strings are parameters (`now`, `stamp`, `clock`).
- Floating-point rounding: `round(…, 1)` in `JobSearchDB.get_stats` is not applied. Percentages, averages and hours are exact `real` values.
- `str.lower()` is modelled on ASCII letters only, and string order is by code point, as in Python.
- `JobSearch.GetStats`: `avg_days_to_response` is not modelled, because it parses `timeline` dates with `strptime`, and the `Application` model with its timeline is not part of this model. `is_active` comes from that model too and is a parameter.
- `JobSearchDB.update_status`: it delegates to `Application.update_status`, which is not part of this model.
- `InterviewDB.mark_question_practiced`: it delegates to `InterviewQuestion.mark_practiced`, which is not part of this model.
- The model classes (`Application`, `InterviewQuestion`, `TechnicalConcept`, `CompanyResearch`, `PracticeSession`, `Resume`, `ResumeVersion`) with their `to_dict`/`from_dict`: records are Dafny datatypes holding the fields the stores read. Records are assumed complete, so the `.get(key, default)` fallbacks in the `get_stats` methods are not modelled.
- `JobSearch.UpdateApplication`: update values are strings and only the eight modelled fields are settable. Other attributes of the Python object, such as the timeline, are not modelled.
- `ResumeDB.get_file_bytes`, and the bytes written by `_store_file`: file contents are I/O. Only the stored path is modelled.
- `get_user_id` apart from its sanitising lines: the choice among e-mail, name, id, an MD5 hash of the user object, session state and `default_user` reads Streamlit state. Its outcome is the `current` parameter.
- `SimpleVectorStore.from_texts`, `__init__` and the `_load_*`/`_save_*` helpers: construction and persistence.
- The Streamlit pages apart from the two helpers of the question bank page, the Milvus stores, the LLM calls, authentication and document text extraction: these are interface and external services.
- `VectorStore.AddDocuments`: requires every document's content to be a string, as `add_texts` expects.
- `VectorStore.DeleteAsWritten`: its contract states only that no ids change nothing and that alignment is kept. What it removes is stated through `VectorStore.DeleteAsWrittenAgrees` (pairwise distinct ids: exactly the corrected deletion) and `VectorStore.DuplicateIdOverDeletes` (a repeated id), because with repeated ids the second deletion removes whichever record has moved into the slot.
- `Interview.ListCompanies`: returns the stored list unchanged, so it has no property of its own beyond that.
- Metadata values: a record is a `map` from keys to JSON scalars (null, booleans, integers, strings). Floating-point, list and nested-object values, and the key order a Python `dict` keeps, are not modelled, because the store only copies these values and never inspects them.
- `VectorStore.AddTextsIdsDistinct`: distinctness is proved for the ids of one call only, because ids from different calls may coincide after a delete (see above).

## Findings

| source | as written | input that shows it | evidently intended | confidence | as-written member | corrected member |
|---|---|---|---|---|---|---|
| simple_vector_store.py:196-210 | `delete` collects the first match of each id into `indices_to_remove`, then deletes each listed position in descending order. A position listed twice is deleted twice, so the second deletion removes whatever record has moved into that slot. | a store with records `a`, `b`; `delete(["a", "a"])` removes both records | delete each listed record once; ids that repeat, or are not found, have no further effect | not executed | VectorStore.DuplicateIdOverDeletes | VectorStore.DuplicateIdDeletesOnce |

=== FILE: counting.dfy ===
/** Python's counting idiom `counts[x] = counts.get(x, 0) + 1` over a list. A Python
    `dict` keeps keys in first-insertion order, so the tally is a list of
    (key, count) pairs in the order each key first appears. */
module Counting {
  import opened Wrappers
  import opened Seqs
  import opened Sorting

  /** How many times `x` occurs in `xs`. */
  function Occurrences<T(==)>(xs: seq<T>, x: T): nat {
    multiset(xs)[x]
  }

  /** Sum of the counts of a tally. */
  function TotalCount<T>(t: seq<(T, nat)>): nat
    decreases |t|
  {
    if |t| == 0 then 0 else TotalCount(t[..|t| - 1]) + t[|t| - 1].1
  }

  function HasKey<T(==)>(x: T): ((T, nat)) -> bool {
    (e: (T, nat)) => e.0 == x
  }

  /** One step of the loop: bump the count of `x`, adding it at the end if new. */
  function Bump<T(==)>(t: seq<(T, nat)>, x: T): seq<(T, nat)> {
    match FindFirst(t, HasKey(x))
    case None => t + [(x, 1)]
    case Some(i) => t[i := (x, t[i].1 + 1)]
  }

  /** Keys of a tally are pairwise different. */
  ghost predicate DistinctKeys<T>(t: seq<(T, nat)>) {
    forall i, j :: 0 <= i < j < |t| ==> t[i].0 != t[j].0
  }

  /** `t` is the tally of `xs`: distinct keys, each key occurs in `xs` with exactly
      its count, every element of `xs` is a key, and the counts add up to `|xs|`. */
  ghost predicate IsTallyOf<T>(t: seq<(T, nat)>, xs: seq<T>) {
    && DistinctKeys(t)
    && EntriesOf(t, xs)
    && CoversAll(t, xs)
    && TotalCount(t) == |xs|
  }

  /** Every entry is an element of `xs` paired with its number of occurrences. */
  ghost predicate EntriesOf<T>(t: seq<(T, nat)>, xs: seq<T>) {
    forall i :: 0 <= i < |t| ==> t[i].0 in xs && t[i].1 == Occurrences(xs, t[i].0)
  }

  /** Every element of `xs` has an entry. */
  ghost predicate CoversAll<T>(t: seq<(T, nat)>, xs: seq<T>) {
    forall j :: 0 <= j < |xs| ==> HasEntry(t, xs[j])
  }

  /** `x` is the key of some entry. */
  ghost predicate HasEntry<T>(t: seq<(T, nat)>, x: T) {
    exists i :: 0 <= i < |t| && t[i].0 == x
  }

  /** `x` occurs in `xs` before position `j`. */
  ghost predicate SeenBefore<T>(xs: seq<T>, x: T, j: int) {
    exists i :: 0 <= i < j && i < |xs| && xs[i] == x
  }

  /** The keys come in the order of their first occurrence in `xs`: wherever a later
      key occurs, every earlier key has occurred before. */
  ghost predicate FirstSeenOrder<T>(t: seq<(T, nat)>, xs: seq<T>) {
    forall p, q, j :: 0 <= p < q < |t| && 0 <= j < |xs| && xs[j] == t[q].0 ==> SeenBefore(xs, t[p].0, j)
  }

  /** The dictionary the counting loop builds. */
  function Tally<T(==)>(xs: seq<T>): (r: seq<(T, nat)>)
    ensures IsTallyOf(r, xs)
    decreases |xs|
  {
    if |xs| == 0 then []
    else
      var init, x := xs[..|xs| - 1], xs[|xs| - 1];
      var t := Tally(init);
      BumpSpec(t, init, x, xs);
      Bump(t, x)
  }

  /** The tally lists its keys in the order they first occur, as a Python `dict`
      keeps its keys in insertion order. */
  lemma {:induction false} TallyOrder<T>(xs: seq<T>)
    ensures FirstSeenOrder(Tally(xs), xs)
    decreases |xs|
  {
    if |xs| > 0 {
      var init, x := xs[..|xs| - 1], xs[|xs| - 1];
      TallyOrder(init);
      LastSplit(xs);
      TallyStep(xs);
      BumpOrder(Tally(init), init, x, xs);
    }
  }

  lemma TallyStep<T>(xs: seq<T>)
    requires |xs| > 0
    ensures Tally(xs) == Bump(Tally(xs[..|xs| - 1]), xs[|xs| - 1])
  {
  }

  /** Bumping keeps the keys in first-occurrence order. */
  lemma BumpOrder<T>(t: seq<(T, nat)>, init: seq<T>, x: T, xs: seq<T>)
    requires xs == init + [x]
    requires IsTallyOf(t, init) && FirstSeenOrder(t, init)
    ensures FirstSeenOrder(Bump(t, x), xs)
  {
    match FindFirst(t, HasKey(x))
    case None => BumpNewOrder(t, init, x, xs);
    case Some(i) => BumpOldOrder(t, init, x, xs, i);
  }

  /** An occurrence in `init` stays one, at the same position, in `init + [x]`. */
  lemma SeenBeforeExtends<T>(init: seq<T>, x: T, xs: seq<T>, y: T, j: int)
    requires xs == init + [x]
    requires SeenBefore(init, y, j)
    ensures SeenBefore(xs, y, j)
  {
    var i :| 0 <= i < j && i < |init| && init[i] == y;
    assert xs[i] == y;
  }

  lemma BumpNewOrder<T>(t: seq<(T, nat)>, init: seq<T>, x: T, xs: seq<T>)
    requires xs == init + [x]
    requires IsTallyOf(t, init) && FirstSeenOrder(t, init)
    requires forall j :: 0 <= j < |t| ==> t[j].0 != x
    ensures FirstSeenOrder(t + [(x, 1)], xs)
  {
    var r: seq<(T, nat)> := t + [(x, 1)];
    forall j | 0 <= j < |init|
      ensures init[j] != x
    {
      assert HasEntry(t, init[j]);
    }
    forall p, q, j | 0 <= p < q < |r| && 0 <= j < |xs| && xs[j] == r[q].0
      ensures SeenBefore(xs, r[p].0, j)
    {
      assert r[p] == t[p];
      if q < |t| {
        assert r[q] == t[q] && j < |init| && init[j] == xs[j];
        SeenBeforeExtends(init, x, xs, t[p].0, j);
      } else {
        assert j == |init|;
        var k :| 0 <= k < |init| && init[k] == t[p].0;
        assert xs[k] == t[p].0;
      }
    }
  }

  lemma BumpOldOrder<T>(t: seq<(T, nat)>, init: seq<T>, x: T, xs: seq<T>, i: nat)
    requires xs == init + [x]
    requires IsTallyOf(t, init) && FirstSeenOrder(t, init)
    requires i < |t| && t[i].0 == x
    ensures FirstSeenOrder(t[i := (x, t[i].1 + 1)], xs)
  {
    var r := t[i := (x, t[i].1 + 1)];
    var k :| 0 <= k < |init| && init[k] == x;
    forall p, q, j | 0 <= p < q < |r| && 0 <= j < |xs| && xs[j] == r[q].0
      ensures SeenBefore(xs, r[p].0, j)
    {
      assert r[p].0 == t[p].0 && r[q].0 == t[q].0;
      if j < |init| {
        assert init[j] == xs[j];
        SeenBeforeExtends(init, x, xs, t[p].0, j);
      } else {
        assert t[q].0 == init[k];
        SeenBeforeExtends(init, x, xs, t[p].0, k);
      }
    }
  }

  /** Every element of the list has an entry. */
  lemma Covers<T>(t: seq<(T, nat)>, xs: seq<T>, j: nat)
    requires IsTallyOf(t, xs) && j < |xs|
    ensures exists i :: 0 <= i < |t| && t[i].0 == xs[j]
  {
    assert HasEntry(t, xs[j]);
  }

  lemma BumpSpec<T>(t: seq<(T, nat)>, init: seq<T>, x: T, xs: seq<T>)
    requires xs == init + [x]
    requires IsTallyOf(t, init)
    ensures IsTallyOf(Bump(t, x), xs)
  {
    match FindFirst(t, HasKey(x))
    case None => BumpNew(t, init, x, xs);
    case Some(i) => BumpExisting(t, init, x, xs, i);
  }

  lemma BumpNew<T>(t: seq<(T, nat)>, init: seq<T>, x: T, xs: seq<T>)
    requires xs == init + [x]
    requires IsTallyOf(t, init)
    requires forall j :: 0 <= j < |t| ==> t[j].0 != x
    ensures IsTallyOf(t + [(x, 1)], xs)
  {
    var r: seq<(T, nat)> := t + [(x, 1)];
    BumpNewEntries(t, init, x, xs);
    BumpNewCovers(t, init, x, xs);
    assert r[..|r| - 1] == t;
  }

  lemma BumpNewEntries<T>(t: seq<(T, nat)>, init: seq<T>, x: T, xs: seq<T>)
    requires xs == init + [x]
    requires IsTallyOf(t, init)
    requires forall j :: 0 <= j < |t| ==> t[j].0 != x
    ensures EntriesOf(t + [(x, 1)], xs)
  {
    var r: seq<(T, nat)> := t + [(x, 1)];
    assert x !in init;
    forall i | 0 <= i < |r|
      ensures r[i].0 in xs && r[i].1 == Occurrences(xs, r[i].0)
    {
      assert multiset(xs) == multiset(init) + multiset{x};
      if i < |t| {
        assert r[i] == t[i];
      }
    }
  }

  lemma BumpNewCovers<T>(t: seq<(T, nat)>, init: seq<T>, x: T, xs: seq<T>)
    requires xs == init + [x]
    requires CoversAll(t, init)
    ensures CoversAll(t + [(x, 1)], xs)
  {
    var r: seq<(T, nat)> := t + [(x, 1)];
    forall j | 0 <= j < |xs|
      ensures HasEntry(r, xs[j])
    {
      if j < |init| {
        assert xs[j] == init[j] && HasEntry(t, init[j]);
        var i :| 0 <= i < |t| && t[i].0 == init[j];
        assert r[i].0 == t[i].0;
      } else {
        assert r[|t|].0 == x;
      }
    }
  }

  lemma BumpExisting<T>(t: seq<(T, nat)>, init: seq<T>, x: T, xs: seq<T>, k: nat)
    requires xs == init + [x]
    requires IsTallyOf(t, init)
    requires k < |t| && t[k].0 == x
    ensures IsTallyOf(t[k := (x, t[k].1 + 1)], xs)
  {
    var r := t[k := (x, t[k].1 + 1)];
    forall i | 0 <= i < |r|
      ensures r[i].0 in xs && r[i].1 == Occurrences(xs, r[i].0)
    {
      assert multiset(xs) == multiset(init) + multiset{x};
    }
    forall j | 0 <= j < |xs|
      ensures HasEntry(r, xs[j])
    {
      if j < |init| {
        assert xs[j] == init[j] && HasEntry(t, init[j]);
        var i :| 0 <= i < |t| && t[i].0 == init[j];
        assert r[i].0 == t[i].0;
      } else {
        assert r[k].0 == x;
      }
    }
    TotalUpdate(t, k, (x, t[k].1 + 1));
  }

  /** Replacing one entry changes the total by the difference of the counts. */
  lemma {:induction false} TotalUpdate<T>(t: seq<(T, nat)>, i: nat, e: (T, nat))
    requires i < |t|
    ensures TotalCount(t[i := e]) == TotalCount(t) - t[i].1 + e.1
    decreases |t|
  {
    var u := t[i := e];
    if i < |t| - 1 {
      assert u[..|u| - 1] == t[..|t| - 1][i := e];
      TotalUpdate(t[..|t| - 1], i, e);
    } else {
      assert u[..|u| - 1] == t[..|t| - 1];
    }
  }

  /** An entry's count, the key `sorted(counts.items(), key=lambda x: x[1], reverse=True)` uses. */
  function Count<T>(e: (T, nat)): int {
    e.1
  }

  /** Entries are in non-increasing count order. */
  ghost predicate ByCount<T>(t: seq<(T, nat)>) {
    forall p, q :: 0 <= p < q < |t| ==> t[p].1 >= t[q].1
  }

  /** `x` has an entry in `t`. */
  predicate Listed<T(==)>(t: seq<(T, nat)>, x: T) {
    exists q :: 0 <= q < |t| && t[q].0 == x
  }

  /** The tally of `xs` sorted by count, most frequent first. */
  function Ranked<T(==)>(xs: seq<T>): (r: seq<(T, nat)>)
    ensures multiset(r) == multiset(Tally(xs))
    ensures ByCount(r)
  {
    IntOrder();
    var r := SortDesc(Tally(xs), Count, IntLt);
    assert forall p, q :: 0 <= p < q < |r| ==> !IntLt(Count(r[p]), Count(r[q]));
    r
  }

  /** Reordering a tally leaves it a tally. */
  lemma PermutedTally<T>(t: seq<(T, nat)>, u: seq<(T, nat)>, xs: seq<T>)
    requires IsTallyOf(t, xs) && multiset(u) == multiset(t)
    ensures |u| == |t| && EntriesOf(u, xs) && CoversAll(u, xs) && DistinctKeys(u)
  {
    assert |multiset(u)| == |multiset(t)|;
    forall p | 0 <= p < |u|
      ensures u[p].0 in xs && u[p].1 == Occurrences(xs, u[p].0)
    {
      assert u[p] in multiset(t);
    }
    forall j | 0 <= j < |xs|
      ensures HasEntry(u, xs[j])
    {
      Covers(t, xs, j);
      var i :| 0 <= i < |t| && t[i].0 == xs[j];
      assert t[i] in multiset(u);
    }
    PermutedKeys(t, u, xs);
  }

  lemma PermutedKeys<T>(t: seq<(T, nat)>, u: seq<(T, nat)>, xs: seq<T>)
    requires IsTallyOf(t, xs) && multiset(u) == multiset(t)
    requires EntriesOf(u, xs)
    ensures DistinctKeys(u)
  {
    forall p, q | 0 <= p < q < |u|
      ensures u[p].0 != u[q].0
    {
      if u[p].0 == u[q].0 {
        assert u[p] == u[q];
        assert multiset(u)[u[p]] >= 2 by {
          assert u == u[..p] + [u[p]] + u[p + 1..q] + [u[q]] + u[q + 1..];
        }
        DistinctEntries(t);
      }
    }
  }

  /** A list without repeated keys has no repeated entries. */
  lemma {:induction false} DistinctEntries<T>(t: seq<(T, nat)>)
    requires DistinctKeys(t)
    ensures forall e :: multiset(t)[e] <= 1
    decreases |t|
  {
    if |t| > 0 {
      DistinctEntries(t[1..]);
      assert t == [t[0]] + t[1..];
      forall e
        ensures multiset(t)[e] <= 1
      {
        if e == t[0] {
          assert e !in t[1..] by {
            forall k | 0 <= k < |t[1..]|
              ensures t[1..][k] != e
            {
              assert t[k + 1].0 != t[0].0;
            }
          }
        }
      }
    }
  }

  /** `sorted_counts[:limit]`: the `limit` most frequent elements with their counts,
      most frequent first, each at least as frequent as any element left out. */
  function TopCounts<T(==)>(xs: seq<T>, limit: int): (r: seq<(T, nat)>)
    ensures |r| == SliceEnd(|Tally(xs)|, limit)
    ensures EntriesOf(r, xs) && DistinctKeys(r) && ByCount(r)
    ensures forall p, j :: 0 <= p < |r| && 0 <= j < |xs| && !Listed(r, xs[j]) ==> r[p].1 >= Occurrences(xs, xs[j])
    ensures TiesKeepFirstSeen(r, xs)
    ensures EqualCountsFirstSeen(r, xs)
  {
    var ranked := Ranked(xs);
    PermutedTally(Tally(xs), ranked, xs);
    var r := Take(ranked, limit);
    PrefixKeeps(ranked, r, xs);
    TopBeatsRest(ranked, xs, limit);
    TopTiesFirstSeen(xs, limit);
    TopTieOrder(xs, limit);
    r
  }

  /** Entries with equal counts come in the order their keys first occur in `xs`. */
  ghost predicate EqualCountsFirstSeen<T>(r: seq<(T, nat)>, xs: seq<T>) {
    forall p, q, j :: 0 <= p < q < |r| && r[p].1 == r[q].1 && 0 <= j < |xs| && xs[j] == r[q].0 ==>
      SeenBefore(xs, r[p].0, j)
  }

  /** A prefix of the ranking keeps equally frequent keys in first-occurrence order. */
  lemma TopTieOrder<T>(xs: seq<T>, limit: int)
    ensures EqualCountsFirstSeen(Take(Ranked(xs), limit), xs)
  {
    var ranked := Ranked(xs);
    var r := Take(ranked, limit);
    forall p, q, j | 0 <= p < q < |r| && r[p].1 == r[q].1 && 0 <= j < |xs| && xs[j] == r[q].0
      ensures SeenBefore(xs, r[p].0, j)
    {
      assert r[p] == ranked[p] && r[q] == ranked[q];
      RankedTieOrder(xs, p, q, j);
    }
  }

  /** An element of `xs` left out of `r` with the same count as a kept key occurs only
      after that key first occurred: of equally frequent elements, the first seen are kept. */
  ghost predicate TiesKeepFirstSeen<T>(r: seq<(T, nat)>, xs: seq<T>) {
    forall p, j :: 0 <= p < |r| && 0 <= j < |xs| && !Listed(r, xs[j]) && Occurrences(xs, xs[j]) == r[p].1 ==>
      SeenBefore(xs, r[p].0, j)
  }

  /** Cutting the ranking keeps the first seen of equally frequent elements, as the
      stable sort leaves them in first-occurrence order. */
  lemma TopTiesFirstSeen<T>(xs: seq<T>, limit: int)
    ensures TiesKeepFirstSeen(Take(Ranked(xs), limit), xs)
  {
    var ranked := Ranked(xs);
    PermutedTally(Tally(xs), ranked, xs);
    var r := Take(ranked, limit);
    forall p, j | 0 <= p < |r| && 0 <= j < |xs| && !Listed(r, xs[j]) && Occurrences(xs, xs[j]) == r[p].1
      ensures SeenBefore(xs, r[p].0, j)
    {
      assert HasEntry(ranked, xs[j]);
      var e :| 0 <= e < |ranked| && ranked[e].0 == xs[j];
      TakeLists(ranked, limit, e);
      assert r[p] == ranked[p];
      RankedTieOrder(xs, p, e, j);
    }
  }

  /** Every entry before the cut is listed in the prefix. */
  lemma TakeLists<T>(ranked: seq<(T, nat)>, limit: int, e: nat)
    ensures e < |Take(ranked, limit)| ==> Listed(Take(ranked, limit), ranked[e].0)
  {
    if e < |Take(ranked, limit)| {
      assert Take(ranked, limit)[e] == ranked[e];
    }
  }

  /** Of two keys with equal counts in the ranking, the earlier one was seen first. */
  lemma RankedTieOrder<T>(xs: seq<T>, p: nat, q: nat, j: nat)
    requires p < q < |Ranked(xs)| && Ranked(xs)[p].1 == Ranked(xs)[q].1
    requires j < |xs| && xs[j] == Ranked(xs)[q].0
    ensures SeenBefore(xs, Ranked(xs)[p].0, j)
  {
    var ranked := Ranked(xs);
    var keep := KeyIs(Count, ranked[q].1 as int);
    RankedTies(xs, ranked[q].1);
    FilterSelects(ranked, keep);
    SelectsOrder(Filter(ranked, keep), ranked, keep, p, q);
  }

  lemma PrefixKeeps<T>(ranked: seq<(T, nat)>, r: seq<(T, nat)>, xs: seq<T>)
    requires EntriesOf(ranked, xs) && DistinctKeys(ranked) && ByCount(ranked)
    requires |r| <= |ranked| && r == ranked[..|r|]
    ensures EntriesOf(r, xs) && DistinctKeys(r) && ByCount(r)
  {
    assert forall p :: 0 <= p < |r| ==> r[p] == ranked[p];
  }

  /** A prefix of a count-ordered tally outranks every element it leaves out. */
  lemma TopBeatsRest<T>(ranked: seq<(T, nat)>, xs: seq<T>, limit: int)
    requires EntriesOf(ranked, xs) && CoversAll(ranked, xs) && ByCount(ranked)
    ensures var r := Take(ranked, limit);
      forall p, j :: 0 <= p < |r| && 0 <= j < |xs| && !Listed(r, xs[j]) ==> r[p].1 >= Occurrences(xs, xs[j])
  {
    var r := Take(ranked, limit);
    forall p, j | 0 <= p < |r| && 0 <= j < |xs| && !Listed(r, xs[j])
      ensures r[p].1 >= Occurrences(xs, xs[j])
    {
      assert HasEntry(ranked, xs[j]);
      var e :| 0 <= e < |ranked| && ranked[e].0 == xs[j];
      assert e >= |r|;
    }
  }

  /** Elements with equal counts keep the order in which they first appeared. */
  lemma RankedTies<T>(xs: seq<T>, n: nat)
    ensures Filter(Ranked(xs), KeyIs(Count, n)) == Filter(Tally(xs), KeyIs(Count, n))
    ensures FirstSeenOrder(Filter(Ranked(xs), KeyIs(Count, n)), xs)
  {
    IntOrder();
    SortDescStable(Tally(xs), Count, IntLt, n);
    FilterSelects(Tally(xs), KeyIs(Count, n));
    TallyOrder(xs);
    FirstSeenOrderSelects(Tally(xs), xs, Filter(Tally(xs), KeyIs(Count, n)), KeyIs(Count, n));
  }

  /** Part of a tally taken in its order is still in first-occurrence order. */
  lemma FirstSeenOrderSelects<T>(t: seq<(T, nat)>, xs: seq<T>, f: seq<(T, nat)>, keep: ((T, nat)) -> bool)
    requires FirstSeenOrder(t, xs) && Selects(f, t, keep)
    ensures FirstSeenOrder(f, xs)
  {
    var ps := Passing(t, keep);
    forall p, q, j | 0 <= p < q < |f| && 0 <= j < |xs| && xs[j] == f[q].0
      ensures SeenBefore(xs, f[p].0, j)
    {
      assert f[p] == t[ps[p]] && f[q] == t[ps[q]] && ps[p] < ps[q];
    }
  }
}

=== FILE: interview_db.dfy ===
/** `InterviewDB`: four JSON lists (questions, technical concepts, company research,
    practice sessions), each keyed by `id`. File I/O and encryption are not modelled:
    operations take the loaded lists and return what would be written. */
module Interview {
  import opened Wrappers
  import opened Text
  import opened Seqs
  import opened Sorting
  import opened Counting
  import Records

  /** The fields of an `InterviewQuestion` the stores and the questions page use. */
  datatype Question = Question(
    id: string,
    question: string,
    qtype: string,
    category: string,
    difficulty: string,
    companies: seq<string>,
    tags: seq<string>,
    notes: string,
    practiceCount: int,
    updatedAt: string)

  datatype Concept = Concept(id: string, name: string, category: string, tags: seq<string>, updatedAt: string)

  datatype CompanyResearch = CompanyResearch(id: string, company: string, updatedAt: string)

  datatype PracticeSession = PracticeSession(id: string, sessionType: string, date: string, durationMinutes: int)

  function QuestionId(q: Question): string { q.id }
  function ConceptId(c: Concept): string { c.id }
  function CompanyId(c: CompanyResearch): string { c.id }
  function SessionId(s: PracticeSession): string { s.id }

  // ---------- Questions ----------

  /** `add_question(question)`: appended at the end; its id is returned. */
  function AddQuestion(qs: seq<Question>, q: Question): (r: (string, seq<Question>))
    ensures r.0 == q.id && |r.1| == |qs| + 1 && r.1[..|qs|] == qs && r.1[|qs|] == q
  {
    (q.id, Records.Add(qs, q))
  }

  /** `get_question(question_id)`: the first question with that id, or `None`. */
  function GetQuestion(qs: seq<Question>, id: string): (r: Option<Question>)
    ensures r.None? <==> forall i :: 0 <= i < |qs| ==> qs[i].id != id
    ensures r.Some? ==> exists i :: FirstAt(qs, Records.IdIs(QuestionId, id), i) && qs[i] == r.value
  {
    Records.Get(qs, QuestionId, id)
  }

  /** The question filters of `list_questions`, each applied only when given. */
  predicate QuestionPasses(q: Question, qtype: Option<string>, category: Option<string>,
                           difficulty: Option<string>, company: Option<string>, tag: Option<string>) {
    && (!Given(qtype) || q.qtype == qtype.value)
    && (!Given(category) || q.category == category.value)
    && (!Given(difficulty) || q.difficulty == difficulty.value)
    && (!Given(company) || company.value in q.companies)
    && (!Given(tag) || tag.value in q.tags)
  }

  function QuestionFilter(qtype: Option<string>, category: Option<string>, difficulty: Option<string>,
                          company: Option<string>, tag: Option<string>): Question -> bool {
    q => QuestionPasses(q, qtype, category, difficulty, company, tag)
  }

  /** `list_questions(type, category, difficulty, company, tag)`: the questions passing
      every given filter, each once, in stored order. */
  function ListQuestions(qs: seq<Question>, qtype: Option<string>, category: Option<string>,
                         difficulty: Option<string>, company: Option<string>, tag: Option<string>)
    : (r: seq<Question>)
    ensures forall q :: q in r <==> q in qs && QuestionPasses(q, qtype, category, difficulty, company, tag)
    ensures !Given(qtype) && !Given(category) && !Given(difficulty) && !Given(company) && !Given(tag) ==> r == qs
    ensures Selects(r, qs, QuestionFilter(qtype, category, difficulty, company, tag))
  {
    var p := QuestionFilter(qtype, category, difficulty, company, tag);
    var r := Filter(qs, p);
    FilterSelects(qs, p);
    assert !Given(qtype) && !Given(category) && !Given(difficulty) && !Given(company) && !Given(tag) ==> r == qs by {
      if !Given(qtype) && !Given(category) && !Given(difficulty) && !Given(company) && !Given(tag) {
        FilterAll(qs, p);
      }
    }
    r
  }

  /** `update_question(question)`: the first question with its id is replaced by it,
      stamped with `updated_at = now`; `False` and no write when the id is absent. */
  function UpdateQuestion(qs: seq<Question>, q: Question, now: string): (r: (bool, seq<Question>))
    ensures r.0 <==> exists i :: 0 <= i < |qs| && qs[i].id == q.id
    ensures !r.0 ==> r.1 == qs
    ensures |r.1| == |qs|
    ensures forall j :: 0 <= j < |qs| ==>
      r.1[j] == if FirstAt(qs, Records.IdIs(QuestionId, q.id), j) then q.(updatedAt := now) else qs[j]
  {
    Records.Replace(qs, QuestionId, q.(updatedAt := now))
  }

  /** `delete_question(question_id)`: every question with that id goes and every other
      stays, in stored order; `True` exactly when one was there. */
  function DeleteQuestion(qs: seq<Question>, id: string): (r: (bool, seq<Question>))
    ensures r.0 <==> exists i :: 0 <= i < |qs| && qs[i].id == id
    ensures !r.0 ==> r.1 == qs
    ensures forall q :: q in r.1 <==> q in qs && q.id != id
    ensures Selects(r.1, qs, Not(Records.IdIs(QuestionId, id)))
  {
    Records.Delete(qs, QuestionId, id)
  }

  /** An updated question is what a lookup of its id returns. */
  lemma UpdateThenGetQuestion(qs: seq<Question>, q: Question, now: string)
    requires UpdateQuestion(qs, q, now).0
    ensures GetQuestion(UpdateQuestion(qs, q, now).1, q.id) == Some(q.(updatedAt := now))
  {
    Records.ReplaceThenGet(qs, QuestionId, q.(updatedAt := now));
  }

  // ---------- Technical concepts ----------

  /** `add_concept(concept)`: appended at the end; its id is returned. */
  function AddConcept(cs: seq<Concept>, c: Concept): (r: (string, seq<Concept>))
    ensures r.0 == c.id && |r.1| == |cs| + 1 && r.1[..|cs|] == cs && r.1[|cs|] == c
  {
    (c.id, Records.Add(cs, c))
  }

  /** `get_concept(concept_id)`: the first concept with that id, or `None`. */
  function GetConcept(cs: seq<Concept>, id: string): (r: Option<Concept>)
    ensures r.None? <==> forall i :: 0 <= i < |cs| ==> cs[i].id != id
    ensures r.Some? ==> exists i :: FirstAt(cs, Records.IdIs(ConceptId, id), i) && cs[i] == r.value
  {
    Records.Get(cs, ConceptId, id)
  }

  predicate ConceptPasses(c: Concept, category: Option<string>, tag: Option<string>) {
    (!Given(category) || c.category == category.value) && (!Given(tag) || tag.value in c.tags)
  }

  function ConceptFilter(category: Option<string>, tag: Option<string>): Concept -> bool {
    c => ConceptPasses(c, category, tag)
  }

  /** `list_concepts(category, tag)`: the concepts passing both given filters, each
      once, in stored order. */
  function ListConcepts(cs: seq<Concept>, category: Option<string>, tag: Option<string>): (r: seq<Concept>)
    ensures forall c :: c in r <==> c in cs && ConceptPasses(c, category, tag)
    ensures !Given(category) && !Given(tag) ==> r == cs
    ensures Selects(r, cs, ConceptFilter(category, tag))
  {
    var p := ConceptFilter(category, tag);
    var r := Filter(cs, p);
    FilterSelects(cs, p);
    assert !Given(category) && !Given(tag) ==> r == cs by {
      if !Given(category) && !Given(tag) {
        FilterAll(cs, p);
      }
    }
    r
  }

  /** `update_concept(concept)`: as `update_question`, for concepts. */
  function UpdateConcept(cs: seq<Concept>, c: Concept, now: string): (r: (bool, seq<Concept>))
    ensures r.0 <==> exists i :: 0 <= i < |cs| && cs[i].id == c.id
    ensures !r.0 ==> r.1 == cs
    ensures |r.1| == |cs|
    ensures forall j :: 0 <= j < |cs| ==>
      r.1[j] == if FirstAt(cs, Records.IdIs(ConceptId, c.id), j) then c.(updatedAt := now) else cs[j]
  {
    Records.Replace(cs, ConceptId, c.(updatedAt := now))
  }

  /** `delete_concept(concept_id)`. */
  function DeleteConcept(cs: seq<Concept>, id: string): (r: (bool, seq<Concept>))
    ensures r.0 <==> exists i :: 0 <= i < |cs| && cs[i].id == id
    ensures !r.0 ==> r.1 == cs
    ensures forall c :: c in r.1 <==> c in cs && c.id != id
    ensures Selects(r.1, cs, Not(Records.IdIs(ConceptId, id)))
  {
    Records.Delete(cs, ConceptId, id)
  }

  // ---------- Company research ----------

  function SameName(name: string): CompanyResearch -> bool {
    (c: CompanyResearch) => Lower(c.company) == Lower(name)
  }

  /** No two research entries share a company name, ignoring case: what `add_company`
      keeps true. */
  predicate UniqueNames(cs: seq<CompanyResearch>) {
    forall i, j :: 0 <= i < j < |cs| ==> Lower(cs[i].company) != Lower(cs[j].company)
  }

  /** `add_company(company)`: refused with `ValueError` when research for the same name
      (ignoring case) exists; otherwise appended, and its id returned. */
  function AddCompany(cs: seq<CompanyResearch>, c: CompanyResearch): (r: Result<(string, seq<CompanyResearch>)>)
    ensures r.Err? <==> exists i :: 0 <= i < |cs| && Lower(cs[i].company) == Lower(c.company)
    ensures r.Err? ==> r.message == "Company research for " + c.company + " already exists"
    ensures r.Ok? ==> r.value.0 == c.id && r.value.1 == Records.Add(cs, c)
    ensures r.Ok? && UniqueNames(cs) ==> UniqueNames(r.value.1)
  {
    if exists i :: 0 <= i < |cs| && Lower(cs[i].company) == Lower(c.company) then
      Err("Company research for " + c.company + " already exists")
    else
      var after := Records.Add(cs, c);
      assert forall i :: 0 <= i < |cs| ==> after[i] == cs[i];
      Ok((c.id, after))
  }

  /** `get_company(company_id)`. */
  function GetCompany(cs: seq<CompanyResearch>, id: string): (r: Option<CompanyResearch>)
    ensures r.None? <==> forall i :: 0 <= i < |cs| ==> cs[i].id != id
    ensures r.Some? ==> exists i :: FirstAt(cs, Records.IdIs(CompanyId, id), i) && cs[i] == r.value
  {
    Records.Get(cs, CompanyId, id)
  }

  /** `get_company_by_name(company_name)`: the first entry whose name matches,
      ignoring case. */
  function GetCompanyByName(cs: seq<CompanyResearch>, name: string): (r: Option<CompanyResearch>)
    ensures r.None? <==> forall i :: 0 <= i < |cs| ==> Lower(cs[i].company) != Lower(name)
    ensures r.Some? ==> exists i :: FirstAt(cs, SameName(name), i) && cs[i] == r.value
  {
    First(cs, SameName(name))
  }

  /** Research just added is found by its name, in any letter case. */
  lemma AddThenFindByName(cs: seq<CompanyResearch>, c: CompanyResearch, name: string)
    requires AddCompany(cs, c).Ok?
    requires Lower(name) == Lower(c.company)
    ensures GetCompanyByName(AddCompany(cs, c).value.1, name) == Some(c)
  {
    var after := AddCompany(cs, c).value.1;
    assert SameName(name)(after[|cs|]);
    var r := GetCompanyByName(after, name);
    var i :| FirstAt(after, SameName(name), i) && after[i] == r.value;
  }

  /** `list_companies()`: every entry, in stored order. */
  function ListCompanies(cs: seq<CompanyResearch>): (r: seq<CompanyResearch>)
    ensures r == cs
  {
    cs
  }

  /** `update_company(company)`. */
  function UpdateCompany(cs: seq<CompanyResearch>, c: CompanyResearch, now: string): (r: (bool, seq<CompanyResearch>))
    ensures r.0 <==> exists i :: 0 <= i < |cs| && cs[i].id == c.id
    ensures !r.0 ==> r.1 == cs
    ensures |r.1| == |cs|
    ensures forall j :: 0 <= j < |cs| ==>
      r.1[j] == if FirstAt(cs, Records.IdIs(CompanyId, c.id), j) then c.(updatedAt := now) else cs[j]
  {
    Records.Replace(cs, CompanyId, c.(updatedAt := now))
  }

  /** `delete_company(company_id)`. */
  function DeleteCompany(cs: seq<CompanyResearch>, id: string): (r: (bool, seq<CompanyResearch>))
    ensures r.0 <==> exists i :: 0 <= i < |cs| && cs[i].id == id
    ensures !r.0 ==> r.1 == cs
    ensures forall c :: c in r.1 <==> c in cs && c.id != id
    ensures Selects(r.1, cs, Not(Records.IdIs(CompanyId, id)))
  {
    Records.Delete(cs, CompanyId, id)
  }

  // ---------- Practice sessions ----------

  /** `add_practice_session(session)`. */
  function AddPracticeSession(ss: seq<PracticeSession>, s: PracticeSession): (r: (string, seq<PracticeSession>))
    ensures r.0 == s.id && |r.1| == |ss| + 1 && r.1[..|ss|] == ss && r.1[|ss|] == s
  {
    (s.id, Records.Add(ss, s))
  }

  /** `get_practice_session(session_id)`. */
  function GetPracticeSession(ss: seq<PracticeSession>, id: string): (r: Option<PracticeSession>)
    ensures r.None? <==> forall i :: 0 <= i < |ss| ==> ss[i].id != id
    ensures r.Some? ==> exists i :: FirstAt(ss, Records.IdIs(SessionId, id), i) && ss[i] == r.value
  {
    Records.Get(ss, SessionId, id)
  }

  function Date(s: PracticeSession): string { s.date }

  /** `list_practice_sessions(session_type, limit)`: sessions of the given type, most
      recent date first, cut to `result[:limit]` only when `limit` is truthy. */
  function ListPracticeSessions(ss: seq<PracticeSession>, sessionType: Option<string>, limit: Option<int>)
    : (r: seq<PracticeSession>)
    ensures forall p, q :: 0 <= p < q < |r| ==> !StrLt(r[p].date, r[q].date)
    ensures forall s :: s in r ==> s in ss && TypeIs(sessionType)(s)
    ensures limit.None? || limit.value == 0 ==> multiset(r) == multiset(Filter(ss, TypeIs(sessionType)))
    ensures limit.None? || limit.value == 0 ==> forall s :: s in ss && TypeIs(sessionType)(s) ==> s in r
    ensures limit.Some? && limit.value != 0 ==> |r| == SliceEnd(|Filter(ss, TypeIs(sessionType))|, limit.value)
  {
    var sorted := ByDate(ss, sessionType);
    if limit.Some? && limit.value != 0 then
      var r := Take(sorted, limit.value);
      assert forall s :: s in r ==> s in sorted;
      r
    else
      sorted
  }

  /** The sessions of the given type, most recent date first. */
  function ByDate(ss: seq<PracticeSession>, sessionType: Option<string>): (r: seq<PracticeSession>)
    ensures forall p, q :: 0 <= p < q < |r| ==> !StrLt(r[p].date, r[q].date)
    ensures multiset(r) == multiset(Filter(ss, TypeIs(sessionType)))
    ensures |r| == |Filter(ss, TypeIs(sessionType))|
    ensures forall s :: s in r <==> s in ss && TypeIs(sessionType)(s)
  {
    StringOrder();
    var typed := Filter(ss, TypeIs(sessionType));
    var r := SortDesc(typed, Date, StrLt);
    assert forall s :: s in r <==> s in multiset(r);
    assert forall s :: s in typed <==> s in multiset(typed);
    assert |multiset(r)| == |multiset(typed)|;
    r
  }

  function TypeIs(sessionType: Option<string>): PracticeSession -> bool {
    (s: PracticeSession) => !Given(sessionType) || s.sessionType == sessionType.value
  }

  /** Sessions on the same date keep their stored order (Python's sort is stable, also
      with `reverse=True`), and a limit keeps the most recent ones: the unlimited
      listing cut after `limit` sessions. */
  lemma ListPracticeSessionsOrder(ss: seq<PracticeSession>, sessionType: Option<string>, limit: int, date: string)
    requires limit != 0
    ensures Filter(ListPracticeSessions(ss, sessionType, None), KeyIs(Date, date)) ==
            Filter(Filter(ss, TypeIs(sessionType)), KeyIs(Date, date))
    ensures ListPracticeSessions(ss, sessionType, Some(limit)) == Take(ListPracticeSessions(ss, sessionType, None), limit)
  {
    StringOrder();
    SortDescStable(Filter(ss, TypeIs(sessionType)), Date, StrLt, date);
  }

  /** `update_practice_session(session)`: replaced as stored, with no timestamp. */
  function UpdatePracticeSession(ss: seq<PracticeSession>, s: PracticeSession): (r: (bool, seq<PracticeSession>))
    ensures r.0 <==> exists i :: 0 <= i < |ss| && ss[i].id == s.id
    ensures !r.0 ==> r.1 == ss
    ensures |r.1| == |ss|
    ensures forall j :: 0 <= j < |ss| ==> r.1[j] == if FirstAt(ss, Records.IdIs(SessionId, s.id), j) then s else ss[j]
  {
    Records.Replace(ss, SessionId, s)
  }

  /** `delete_practice_session(session_id)`. */
  function DeletePracticeSession(ss: seq<PracticeSession>, id: string): (r: (bool, seq<PracticeSession>))
    ensures r.0 <==> exists i :: 0 <= i < |ss| && ss[i].id == id
    ensures !r.0 ==> r.1 == ss
    ensures forall s :: s in r.1 <==> s in ss && s.id != id
    ensures Selects(r.1, ss, Not(Records.IdIs(SessionId, id)))
  {
    Records.Delete(ss, SessionId, id)
  }

  // ---------- Statistics ----------

  datatype Stats = Stats(
    totalQuestions: nat,
    byType: seq<(string, nat)>,
    byDifficulty: seq<(string, nat)>,
    practiced: nat,
    practicePercentage: real,
    totalConcepts: nat,
    byCategory: seq<(string, nat)>,
    totalCompanies: nat,
    totalSessions: nat,
    practiceMinutes: int,
    practiceHours: real)

  function Types(qs: seq<Question>): (r: seq<string>)
    ensures |r| == |qs| && forall i :: 0 <= i < |qs| ==> r[i] == qs[i].qtype
  {
    seq(|qs|, i requires 0 <= i < |qs| => qs[i].qtype)
  }

  function Difficulties(qs: seq<Question>): (r: seq<string>)
    ensures |r| == |qs| && forall i :: 0 <= i < |qs| ==> r[i] == qs[i].difficulty
  {
    seq(|qs|, i requires 0 <= i < |qs| => qs[i].difficulty)
  }

  function Categories(cs: seq<Concept>): (r: seq<string>)
    ensures |r| == |cs| && forall i :: 0 <= i < |cs| ==> r[i] == cs[i].category
  {
    seq(|cs|, i requires 0 <= i < |cs| => cs[i].category)
  }

  function Durations(ss: seq<PracticeSession>): (r: seq<int>)
    ensures |r| == |ss| && forall i :: 0 <= i < |ss| ==> r[i] == ss[i].durationMinutes
  {
    seq(|ss|, i requires 0 <= i < |ss| => ss[i].durationMinutes)
  }

  function Practiced(q: Question): bool {
    q.practiceCount > 0
  }

  /** The share of questions practiced at least once, as a percentage; 0 for no
      questions. */
  function PracticePercentage(qs: seq<Question>): (r: real)
    ensures |qs| == 0 ==> r == 0.0
    ensures |qs| > 0 ==> r == (CountWhere(qs, Practiced) as real) / (|qs| as real) * 100.0
    ensures 0.0 <= r <= 100.0
    ensures |qs| > 0 ==> (r == 100.0 <==> forall i :: 0 <= i < |qs| ==> qs[i].practiceCount > 0)
  {
    var practiced := CountWhere(qs, Practiced);
    assert practiced == |qs| <==> forall i :: 0 <= i < |qs| ==> Practiced(qs[i]);
    if |qs| > 0 then
      PercentageBound(practiced, |qs|);
      (practiced as real) / (|qs| as real) * 100.0
    else 0.0
  }

  /** Total practice time in hours; 0 unless the minutes are positive. */
  function PracticeHours(minutes: int): (r: real)
    ensures minutes > 0 ==> r * 60.0 == minutes as real
    ensures minutes <= 0 ==> r == 0.0
  {
    if minutes > 0 then (minutes as real) / 60.0 else 0.0
  }

  /** `get_stats()`. */
  function GetStats(qs: seq<Question>, cs: seq<Concept>, companies: seq<CompanyResearch>, ss: seq<PracticeSession>)
    : (r: Stats)
    ensures r.totalQuestions == |qs| && r.totalConcepts == |cs|
    ensures r.totalCompanies == |companies| && r.totalSessions == |ss|
    ensures IsTallyOf(r.byType, Types(qs))
    ensures IsTallyOf(r.byDifficulty, Difficulties(qs))
    ensures IsTallyOf(r.byCategory, Categories(cs))
    ensures r.practiced <= r.totalQuestions
    ensures r.practiced == CountWhere(qs, Practiced)
    ensures r.practicePercentage == PracticePercentage(qs)
    ensures r.practiceMinutes == Sum(Durations(ss))
    ensures r.practiceHours == PracticeHours(r.practiceMinutes)
  {
    var minutes := Sum(Durations(ss));
    Stats(|qs|, Tally(Types(qs)), Tally(Difficulties(qs)), CountWhere(qs, Practiced), PracticePercentage(qs),
          |cs|, Tally(Categories(cs)), |companies|, |ss|, minutes, PracticeHours(minutes))
  }

  lemma PercentageBound(part: nat, total: nat)
    requires 0 < total && part <= total
    ensures 0.0 <= (part as real) / (total as real) * 100.0 <= 100.0
    ensures (part as real) / (total as real) * 100.0 == 100.0 <==> part == total
  {
    var q := (part as real) / (total as real);
    assert q * (total as real) == part as real;
    assert q <= 1.0;
    if q == 1.0 {
      assert part as real == total as real;
    }
  }
}

=== FILE: job_search_db.dfy ===
/** `JobSearchDB`: the job-application tracker kept in `applications.json`, a list of
    application records identified by `id`. Reading and writing the file is not
    modelled: every operation takes the loaded list and returns the list it would
    write. The current time is a parameter. */
module JobSearch {
  import opened Wrappers
  import opened Text
  import opened Seqs
  import opened Sorting
  import opened Counting
  import Records

  /** The fields of an `Application` record the store reads or writes. */
  datatype Application = Application(
    id: string,
    company: string,
    role: string,
    status: string,
    appliedDate: string,
    updatedAt: string,
    notes: Option<string>,
    location: Option<string>)

  /** Statuses under which an application no longer blocks a new one. */
  const Closed: set<string> := {"rejected", "withdrawn", "accepted"}

  /** `existing` is an open application for the same company and role, compared
      case-insensitively. */
  predicate Conflicts(existing: Application, app: Application) {
    && Lower(existing.company) == Lower(app.company)
    && Lower(existing.role) == Lower(app.role)
    && existing.status !in Closed
  }

  function DuplicateMessage(app: Application): string {
    "Active application already exists for " + app.company + " - " + app.role
  }

  /** `add_application(app)`: refused with `ValueError` while an open application for
      the same company and role exists; otherwise the record is appended and its id
      returned. */
  function AddApplication(apps: seq<Application>, app: Application): (r: Result<(string, seq<Application>)>)
    ensures r.Err? <==> exists i :: 0 <= i < |apps| && Conflicts(apps[i], app)
    ensures r.Err? ==> r.message == DuplicateMessage(app)
    ensures r.Ok? ==>
      r.value.0 == app.id && |r.value.1| == |apps| + 1 &&
      r.value.1[..|apps|] == apps && r.value.1[|apps|] == app
  {
    if exists i :: 0 <= i < |apps| && Conflicts(apps[i], app) then Err(DuplicateMessage(app))
    else Ok((app.id, apps + [app]))
  }

  function IdOf(a: Application): string {
    a.id
  }

  function HasId(id: string): Application -> bool {
    Records.IdIs(IdOf, id)
  }

  /** `get_application(app_id)`: the first record with that id. */
  function GetApplication(apps: seq<Application>, id: string): (r: Option<Application>)
    ensures r.None? <==> forall i :: 0 <= i < |apps| ==> apps[i].id != id
    ensures r.Some? ==> exists i :: FirstAt(apps, HasId(id), i) && apps[i] == r.value
  {
    Records.Get(apps, IdOf, id)
  }

  /** Adding an open application makes a second identical add fail. */
  lemma AddTwiceRejected(apps: seq<Application>, app: Application)
    requires app.status !in Closed
    requires AddApplication(apps, app).Ok?
    ensures AddApplication(AddApplication(apps, app).value.1, app).Err?
  {
    var after := AddApplication(apps, app).value.1;
    assert Conflicts(after[|apps|], app);
  }

  /** An added application with a fresh id is what a lookup of that id returns. */
  lemma AddThenGet(apps: seq<Application>, app: Application)
    requires AddApplication(apps, app).Ok?
    requires forall i :: 0 <= i < |apps| ==> apps[i].id != app.id
    ensures GetApplication(AddApplication(apps, app).value.1, app.id) == Some(app)
  {
    Records.AddThenGet(apps, IdOf, app);
  }

  /** `if status and app.status != status.lower()` and
      `if company and company.lower() not in app.company.lower()`, negated. */
  function Passes(status: Option<string>, company: Option<string>): Application -> bool {
    (a: Application) => (!Given(status) || a.status == Lower(status.value)) &&
                        (!Given(company) || Contains(Lower(a.company), Lower(company.value)))
  }

  /** The sort key `list_applications` uses for `sort_by`; `None` leaves the order alone. */
  function AppliedDate(a: Application): string { a.appliedDate }

  function SortKey(sortBy: string): Option<Application -> string> {
    if sortBy == "applied_date" then Some(AppliedDate)
    else if sortBy == "company" then Some((a: Application) => Lower(a.company))
    else if sortBy == "updated_at" then Some((a: Application) => a.updatedAt)
    else None
  }

  /** `results.sort(key=key, reverse=reverse)`: stable in both directions. */
  function SortBy(xs: seq<Application>, key: Application -> string, reverse: bool): (r: seq<Application>)
    ensures multiset(r) == multiset(xs)
    ensures reverse ==> forall p, q :: 0 <= p < q < |r| ==> !StrLt(key(r[p]), key(r[q]))
    ensures !reverse ==> forall p, q :: 0 <= p < q < |r| ==> !StrLt(key(r[q]), key(r[p]))
  {
    StringOrder();
    if reverse then
      SortDesc(xs, key, StrLt)
    else
      FlipOrder(StrLt);
      var r := SortDesc(xs, key, Flip(StrLt));
      assert forall p, q :: 0 <= p < q < |r| ==> !Flip(StrLt)(key(r[p]), key(r[q]));
      r
  }

  /** Records with equal keys keep their stored order, whichever the direction. */
  lemma SortByStable(xs: seq<Application>, key: Application -> string, reverse: bool, k: string)
    ensures Filter(SortBy(xs, key, reverse), KeyIs(key, k)) == Filter(xs, KeyIs(key, k))
  {
    StringOrder();
    if reverse {
      SortDescStable(xs, key, StrLt, k);
    } else {
      FlipOrder(StrLt);
      SortDescStable(xs, key, Flip(StrLt), k);
    }
  }

  /** `list_applications(status, company, sort_by, reverse)`: exactly the records
      passing both filters, ordered by the requested key. */
  function ListApplications(apps: seq<Application>, status: Option<string>, company: Option<string>,
                            sortBy: string, reverse: bool): (r: seq<Application>)
    ensures multiset(r) == multiset(Filter(apps, Passes(status, company)))
    ensures forall a :: a in r <==> a in apps && Passes(status, company)(a)
    ensures SortKey(sortBy).Some? && reverse ==>
      forall p, q :: 0 <= p < q < |r| ==> !StrLt(SortKey(sortBy).value(r[p]), SortKey(sortBy).value(r[q]))
    ensures SortKey(sortBy).Some? && !reverse ==>
      forall p, q :: 0 <= p < q < |r| ==> !StrLt(SortKey(sortBy).value(r[q]), SortKey(sortBy).value(r[p]))
    ensures SortKey(sortBy).None? ==> r == Filter(apps, Passes(status, company))
  {
    var results := Filter(apps, Passes(status, company));
    var r := match SortKey(sortBy)
      case None => results
      case Some(key) => SortBy(results, key, reverse);
    assert forall a :: a in r <==> a in multiset(r);
    assert forall a :: a in results <==> a in multiset(results);
    r
  }

  /** The default listing: everything, newest `applied_date` first. */
  function AllByDate(apps: seq<Application>): seq<Application> {
    ListApplications(apps, None, None, "applied_date", true)
  }

  /** Without filters nothing is lost: the listing is a permutation of the store. */
  lemma ListAllIsPermutation(apps: seq<Application>)
    ensures multiset(AllByDate(apps)) == multiset(apps)
  {
    FilterAll(apps, Passes(None, None));
  }

  /** Every known field of a record, by its Python attribute name. */
  function Get(a: Application, field: string): Option<string> {
    match field
    case "id" => Some(a.id)
    case "company" => Some(a.company)
    case "role" => Some(a.role)
    case "status" => Some(a.status)
    case "applied_date" => Some(a.appliedDate)
    case "updated_at" => Some(a.updatedAt)
    case "notes" => a.notes
    case "location" => a.location
    case _ => None
  }

  const Fields: set<string> :=
    {"id", "company", "role", "status", "applied_date", "updated_at", "notes", "location"}

  /** A record is determined by its known fields. */
  lemma FieldsDetermine(a: Application, b: Application)
    requires forall f :: f in Fields ==> Get(a, f) == Get(b, f)
    ensures a == b
  {
    assert Get(a, "id") == Get(b, "id") && Get(a, "company") == Get(b, "company");
    assert Get(a, "role") == Get(b, "role") && Get(a, "status") == Get(b, "status");
    assert Get(a, "applied_date") == Get(b, "applied_date") && Get(a, "updated_at") == Get(b, "updated_at");
    assert Get(a, "notes") == Get(b, "notes") && Get(a, "location") == Get(b, "location");
  }

  /** `for key, value in updates.items(): if hasattr(app, key): setattr(app, key, value)`,
      then `app.updated_at = now`. */
  function ApplyUpdates(a: Application, updates: map<string, string>, now: string): (r: Application)
    ensures Get(r, "updated_at") == Some(now)
    ensures forall f :: f in Fields && f != "updated_at" ==>
      Get(r, f) == if f in updates then Some(updates[f]) else Get(a, f)
  {
    var pick := (f: string, prev: string) => if f in updates then updates[f] else prev;
    var pickOpt := (f: string, prev: Option<string>) => if f in updates then Some(updates[f]) else prev;
    Application(
      pick("id", a.id), pick("company", a.company), pick("role", a.role), pick("status", a.status),
      pick("applied_date", a.appliedDate), now, pickOpt("notes", a.notes), pickOpt("location", a.location))
  }

  /** `update_application(app_id, updates)`: only the first record with that id
      changes; `False` and no change when there is none. */
  function UpdateApplication(apps: seq<Application>, id: string, updates: map<string, string>, now: string)
    : (r: (bool, seq<Application>))
    ensures r.0 <==> exists i :: 0 <= i < |apps| && apps[i].id == id
    ensures !r.0 ==> r.1 == apps
    ensures |r.1| == |apps|
    ensures forall j :: 0 <= j < |apps| ==>
      r.1[j] == if FirstAt(apps, HasId(id), j) then ApplyUpdates(apps[j], updates, now) else apps[j]
  {
    forall i | 0 <= i < |apps|
      ensures HasId(id)(apps[i]) <==> apps[i].id == id
    {
      assert HasId(id)(apps[i]) <==> IdOf(apps[i]) == id;
    }
    UpdateFirst(apps, HasId(id), (a: Application) => ApplyUpdates(a, updates, now))
  }

  /** `delete_application(app_id)`: every record with that id goes and every other
      stays, in stored order; `True` exactly when one was there. */
  function DeleteApplication(apps: seq<Application>, id: string): (r: (bool, seq<Application>))
    ensures r.0 <==> exists i :: 0 <= i < |apps| && apps[i].id == id
    ensures !r.0 ==> r.1 == apps
    ensures forall a :: a in r.1 <==> a in apps && a.id != id
    ensures Selects(r.1, apps, Not(Records.IdIs(IdOf, id)))
  {
    Records.Delete(apps, IdOf, id)
  }

  /** After a delete, the id is not found. */
  lemma DeleteThenGet(apps: seq<Application>, id: string)
    ensures GetApplication(DeleteApplication(apps, id).1, id).None?
  {
    Records.DeleteThenGet(apps, IdOf, id);
  }

  /** `f"[{timestamp}] {note}"`. */
  function NoteEntry(stamp: string, note: string): string {
    "[" + stamp + "] " + note
  }

  /** The notes after adding one: the entry alone when there were none, otherwise
      the old notes, a newline and the entry. */
  function AppendNote(current: Option<string>, stamp: string, note: string): (r: string)
    ensures Given(current) ==> IsPrefix(current.value + "\n", r)
    ensures Given(current) ==> |r| == |current.value| + 1 + |NoteEntry(stamp, note)|
    ensures IsSuffix(NoteEntry(stamp, note), r)
    ensures !Given(current) ==> r == NoteEntry(stamp, note)
  {
    var entry := NoteEntry(stamp, note);
    if Given(current) then
      var r := current.value + "\n" + entry;
      assert r[..|current.value| + 1] == current.value + "\n";
      assert r[|r| - |entry|..] == entry;
      r
    else entry
  }

  predicate IsSuffix(p: string, s: string) {
    |p| <= |s| && s[|s| - |p|..] == p
  }

  /** `after` is `apps` with the note appended to record `i` and its `updated_at`
      refreshed, every other field and record unchanged. */
  predicate NoteAdded(apps: seq<Application>, after: seq<Application>, i: nat, stamp: string, note: string, now: string)
    requires i < |apps|
  {
    && |after| == |apps|
    && after[i] == apps[i].(notes := Some(AppendNote(apps[i].notes, stamp, note)), updatedAt := now)
    && forall j :: 0 <= j < |apps| && j != i ==> after[j] == apps[j]
  }

  /** `add_application_note(app_id, note)`: the first record with that id gets the
      note appended (and `updated_at` refreshed); `False` when there is none. */
  function AddApplicationNote(apps: seq<Application>, id: string, note: string, stamp: string, now: string)
    : (r: (bool, seq<Application>))
    ensures r.0 <==> exists i :: 0 <= i < |apps| && apps[i].id == id
    ensures !r.0 ==> r.1 == apps
    ensures r.0 ==> exists i :: FirstAt(apps, HasId(id), i) && NoteAdded(apps, r.1, i, stamp, note, now)
  {
    match GetApplication(apps, id)
    case None => (false, apps)
    case Some(app) =>
      var r := UpdateApplication(apps, id, map["notes" := AppendNote(app.notes, stamp, note)], now);
      var i :| FirstAt(apps, HasId(id), i) && apps[i] == app;
      var want := apps[i].(notes := Some(AppendNote(app.notes, stamp, note)), updatedAt := now);
      assert forall f :: f in Fields ==> Get(r.1[i], f) == Get(want, f);
      FieldsDetermine(r.1[i], want);
      forall j | 0 <= j < |apps| && j != i
        ensures r.1[j] == apps[j]
      {
        assert !FirstAt(apps, HasId(id), j);
      }
      r
  }

  function Companies(apps: seq<Application>): (r: seq<string>)
    ensures |r| == |apps| && forall i :: 0 <= i < |apps| ==> r[i] == apps[i].company
  {
    seq(|apps|, i requires 0 <= i < |apps| => apps[i].company)
  }

  /** `_get_top_companies(applications, limit)`: the `limit` most frequent companies
      with their counts, most frequent first, none left out that beats one kept. */
  function TopCompanies(apps: seq<Application>, limit: int): (r: seq<(string, nat)>)
    ensures |r| == SliceEnd(|Tally(Companies(apps))|, limit)
    ensures forall p :: 0 <= p < |r| ==>
      r[p].0 in Companies(apps) && r[p].1 == Occurrences(Companies(apps), r[p].0)
    ensures forall p, q :: 0 <= p < q < |r| ==> r[p].0 != r[q].0 && r[p].1 >= r[q].1
    ensures forall p, i :: 0 <= p < |r| && 0 <= i < |apps| && !Listed(r, apps[i].company) ==>
      r[p].1 >= Occurrences(Companies(apps), apps[i].company)
    ensures TiesKeepFirstSeen(r, Companies(apps))
    ensures EqualCountsFirstSeen(r, Companies(apps))
  {
    TopCounts(Companies(apps), limit)
  }

  /** The statistics `get_stats` reports. `topCompanies` is absent for an empty store,
      as the early return leaves the key out. */
  datatype Stats = Stats(
    total: nat,
    active: nat,
    byStatus: seq<(string, nat)>,
    responded: nat,
    responseRate: real,
    topCompanies: Option<seq<(string, nat)>>)

  function Statuses(apps: seq<Application>): (r: seq<string>)
    ensures |r| == |apps| && forall i :: 0 <= i < |apps| ==> r[i] == apps[i].status
  {
    seq(|apps|, i requires 0 <= i < |apps| => apps[i].status)
  }

  function NotApplied(a: Application): bool {
    a.status != "applied"
  }

  /** `get_stats()` over the default listing; `isActive` is `Application.is_active`. */
  function GetStats(apps: seq<Application>, isActive: Application -> bool): (r: Stats)
    ensures r.total == |apps|
    ensures r.total == 0 ==> r == Stats(0, 0, [], 0, 0.0, None)
    ensures IsTallyOf(r.byStatus, Statuses(AllByDate(apps)))
    ensures TotalCount(r.byStatus) == r.total
    ensures r.active <= r.total && r.responded <= r.total
    ensures r.responded + CountWhere(apps, (a: Application) => !NotApplied(a)) == r.total
    ensures r.total > 0 ==> r.responseRate == (r.responded as real) / (r.total as real) * 100.0
    ensures r.total > 0 ==> r.topCompanies == Some(TopCompanies(AllByDate(apps), 5))
  {
    var listed := AllByDate(apps);
    ListAllIsPermutation(apps);
    assert |listed| == |apps| by {
      assert |multiset(listed)| == |multiset(apps)|;
    }
    if |listed| == 0 then Stats(0, 0, [], 0, 0.0, None)
    else
      var total := |listed|;
      var active := CountWhere(listed, isActive);
      var responded := CountWhere(listed, NotApplied);
      RespondedCount(apps, listed);
      Stats(total, active, Tally(Statuses(listed)), responded,
            (responded as real) / (total as real) * 100.0, Some(TopCompanies(listed, 5)))
  }

  /** Counting the answered applications over the sorted listing or the stored list
      gives the same split. */
  lemma RespondedCount(apps: seq<Application>, listed: seq<Application>)
    requires multiset(listed) == multiset(apps)
    ensures CountWhere(listed, NotApplied) + CountWhere(apps, (a: Application) => !NotApplied(a)) == |apps|
  {
    var q := (a: Application) => !NotApplied(a);
    FilterSplit(apps, NotApplied, q);
    CountPermutation(listed, apps, NotApplied);
  }

  /** `query_lower in` the lowered company, role, notes or location. */
  function Matches(q: string): Application -> bool {
    (a: Application) =>
      || Contains(Lower(a.company), q)
      || Contains(Lower(a.role), q)
      || (Given(a.notes) && Contains(Lower(a.notes.value), q))
      || (Given(a.location) && Contains(Lower(a.location.value), q))
  }

  /** `search_applications(query)`: the records of the default listing that mention
      the query, newest first. */
  function SearchApplications(apps: seq<Application>, query: string): (r: seq<Application>)
    ensures forall a :: a in r <==> a in apps && Matches(Lower(query))(a)
    ensures forall p, q :: 0 <= p < q < |r| ==> !StrLt(r[p].appliedDate, r[q].appliedDate)
  {
    var listed := AllByDate(apps);
    var r := Filter(listed, Matches(Lower(query)));
    FilterPairwise(listed, Matches(Lower(query)), (a: Application, b: Application) => !StrLt(a.appliedDate, b.appliedDate));
    r
  }

  /** The search keeps each matching record as often as it is stored, and is exactly
      the matching part of the default listing, in its order. */
  lemma SearchExact(apps: seq<Application>, query: string)
    ensures multiset(SearchApplications(apps, query)) == multiset(Filter(apps, Matches(Lower(query))))
    ensures Selects(SearchApplications(apps, query), AllByDate(apps), Matches(Lower(query)))
  {
    var listed, m := AllByDate(apps), Matches(Lower(query));
    ListAllIsPermutation(apps);
    FilterPermutation(listed, apps, m);
    FilterSelects(listed, m);
  }

  /** Search results sharing an `applied_date` keep their stored order: the sort
      before the search is stable. */
  lemma SearchStable(apps: seq<Application>, query: string, date: string)
    ensures Filter(SearchApplications(apps, query), KeyIs(AppliedDate, date)) ==
            Filter(Filter(apps, Matches(Lower(query))), KeyIs(AppliedDate, date))
  {
    var m, k := Matches(Lower(query)), KeyIs(AppliedDate, date);
    var both := (a: Application) => m(a) && k(a);
    var listed := AllByDate(apps);
    FilterAll(apps, Passes(None, None));
    SortByStable(apps, AppliedDate, true, date);
    FilterFilter(listed, m, k, both);
    FilterFilter(listed, k, m, both);
    FilterFilter(apps, k, m, both);
    FilterFilter(apps, m, k, both);
  }

  /** The empty query matches everything. */
  lemma SearchEmptyQuery(apps: seq<Application>)
    ensures multiset(SearchApplications(apps, "")) == multiset(apps)
  {
    var listed := AllByDate(apps);
    forall i | 0 <= i < |listed|
      ensures Matches(Lower(""))(listed[i])
    {
      ContainsEmpty(Lower(listed[i].company));
    }
    FilterAll(listed, Matches(Lower("")));
    ListAllIsPermutation(apps);
  }
}

=== FILE: question_bank.dfy ===
/** The two pure helpers of the question bank page: the sorted distinct values of a
    question field, offered as filter choices, and the free-text search filter. */
module QuestionBank {
  import opened Text
  import opened Seqs
  import opened Sorting
  import opened Interview

  /** Every element is smaller than every later one: sorted, with no repeats. */
  predicate Increasing(s: seq<string>) {
    forall i, j :: 0 <= i < j < |s| ==> StrLt(s[i], s[j])
  }

  /** `s` with `x` added in its place, unless it is already there. */
  function InsertUnique(x: string, s: seq<string>): (r: seq<string>)
    requires Increasing(s)
    ensures Increasing(r)
    ensures forall y :: y in r <==> y in s || y == x
  {
    StringOrder();
    if |s| == 0 then [x]
    else if x == s[0] then s
    else if StrLt(x, s[0]) then
      assert forall j :: 0 < j < |s| ==> StrLt(s[0], s[j]);
      [x] + s
    else
      StrLtTotal(x, s[0]);
      var rest := InsertUnique(x, s[1..]);
      assert forall y :: y in rest ==> StrLt(s[0], y) by {
        forall y | y in rest
          ensures StrLt(s[0], y)
        {
          if y != x {
            var j :| 0 <= j < |s[1..]| && s[1..][j] == y;
            assert s[j + 1] == y;
          }
        }
      }
      assert s == [s[0]] + s[1..];
      [s[0]] + rest
  }

  /** `sorted(set(xs))`. */
  function SortedDistinct(xs: seq<string>): (r: seq<string>)
    ensures Increasing(r)
    ensures forall y :: y in r <==> y in xs
  {
    if |xs| == 0 then []
    else InsertUnique(xs[|xs| - 1], SortedDistinct(xs[..|xs| - 1]))
  }

  /** The values question `q` contributes for `field`: all of its companies or tags,
      its category or type, and nothing for any other field name. */
  function FieldValues(q: Question, field: string): seq<string> {
    if field == "companies" then q.companies
    else if field == "tags" then q.tags
    else if field == "category" then [q.category]
    else if field == "type" then [q.qtype]
    else []
  }

  /** Every value the questions contribute, in order, repeats included. */
  function Gathered(qs: seq<Question>, field: string): (r: seq<string>)
    ensures forall v :: v in r <==> exists i :: 0 <= i < |qs| && v in FieldValues(qs[i], field)
  {
    if |qs| == 0 then []
    else
      var init := Gathered(qs[..|qs| - 1], field);
      assert forall i :: 0 <= i < |qs| - 1 ==> qs[..|qs| - 1][i] == qs[i];
      init + FieldValues(qs[|qs| - 1], field)
  }

  /** `get_unique_values(questions, field)`. */
  function GetUniqueValues(qs: seq<Question>, field: string): (r: seq<string>)
    ensures Increasing(r)
    ensures forall v :: v in r <==> exists i :: 0 <= i < |qs| && v in FieldValues(qs[i], field)
  {
    SortedDistinct(Gathered(qs, field))
  }

  /** The choices per field: for `companies` and `tags` the union of the questions'
      lists, for `category` and `type` the set of their values, and for any other field
      nothing at all. */
  lemma UniqueValuesByField(qs: seq<Question>, field: string)
    ensures field == "companies" ==> forall v :: v in GetUniqueValues(qs, field) <==>
      exists i :: 0 <= i < |qs| && v in qs[i].companies
    ensures field == "tags" ==> forall v :: v in GetUniqueValues(qs, field) <==>
      exists i :: 0 <= i < |qs| && v in qs[i].tags
    ensures field == "category" ==> forall v :: v in GetUniqueValues(qs, field) <==>
      exists i :: 0 <= i < |qs| && qs[i].category == v
    ensures field == "type" ==> forall v :: v in GetUniqueValues(qs, field) <==>
      exists i :: 0 <= i < |qs| && qs[i].qtype == v
    ensures field !in {"companies", "tags", "category", "type"} ==> GetUniqueValues(qs, field) == []
  {
    if field !in {"companies", "tags", "category", "type"} {
      var r := GetUniqueValues(qs, field);
      if |r| > 0 {
        assert r[0] in r;
      }
    }
  }

  /** The search predicate: the lower-cased query occurs in the lower-cased question
      text, notes, any tag, or category. */
  predicate Matches(q: Question, query: string) {
    var needle := Lower(query);
    || Contains(Lower(q.question), needle)
    || Contains(Lower(q.notes), needle)
    || (exists t :: t in q.tags && Contains(Lower(t), needle))
    || Contains(Lower(q.category), needle)
  }

  function MatchesQuery(query: string): Question -> bool {
    q => Matches(q, query)
  }

  /** The search step of the page: applied only to a non-empty query; the matching
      questions, each once, in stored order. */
  function SearchQuestions(qs: seq<Question>, query: string): (r: seq<Question>)
    ensures forall q :: q in r <==> q in qs && Matches(q, query)
    ensures Selects(r, qs, MatchesQuery(query))
  {
    var p := MatchesQuery(query);
    FilterSelects(qs, p);
    if query == "" then
      assert forall q :: Matches(q, "") by {
        forall q: Question
          ensures Matches(q, "")
        {
          ContainsEmpty(Lower(q.question));
        }
      }
      FilterAll(qs, p);
      qs
    else
      Filter(qs, p)
  }

  /** Typing more narrows the results: a question found by a query is found by every
      piece of it. */
  lemma SearchNarrows(q: Question, longer: string, shorter: string)
    requires Contains(longer, shorter)
    requires Matches(q, longer)
    ensures Matches(q, shorter)
  {
    var n1, n2 := Lower(longer), Lower(shorter);
    LowerContains(longer, shorter);
    if Contains(Lower(q.question), n1) {
      ContainsTransitive(Lower(q.question), n1, n2);
    } else if Contains(Lower(q.notes), n1) {
      ContainsTransitive(Lower(q.notes), n1, n2);
    } else if exists t :: t in q.tags && Contains(Lower(t), n1) {
      var t :| t in q.tags && Contains(Lower(t), n1);
      ContainsTransitive(Lower(t), n1, n2);
    } else {
      ContainsTransitive(Lower(q.category), n1, n2);
    }
  }
}

=== FILE: records.dfy ===
/** The id-keyed record list every JSON store keeps: append, first match by id,
    replace the first match, and delete every match. `idOf` reads a record's `id`. */
module Records {
  import opened Wrappers
  import opened Seqs

  function IdIs<T>(idOf: T -> string, id: string): T -> bool {
    x => idOf(x) == id
  }

  /** `records.append(item.to_dict())`: one record more, at the end. */
  function Add<T>(xs: seq<T>, x: T): (r: seq<T>)
    ensures |r| == |xs| + 1 && r[..|xs|] == xs && r[|xs|] == x
  {
    xs + [x]
  }

  /** `for r in records: if r['id'] == id: return r`, else `None`. */
  function Get<T>(xs: seq<T>, idOf: T -> string, id: string): (r: Option<T>)
    ensures r.None? <==> forall i :: 0 <= i < |xs| ==> idOf(xs[i]) != id
    ensures r.Some? ==> exists i :: FirstAt(xs, IdIs(idOf, id), i) && xs[i] == r.value
  {
    First(xs, IdIs(idOf, id))
  }

  /** `for i, r in enumerate(records): if r['id'] == x.id: records[i] = x; return True`,
      else `False` with nothing written. */
  function Replace<T>(xs: seq<T>, idOf: T -> string, x: T): (r: (bool, seq<T>))
    ensures r.0 <==> exists i :: 0 <= i < |xs| && idOf(xs[i]) == idOf(x)
    ensures !r.0 ==> r.1 == xs
    ensures |r.1| == |xs|
    ensures forall j :: 0 <= j < |xs| ==> r.1[j] == if FirstAt(xs, IdIs(idOf, idOf(x)), j) then x else xs[j]
  {
    UpdateFirst(xs, IdIs(idOf, idOf(x)), _ => x)
  }

  /** `filtered = [r for r in records if r['id'] != id]`; `True` exactly when it is
      shorter, and only then is it written. */
  function Delete<T>(xs: seq<T>, idOf: T -> string, id: string): (r: (bool, seq<T>))
    ensures r.0 <==> exists i :: 0 <= i < |xs| && idOf(xs[i]) == id
    ensures !r.0 ==> r.1 == xs
    ensures forall i :: 0 <= i < |r.1| ==> r.1[i] in xs && idOf(r.1[i]) != id
    ensures forall i :: 0 <= i < |xs| && idOf(xs[i]) != id ==> xs[i] in r.1
    ensures Selects(r.1, xs, Not(IdIs(idOf, id)))
  {
    var (removed, kept) := RemoveWhere(xs, IdIs(idOf, id));
    if removed then (true, kept)
    else
      FilterAll(xs, Not(IdIs(idOf, id)));
      (false, xs)
  }

  /** A record added under a fresh id is what a lookup of that id returns. */
  lemma AddThenGet<T>(xs: seq<T>, idOf: T -> string, x: T)
    requires forall i :: 0 <= i < |xs| ==> idOf(xs[i]) != idOf(x)
    ensures Get(Add(xs, x), idOf, idOf(x)) == Some(x)
  {
    var after := Add(xs, x);
    var r := Get(after, idOf, idOf(x));
    var i :| FirstAt(after, IdIs(idOf, idOf(x)), i) && after[i] == r.value;
  }

  /** A replaced record is what a lookup of its id returns. */
  lemma ReplaceThenGet<T>(xs: seq<T>, idOf: T -> string, x: T)
    requires Replace(xs, idOf, x).0
    ensures Get(Replace(xs, idOf, x).1, idOf, idOf(x)) == Some(x)
  {
    var after := Replace(xs, idOf, x).1;
    var k :| 0 <= k < |xs| && idOf(xs[k]) == idOf(x);
    var f := FindFirst(xs, IdIs(idOf, idOf(x)));
    assert FirstAt(xs, IdIs(idOf, idOf(x)), f.value);
    var r := Get(after, idOf, idOf(x));
    var i :| FirstAt(after, IdIs(idOf, idOf(x)), i) && after[i] == r.value;
  }

  /** After a delete the id is gone, so deleting it again reports `False`. */
  lemma DeleteThenGet<T>(xs: seq<T>, idOf: T -> string, id: string)
    ensures Get(Delete(xs, idOf, id).1, idOf, id).None?
    ensures !Delete(Delete(xs, idOf, id).1, idOf, id).0
  {
  }
}

=== FILE: resume_db.dfy ===
/** `ResumeDB`: the resume list and the version list, each keyed by `id`, plus the
    directory that holds uploaded resume files. File I/O and encryption are not
    modelled: operations take the loaded lists and return what would be written. */
module Resumes {
  import opened Wrappers
  import opened Text
  import opened Seqs
  import opened Sorting
  import Records

  /** The fields of a `Resume` record the store reads. */
  datatype Resume = Resume(
    id: string,
    name: string,
    isMaster: bool,
    isActive: bool,
    tailoredForCompany: Option<string>,
    parentId: Option<string>,
    originalFilename: Option<string>,
    filePath: Option<string>,
    applicationsCount: int,
    successRate: real,
    updatedAt: string)

  datatype ResumeVersion = ResumeVersion(id: string, resumeId: string, createdAt: string)

  function ResumeId(r: Resume): string { r.id }

  // ---------- File naming ----------

  /** The index of the last `c` in `s`, or -1. */
  function LastIndex(s: string, c: char): (r: int)
    ensures -1 <= r < |s|
    ensures r >= 0 ==> s[r] == c
    ensures forall k :: r < k < |s| ==> s[k] != c
  {
    if |s| == 0 then -1
    else if s[|s| - 1] == c then |s| - 1
    else LastIndex(s[..|s| - 1], c)
  }

  /** The last path component of `p` holds a `.` with something other than a dot
      before it in that component: `cv.pdf` does, `.bashrc` and `dir.d/cv` do not. */
  ghost predicate HasExtension(p: string) {
    exists i, k :: LastIndex(p, '/') < k < i < |p| && p[i] == '.' && p[k] != '.'
  }

  /** POSIX `os.path.splitext`: the extension runs from the last `.` of the last path
      component, provided something other than dots precedes it in that component. */
  function SplitExt(p: string): (r: (string, string))
    ensures r.0 + r.1 == p
    ensures r.1 == "" || (r.1[0] == '.' && '/' !in r.1 && '.' !in r.1[1..])
    ensures r.1 != "" <==> HasExtension(p)
  {
    var sep := LastIndex(p, '/');
    var dot := LastIndex(p, '.');
    assert HasExtension(p) ==> dot > sep && exists k :: sep + 1 <= k < dot && p[k] != '.' by {
      if HasExtension(p) {
        var i, k :| sep < k < i < |p| && p[i] == '.' && p[k] != '.';
        assert i <= dot;
      }
    }
    if dot > sep && exists k :: sep + 1 <= k < dot && p[k] != '.' then
      assert p[..dot] + p[dot..] == p;
      (p[..dot], p[dot..])
    else
      assert p + "" == p;
      (p, "")
  }

  /** POSIX `os.path.join(a, b)` for two components. */
  function Join(a: string, b: string): (r: string)
    ensures |b| > 0 && b[0] == '/' ==> r == b
    ensures (|b| == 0 || b[0] != '/') && |a| > 0 && a[|a| - 1] != '/' ==> r == a + "/" + b
  {
    if |b| > 0 && b[0] == '/' then b
    else if |a| == 0 || a[|a| - 1] == '/' then a + b
    else a + "/" + b
  }

  /** `_store_file(resume_id, filename, ...)`: the stored file is named by the resume
      id followed by the original file's extension, inside the files directory. */
  function StoredPath(filesDir: string, resumeId: string, filename: string): (r: string)
    ensures (|resumeId| == 0 || resumeId[0] != '/') && |filesDir| > 0 && filesDir[|filesDir| - 1] != '/' ==>
      r == filesDir + "/" + resumeId + SplitExt(filename).1
  {
    Join(filesDir, resumeId + SplitExt(filename).1)
  }

  /** The stored name keeps the original extension: the original file name ends with
      exactly the part that follows the resume id. */
  lemma StoredNameKeepsExtension(filesDir: string, resumeId: string, filename: string)
    requires |resumeId| > 0 && resumeId[0] != '/' && |filesDir| > 0 && filesDir[|filesDir| - 1] != '/'
    ensures var r := StoredPath(filesDir, resumeId, filename);
            var ext := |r| - (|filesDir| + 1 + |resumeId|);
            && r[..|filesDir| + 1] == filesDir + "/"
            && r[|filesDir| + 1..|filesDir| + 1 + |resumeId|] == resumeId
            && 0 <= ext <= |filename|
            && r[|filesDir| + 1 + |resumeId|..] == filename[|filename| - ext..]
            && (ext > 0 <==> HasExtension(filename))
            && (ext > 0 ==> |filename| - ext == LastIndex(filename, '.'))
  {
    var e := SplitExt(filename);
    if e.1 != "" {
      var dot := |filename| - |e.1|;
      assert filename[dot] == '.' && forall k :: dot < k < |filename| ==> filename[k] == e.1[k - dot];
    }
    assert e.0 + e.1 == filename;
    assert filename[|filename| - |e.1|..] == e.1;
    var r := StoredPath(filesDir, resumeId, filename);
    assert r == filesDir + "/" + resumeId + e.1;
  }

  // ---------- Resumes ----------

  /** `add_resume(resume, file_bytes)`: when bytes and an original file name are both
      given, the file is stored and the record points at it; the record is appended. */
  function AddResume(rs: seq<Resume>, resume: Resume, filesDir: string, hasBytes: bool): (r: (string, seq<Resume>))
    ensures r.0 == resume.id && |r.1| == |rs| + 1 && r.1[..|rs|] == rs
    ensures hasBytes && Given(resume.originalFilename) ==>
      r.1[|rs|] == resume.(filePath := Some(StoredPath(filesDir, resume.id, resume.originalFilename.value)))
    ensures !(hasBytes && Given(resume.originalFilename)) ==> r.1[|rs|] == resume
  {
    var stored :=
      if hasBytes && Given(resume.originalFilename) then
        resume.(filePath := Some(StoredPath(filesDir, resume.id, resume.originalFilename.value)))
      else resume;
    (resume.id, Records.Add(rs, stored))
  }

  /** `get_resume(resume_id)`: the first resume with that id, or `None`. */
  function GetResume(rs: seq<Resume>, id: string): (r: Option<Resume>)
    ensures r.None? <==> forall i :: 0 <= i < |rs| ==> rs[i].id != id
    ensures r.Some? ==> exists i :: FirstAt(rs, Records.IdIs(ResumeId, id), i) && rs[i] == r.value
  {
    Records.Get(rs, ResumeId, id)
  }

  /** The three filters of `list_resumes`: the two flags apply when not `None`, the
      company only when it is non-empty. */
  predicate ResumePasses(r: Resume, isMaster: Option<bool>, isActive: Option<bool>, company: Option<string>) {
    && (isMaster.None? || r.isMaster == isMaster.value)
    && (isActive.None? || r.isActive == isActive.value)
    && (!Given(company) || r.tailoredForCompany == Some(company.value))
  }

  function ResumeFilter(isMaster: Option<bool>, isActive: Option<bool>, company: Option<string>): Resume -> bool {
    x => ResumePasses(x, isMaster, isActive, company)
  }

  /** `list_resumes(is_master, is_active, tailored_for_company)`: the resumes passing
      every given filter, each once, in stored order. */
  function ListResumes(rs: seq<Resume>, isMaster: Option<bool>, isActive: Option<bool>, company: Option<string>)
    : (r: seq<Resume>)
    ensures forall x :: x in r <==> x in rs && ResumePasses(x, isMaster, isActive, company)
    ensures Selects(r, rs, ResumeFilter(isMaster, isActive, company))
    ensures isMaster.None? && isActive.None? && !Given(company) ==> r == rs
  {
    var p := ResumeFilter(isMaster, isActive, company);
    var r := Filter(rs, p);
    FilterSelects(rs, p);
    assert isMaster.None? && isActive.None? && !Given(company) ==> r == rs by {
      if isMaster.None? && isActive.None? && !Given(company) {
        FilterAll(rs, p);
      }
    }
    r
  }

  /** `update_resume(resume)`: the first resume with its id is replaced, stamped with
      `updated_at = now`; `False` and no write when the id is absent. */
  function UpdateResume(rs: seq<Resume>, resume: Resume, now: string): (r: (bool, seq<Resume>))
    ensures r.0 <==> exists i :: 0 <= i < |rs| && rs[i].id == resume.id
    ensures !r.0 ==> r.1 == rs
    ensures |r.1| == |rs|
    ensures forall j :: 0 <= j < |rs| ==>
      r.1[j] == if FirstAt(rs, Records.IdIs(ResumeId, resume.id), j) then resume.(updatedAt := now) else rs[j]
  {
    Records.Replace(rs, ResumeId, resume.(updatedAt := now))
  }

  /** What `delete_resume` does: the list to write, whether it shrank, and the stored
      file to remove, if any. */
  datatype Deletion = Deletion(deleted: bool, resumes: seq<Resume>, removeFile: Option<string>)

  /** `delete_resume(resume_id)`: the stored file of the first resume with that id is
      removed when it has a non-empty path; every resume with the id goes; `True`
      exactly when the list shrank. */
  function DeleteResume(rs: seq<Resume>, id: string): (r: Deletion)
    ensures r.deleted <==> |r.resumes| < |rs|
    ensures r.deleted <==> exists i :: 0 <= i < |rs| && rs[i].id == id
    ensures !r.deleted ==> r.resumes == rs
    ensures forall x :: x in r.resumes <==> x in rs && x.id != id
    ensures Selects(r.resumes, rs, Not(Records.IdIs(ResumeId, id)))
    ensures r.removeFile.Some? <==> GetResume(rs, id).Some? && Given(GetResume(rs, id).value.filePath)
    ensures r.removeFile.Some? ==> r.removeFile == GetResume(rs, id).value.filePath
  {
    var found := GetResume(rs, id);
    var removeFile := if found.Some? && Given(found.value.filePath) then found.value.filePath else None;
    var keep := Not(Records.IdIs(ResumeId, id));
    var filtered := Filter(rs, keep);
    FilterSelects(rs, keep);
    var shrank := |filtered| < |rs|;
    assert shrank <==> exists i :: 0 <= i < |rs| && rs[i].id == id;
    if !shrank then FilterAll(rs, keep); Deletion(false, rs, removeFile)
    else Deletion(true, filtered, removeFile)
  }

  /** `set_active_resume(resume_id)`: every record's active flag becomes "its id is the
      argument"; nothing else changes. */
  function SetActiveResume(rs: seq<Resume>, id: string): (r: seq<Resume>)
    ensures |r| == |rs|
    ensures forall i :: 0 <= i < |r| ==> (r[i].isActive <==> r[i].id == id)
    ensures forall i :: 0 <= i < |r| ==> r[i].(isActive := rs[i].isActive) == rs[i]
  {
    seq(|rs|, i requires 0 <= i < |rs| => rs[i].(isActive := rs[i].id == id))
  }

  /** Listing the active resumes after `set_active_resume(id)` yields exactly the
      records with that id, in stored order; and repeating the call changes nothing. */
  lemma SetActiveThenListActive(rs: seq<Resume>, id: string)
    ensures forall x :: x in ListResumes(SetActiveResume(rs, id), None, Some(true), None) <==>
      x in SetActiveResume(rs, id) && x.id == id
    ensures (exists i :: 0 <= i < |rs| && rs[i].id == id) ==>
      |ListResumes(SetActiveResume(rs, id), None, Some(true), None)| > 0
    ensures SetActiveResume(SetActiveResume(rs, id), id) == SetActiveResume(rs, id)
  {
    var after := SetActiveResume(rs, id);
    ActiveAfterSet(rs, id);
    if exists i :: 0 <= i < |rs| && rs[i].id == id {
      var i :| 0 <= i < |rs| && rs[i].id == id;
      ActiveListed(after, after[i]);
    }
    SetActiveTwice(rs, id);
  }

  lemma ActiveListed(rs: seq<Resume>, x: Resume)
    requires x in rs && x.isActive
    ensures x in ListResumes(rs, None, Some(true), None)
  {
  }

  lemma ActiveAfterSet(rs: seq<Resume>, id: string)
    ensures forall x :: x in ListResumes(SetActiveResume(rs, id), None, Some(true), None) <==>
      x in SetActiveResume(rs, id) && x.id == id
  {
    var after := SetActiveResume(rs, id);
    var active := ListResumes(after, None, Some(true), None);
    forall x
      ensures x in active <==> x in after && x.id == id
    {
      if x in after {
        var k :| 0 <= k < |after| && after[k] == x;
        assert x.isActive <==> x.id == id;
      }
    }
  }

  lemma SetActiveTwice(rs: seq<Resume>, id: string)
    ensures SetActiveResume(SetActiveResume(rs, id), id) == SetActiveResume(rs, id)
  {
    var after := SetActiveResume(rs, id);
    var again := SetActiveResume(after, id);
    forall k | 0 <= k < |after|
      ensures again[k] == after[k]
    {
      assert again[k].(isActive := after[k].isActive) == after[k];
    }
  }

  /** `get_master_resumes()`: the masters, each once, in stored order. */
  function GetMasterResumes(rs: seq<Resume>): (r: seq<Resume>)
    ensures forall x :: x in r <==> x in rs && x.isMaster
    ensures Selects(r, rs, IsMaster)
  {
    FilterSame(rs, ResumeFilter(Some(true), None, None), IsMaster);
    ListResumes(rs, Some(true), None, None)
  }

  function ParentIs(parentId: Option<string>): Resume -> bool {
    (x: Resume) => x.parentId == parentId
  }

  /** A tailored resume made from the given parent. */
  function TailoredFrom(parentId: Option<string>): Resume -> bool {
    (x: Resume) => !x.isMaster && x.parentId == parentId
  }

  /** `get_tailored_resumes(parent_id)`: the non-master resumes, restricted to the
      given parent when `parent_id` is non-empty; each once, in stored order. */
  function GetTailoredResumes(rs: seq<Resume>, parentId: Option<string>): (r: seq<Resume>)
    ensures forall x :: x in r <==> x in rs && !x.isMaster && (!Given(parentId) || x.parentId == parentId)
    ensures !Given(parentId) ==> Selects(r, rs, IsTailored)
    ensures Given(parentId) ==> Selects(r, rs, TailoredFrom(parentId))
  {
    var tailored := ListResumes(rs, Some(false), None, None);
    if Given(parentId) then
      FilterFilter(rs, ResumeFilter(Some(false), None, None), ParentIs(parentId), TailoredFrom(parentId));
      FilterSelects(rs, TailoredFrom(parentId));
      Filter(tailored, ParentIs(parentId))
    else
      FilterSame(rs, ResumeFilter(Some(false), None, None), IsTailored);
      tailored
  }

  /** Every resume is either a master or tailored, never both. */
  lemma MastersAndTailoredPartition(rs: seq<Resume>)
    ensures |GetMasterResumes(rs)| + |GetTailoredResumes(rs, None)| == |rs|
  {
    FilterSplit(rs, ResumeFilter(Some(true), None, None), ResumeFilter(Some(false), None, None));
  }

  // ---------- Versions ----------

  /** `add_version(version)`. */
  function AddVersion(vs: seq<ResumeVersion>, v: ResumeVersion): (r: (string, seq<ResumeVersion>))
    ensures r.0 == v.id && |r.1| == |vs| + 1 && r.1[..|vs|] == vs && r.1[|vs|] == v
  {
    (v.id, Records.Add(vs, v))
  }

  function CreatedAt(v: ResumeVersion): string { v.createdAt }

  function OfResume(resumeId: string): ResumeVersion -> bool {
    (v: ResumeVersion) => v.resumeId == resumeId
  }

  /** `get_versions(resume_id)`: that resume's versions, most recent `created_at`
      first; versions created at the same instant keep their stored order. */
  function GetVersions(vs: seq<ResumeVersion>, resumeId: string): (r: seq<ResumeVersion>)
    ensures multiset(r) == multiset(Filter(vs, OfResume(resumeId)))
    ensures forall v :: v in r <==> v in vs && v.resumeId == resumeId
    ensures forall p, q :: 0 <= p < q < |r| ==> !StrLt(r[p].createdAt, r[q].createdAt)
  {
    StringOrder();
    var mine := Filter(vs, OfResume(resumeId));
    var r := SortDesc(mine, CreatedAt, StrLt);
    assert forall v :: v in r <==> v in multiset(r);
    assert forall v :: v in mine <==> v in multiset(mine);
    r
  }

  /** Versions sharing a `created_at` stay in stored order (Python's sort is stable,
      also with `reverse=True`). */
  lemma GetVersionsStable(vs: seq<ResumeVersion>, resumeId: string, at: string)
    ensures Filter(GetVersions(vs, resumeId), KeyIs(CreatedAt, at)) ==
            Filter(Filter(vs, OfResume(resumeId)), KeyIs(CreatedAt, at))
  {
    StringOrder();
    SortDescStable(Filter(vs, OfResume(resumeId)), CreatedAt, StrLt, at);
  }

  // ---------- Statistics ----------

  function Counts(rs: seq<Resume>): (r: seq<int>)
    ensures |r| == |rs| && forall i :: 0 <= i < |rs| ==> r[i] == rs[i].applicationsCount
  {
    seq(|rs|, i requires 0 <= i < |rs| => rs[i].applicationsCount)
  }

  function SumReal(xs: seq<real>): real {
    if |xs| == 0 then 0.0 else SumReal(xs[..|xs| - 1]) + xs[|xs| - 1]
  }

  function Rates(rs: seq<Resume>): seq<real> {
    seq(|rs|, i requires 0 <= i < |rs| => rs[i].successRate)
  }

  /** The state of the `most_used` loop after the first `n` resumes: the name last
      seen raising the maximum, and that maximum (starting at 0). */
  function MostUsedAfter(rs: seq<Resume>, n: nat): (r: (Option<string>, int))
    requires n <= |rs|
    ensures r.1 >= 0
    ensures forall i :: 0 <= i < n ==> rs[i].applicationsCount <= r.1
    ensures r.0.None? <==> r.1 == 0
    ensures r.0.Some? ==> exists k :: 0 <= k < n && rs[k].applicationsCount == r.1 && r.0.value == rs[k].name &&
                                      (forall j :: 0 <= j < k ==> rs[j].applicationsCount < r.1)
  {
    if n == 0 then (None, 0)
    else
      var (best, max) := MostUsedAfter(rs, n - 1);
      if rs[n - 1].applicationsCount > max then (Some(rs[n - 1].name), rs[n - 1].applicationsCount)
      else (best, max)
  }

  /** `most_used_resume`: the name of the first resume whose count is the strict
      maximum, or `None` when no count is positive. */
  function MostUsedResume(rs: seq<Resume>): (r: Option<string>)
    ensures r.None? <==> forall i :: 0 <= i < |rs| ==> rs[i].applicationsCount <= 0
    ensures r.Some? ==> exists k :: 0 <= k < |rs| && r.value == rs[k].name && rs[k].applicationsCount > 0 &&
                                    (forall j :: 0 <= j < k ==> rs[j].applicationsCount < rs[k].applicationsCount) &&
                                    (forall j :: 0 <= j < |rs| ==> rs[j].applicationsCount <= rs[k].applicationsCount)
  {
    var (best, max) := MostUsedAfter(rs, |rs|);
    assert best.Some? ==> exists i :: 0 <= i < |rs| && rs[i].applicationsCount > 0;
    best
  }

  /** `average_success_rate`: the mean success rate, 0 for no resumes. */
  function AverageSuccessRate(rs: seq<Resume>): (r: real)
    ensures |rs| == 0 ==> r == 0.0
    ensures |rs| > 0 ==> r * (|rs| as real) == SumReal(Rates(rs))
  {
    if |rs| > 0 then SumReal(Rates(rs)) / (|rs| as real) else 0.0
  }

  datatype Stats = Stats(
    totalResumes: nat,
    masterResumes: nat,
    tailoredResumes: nat,
    activeResumes: nat,
    averageSuccessRate: real,
    mostUsedResume: Option<string>,
    totalApplications: int)

  function IsMaster(r: Resume): bool { r.isMaster }
  function IsTailored(r: Resume): bool { !r.isMaster }
  function IsActive(r: Resume): bool { r.isActive }

  /** `get_stats()`. */
  function GetStats(rs: seq<Resume>): (r: Stats)
    ensures r.totalResumes == |rs|
    ensures r.masterResumes + r.tailoredResumes == r.totalResumes
    ensures r.masterResumes == CountWhere(rs, IsMaster) && r.activeResumes == CountWhere(rs, IsActive)
    ensures r.activeResumes <= r.totalResumes
    ensures r.totalApplications == Sum(Counts(rs))
    ensures r.averageSuccessRate == AverageSuccessRate(rs)
    ensures r.mostUsedResume == MostUsedResume(rs)
  {
    FilterSplit(rs, IsMaster, IsTailored);
    Stats(|rs|, CountWhere(rs, IsMaster), CountWhere(rs, IsTailored), CountWhere(rs, IsActive),
          AverageSuccessRate(rs),
          MostUsedResume(rs), Sum(Counts(rs)))
  }
}

=== FILE: seqs.dfy ===
/** List operations every record store is built from: Python list comprehensions with
    a condition, "first element that matches", slicing with `[:k]`, and `sum`. */
module Seqs {
  import opened Wrappers

  /** `list(range(n))`. */
  function Range(n: nat): (r: seq<nat>)
    ensures |r| == n
    ensures forall i :: 0 <= i < n ==> r[i] == i
  {
    if n == 0 then [] else Range(n - 1) + [n - 1]
  }

  /** The end position Python uses for `s[:k]` on a list of length `n`: a negative `k`
      counts from the end, and the result is clamped to `0..n`. */
  function SliceEnd(n: nat, k: int): (e: nat)
    ensures e <= n
  {
    if k >= 0 then (if k <= n then k else n)
    else if n + k >= 0 then n + k else 0
  }

  /** `s[:k]`. */
  function Take<T>(s: seq<T>, k: int): seq<T> {
    s[..SliceEnd(|s|, k)]
  }

  /** `[x for x in xs if p(x)]`. */
  function Filter<T>(xs: seq<T>, p: T -> bool): (r: seq<T>)
    ensures |r| <= |xs|
    ensures forall i :: 0 <= i < |r| ==> r[i] in xs && p(r[i])
    ensures forall i :: 0 <= i < |xs| && p(xs[i]) ==> xs[i] in r
    ensures |r| == |xs| <==> forall i :: 0 <= i < |xs| ==> p(xs[i])
    decreases |xs|
  {
    if |xs| == 0 then []
    else (if p(xs[0]) then [xs[0]] else []) + Filter(xs[1..], p)
  }

  /** Filtering keeps the order of the input: it distributes over concatenation. */
  lemma {:induction false} FilterConcat<T>(a: seq<T>, b: seq<T>, p: T -> bool)
    ensures Filter(a + b, p) == Filter(a, p) + Filter(b, p)
    decreases |a|
  {
    if |a| > 0 {
      assert (a + b)[1..] == a[1..] + b;
      FilterConcat(a[1..], b, p);
    } else {
      assert a + b == b;
    }
  }

  /** `r` holds the elements of `xs` at the positions `ps`, in that order. */
  ghost predicate Picks<T>(r: seq<T>, xs: seq<T>, ps: seq<nat>) {
    |r| == |ps| && forall k :: 0 <= k < |ps| ==> ps[k] < |xs| && r[k] == xs[ps[k]]
  }

  /** Strictly increasing positions. */
  predicate Ascending(ps: seq<nat>) {
    forall k, l :: 0 <= k < l < |ps| ==> ps[k] < ps[l]
  }

  /** The positions of `xs` whose element satisfies `p`, in increasing order. */
  function Passing<T>(xs: seq<T>, p: T -> bool): (ps: seq<nat>)
    ensures Ascending(ps)
    ensures forall k :: 0 <= k < |ps| ==> ps[k] < |xs| && p(xs[ps[k]])
    ensures forall i :: 0 <= i < |xs| && p(xs[i]) ==> i in ps
    decreases |xs|
  {
    if |xs| == 0 then []
    else
      var init := Passing(xs[..|xs| - 1], p);
      assert forall k :: 0 <= k < |init| ==> xs[..|xs| - 1][init[k]] == xs[init[k]];
      init + (if p(xs[|xs| - 1]) then [|xs| - 1] else [])
  }

  /** `r` is exactly `[x for x in xs if p(x)]`: every element that passes, each once,
      in the order of `xs`. */
  ghost predicate Selects<T>(r: seq<T>, xs: seq<T>, p: T -> bool) {
    Picks(r, xs, Passing(xs, p))
  }

  /** The negation of a condition. */
  function Not<T>(p: T -> bool): T -> bool {
    x => !p(x)
  }

  /** Picking from a list picks the same elements from any extension of it, and one
      more position picks the appended element. */
  lemma PicksSnoc<T>(r: seq<T>, init: seq<T>, ps: seq<nat>, x: T, take: bool)
    requires Picks(r, init, ps)
    ensures Picks(r + (if take then [x] else []), init + [x], ps + (if take then [|init|] else []))
  {
    var xs := init + [x];
    assert forall k :: 0 <= k < |ps| ==> xs[ps[k]] == init[ps[k]];
  }

  /** The filter is the exact selection: nothing beyond the passing elements, no
      element twice, and the order of the input. */
  lemma {:induction false} FilterSelects<T>(xs: seq<T>, p: T -> bool)
    ensures Selects(Filter(xs, p), xs, p)
    decreases |xs|
  {
    if |xs| > 0 {
      var init := xs[..|xs| - 1];
      FilterSelects(init, p);
      SelectsSnoc(init, xs[|xs| - 1], p);
      LastSplit(xs);
    }
  }

  /** Two passing positions of `xs` appear in the selection, in the same order. */
  lemma SelectsOrder<T>(r: seq<T>, xs: seq<T>, p: T -> bool, i: nat, j: nat)
    requires Selects(r, xs, p) && i < j < |xs| && p(xs[i]) && p(xs[j])
    ensures exists a, b :: 0 <= a < b < |r| && r[a] == xs[i] && r[b] == xs[j]
  {
    var ps := Passing(xs, p);
    var a :| 0 <= a < |ps| && ps[a] == i;
    var b :| 0 <= b < |ps| && ps[b] == j;
    assert a < b;
    assert r[a] == xs[i] && r[b] == xs[j];
  }

  lemma PassingSnoc<T>(init: seq<T>, x: T, p: T -> bool)
    ensures Passing(init + [x], p) == Passing(init, p) + (if p(x) then [|init|] else [])
  {
    assert (init + [x])[..|init|] == init;
  }

  lemma SelectsSnoc<T>(init: seq<T>, x: T, p: T -> bool)
    requires Selects(Filter(init, p), init, p)
    ensures Selects(Filter(init + [x], p), init + [x], p)
  {
    PassingSnoc(init, x, p);
    FilterSnoc(init, x, p);
    PicksSnoc(Filter(init, p), init, Passing(init, p), x, p(x));
  }

  lemma FilterSnoc<T>(init: seq<T>, x: T, p: T -> bool)
    ensures Filter(init + [x], p) == Filter(init, p) + (if p(x) then [x] else [])
  {
    FilterConcat(init, [x], p);
    assert Filter([x], p) == (if p(x) then [x] else []) + Filter([], p);
  }

  /** The first components of a sequence of pairs. */
  function Firsts<A, B>(xs: seq<(A, B)>): (r: seq<A>)
    ensures |r| == |xs| && forall p :: 0 <= p < |r| ==> r[p] == xs[p].0
  {
    seq(|xs|, p requires 0 <= p < |xs| => xs[p].0)
  }

  lemma LastSplit<T>(s: seq<T>)
    requires |s| > 0
    ensures s == s[..|s| - 1] + [s[|s| - 1]]
  {
  }

  lemma TakeSnoc<T>(s: seq<T>, i: nat)
    requires i < |s|
    ensures s[..i + 1] == s[..i] + [s[i]]
  {
  }

  lemma SnocAssoc<T>(a: seq<T>, b: seq<T>, x: T)
    ensures (a + b) + [x] == a + (b + [x])
  {
  }

  lemma SliceOfSlice<T>(s: seq<T>, i: nat, j: nat)
    requires i <= j <= |s|
    ensures s[i..][..j - i] == s[i..j] && s[i..][j - i..] == s[j..]
  {
  }

  lemma ThreeSlices<T>(s: seq<T>, i: nat, j: nat)
    requires i <= j <= |s|
    ensures s == s[..i] + s[i..j] + s[j..]
  {
    assert s[..j] == s[..i] + s[i..j];
    assert s == s[..j] + s[j..];
  }

  /** Surroundings the filter drops entirely leave only the middle's survivors. */
  lemma FilterMiddle<T>(front: seq<T>, mid: seq<T>, back: seq<T>, p: T -> bool)
    requires Filter(front, p) == [] && Filter(back, p) == []
    ensures Filter(front + mid + back, p) == Filter(mid, p)
  {
    FilterConcat(front + mid, back, p);
    FilterConcat(front, mid, p);
    assert Filter(front + mid, p) == Filter(mid, p);
  }

  /** The records a filter keeps and the records it drops together account for all. */
  lemma {:induction false} FilterSplit<T>(xs: seq<T>, p: T -> bool, q: T -> bool)
    requires forall i :: 0 <= i < |xs| ==> (q(xs[i]) <==> !p(xs[i]))
    ensures |Filter(xs, p)| + |Filter(xs, q)| == |xs|
    decreases |xs|
  {
    if |xs| > 0 {
      FilterSplit(xs[1..], p, q);
    }
  }

  /** Position of the first element satisfying `p`, as a `for ... if ...: return` loop finds it. */
  function FindFirst<T>(xs: seq<T>, p: T -> bool): (r: Option<nat>)
    ensures r.Some? ==> r.value < |xs| && p(xs[r.value])
    ensures r.Some? ==> forall j :: 0 <= j < r.value ==> !p(xs[j])
    ensures r.None? <==> forall j :: 0 <= j < |xs| ==> !p(xs[j])
    decreases |xs|
  {
    if |xs| == 0 then None
    else if p(xs[0]) then Some(0)
    else
      match FindFirst(xs[1..], p)
      case None => None
      case Some(i) => Some(i + 1)
  }

  /** The first element satisfying `p`, or `None`. */
  function First<T>(xs: seq<T>, p: T -> bool): Option<T> {
    match FindFirst(xs, p)
    case None => None
    case Some(i) => Some(xs[i])
  }

  /** Position `i` holds the first element of `xs` satisfying `p`. */
  predicate FirstAt<T>(xs: seq<T>, p: T -> bool, i: int) {
    0 <= i < |xs| && p(xs[i]) && forall j :: 0 <= j < i ==> !p(xs[j])
  }

  /** Replace the first element satisfying `p` by `f` of it; report whether one was found. */
  function UpdateFirst<T>(xs: seq<T>, p: T -> bool, f: T -> T): (r: (bool, seq<T>))
    ensures r.0 <==> exists i :: 0 <= i < |xs| && p(xs[i])
    ensures |r.1| == |xs|
    ensures forall j :: 0 <= j < |xs| ==> r.1[j] == if FirstAt(xs, p, j) then f(xs[j]) else xs[j]
  {
    match FindFirst(xs, p)
    case None => (false, xs)
    case Some(i) => (true, xs[i := f(xs[i])])
  }

  /** `len(filtered) < len(xs)` after `filtered = [x for x in xs if not p(x)]`. */
  function RemoveWhere<T>(xs: seq<T>, p: T -> bool): (r: (bool, seq<T>))
    ensures r.0 <==> exists i :: 0 <= i < |xs| && p(xs[i])
    ensures forall i :: 0 <= i < |r.1| ==> r.1[i] in xs && !p(r.1[i])
    ensures forall i :: 0 <= i < |xs| && !p(xs[i]) ==> xs[i] in r.1
    ensures Selects(r.1, xs, Not(p))
  {
    var kept := Filter(xs, Not(p));
    FilterSelects(xs, Not(p));
    (|kept| < |xs|, kept)
  }

  /** `sum(xs)`. */
  function Sum(xs: seq<int>): int
    decreases |xs|
  {
    if |xs| == 0 then 0 else Sum(xs[..|xs| - 1]) + xs[|xs| - 1]
  }

  /** Number of elements satisfying `p`. */
  function CountWhere<T>(xs: seq<T>, p: T -> bool): nat {
    |Filter(xs, p)|
  }

  /** A relation that holds between every earlier and later element of `xs`
      still holds after filtering. */
  lemma {:induction false} FilterPairwise<T>(xs: seq<T>, p: T -> bool, before: (T, T) -> bool)
    requires forall i, j :: 0 <= i < j < |xs| ==> before(xs[i], xs[j])
    ensures forall i, j :: 0 <= i < j < |Filter(xs, p)| ==> before(Filter(xs, p)[i], Filter(xs, p)[j])
    decreases |xs|
  {
    if |xs| > 0 {
      FilterPairwise(xs[1..], p, before);
      var f, g := Filter(xs, p), Filter(xs[1..], p);
      if p(xs[0]) {
        assert f == [xs[0]] + g;
        forall i, j | 0 <= i < j < |f|
          ensures before(f[i], f[j])
        {
          assert f[j] == g[j - 1] && g[j - 1] in xs[1..];
          if i > 0 {
            assert f[i] == g[i - 1];
          } else {
            var k :| 0 <= k < |xs[1..]| && xs[1..][k] == g[j - 1];
            assert xs[k + 1] == f[j];
          }
        }
      } else {
        assert f == g;
        forall i, j | 0 <= i < j < |f|
          ensures before(f[i], f[j])
        {
          assert f[i] == g[i] && f[j] == g[j];
        }
      }
    }
  }

  /** Two conditions that agree on every element select the same elements. */
  lemma {:induction false} FilterSame<T>(xs: seq<T>, p: T -> bool, q: T -> bool)
    requires forall x :: p(x) <==> q(x)
    ensures Filter(xs, p) == Filter(xs, q)
    ensures Selects(Filter(xs, p), xs, q)
    decreases |xs|
  {
    if |xs| > 0 {
      FilterSame(xs[1..], p, q);
    }
    FilterSelects(xs, q);
  }

  /** An element occurs in the filtered list as often as in the input when it passes,
      and not at all otherwise. */
  lemma {:induction false} FilterCount<T>(xs: seq<T>, p: T -> bool, x: T)
    ensures multiset(Filter(xs, p))[x] == if p(x) then multiset(xs)[x] else 0
    decreases |xs|
  {
    if |xs| > 0 {
      FilterCount(xs[1..], p, x);
      assert xs == [xs[0]] + xs[1..];
    }
  }

  /** Filtering two permutations of each other leaves two permutations of each other. */
  lemma FilterPermutation<T>(xs: seq<T>, ys: seq<T>, p: T -> bool)
    requires multiset(xs) == multiset(ys)
    ensures multiset(Filter(xs, p)) == multiset(Filter(ys, p))
  {
    forall x
      ensures multiset(Filter(xs, p))[x] == multiset(Filter(ys, p))[x]
    {
      FilterCount(xs, p, x);
      FilterCount(ys, p, x);
    }
  }

  /** Filtering twice is filtering once by both conditions. */
  lemma {:induction false} FilterFilter<T>(xs: seq<T>, p: T -> bool, q: T -> bool, both: T -> bool)
    requires forall x :: both(x) <==> p(x) && q(x)
    ensures Filter(Filter(xs, p), q) == Filter(xs, both)
    decreases |xs|
  {
    if |xs| > 0 {
      FilterFilter(xs[1..], p, q, both);
      var head: seq<T> := if p(xs[0]) then [xs[0]] else [];
      FilterConcat(head, Filter(xs[1..], p), q);
      assert Filter(head, q) == (if both(xs[0]) then [xs[0]] else []) by {
        if p(xs[0]) {
          assert Filter(head, q) == (if q(xs[0]) then [xs[0]] else []) + Filter([], q);
        }
      }
    }
  }

  /** Two kept elements keep their relative order in the filtered list. */
  lemma {:induction false} FilterKeepsOrder<T>(xs: seq<T>, p: T -> bool, i: nat, j: nat)
    requires i < j < |xs| && p(xs[i]) && p(xs[j])
    ensures exists i', j' ::
      0 <= i' < j' < |Filter(xs, p)| && Filter(xs, p)[i'] == xs[i] && Filter(xs, p)[j'] == xs[j]
    decreases |xs|
  {
    var h: seq<T> := if p(xs[0]) then [xs[0]] else [];
    var g := Filter(xs[1..], p);
    assert Filter(xs, p) == h + g;
    assert xs[1..][j - 1] == xs[j];
    if i == 0 {
      assert xs[j] in g;
      OrderedPairHead(xs[0], g, xs[j]);
    } else {
      FilterKeepsOrder(xs[1..], p, i - 1, j - 1);
      assert xs[1..][i - 1] == xs[i];
      OrderedPairPrepend(h, g, xs[i], xs[j]);
    }
  }

  lemma OrderedPairHead<T>(x: T, g: seq<T>, b: T)
    requires b in g
    ensures exists i', j' :: 0 <= i' < j' < |[x] + g| && ([x] + g)[i'] == x && ([x] + g)[j'] == b
  {
    var j' :| 0 <= j' < |g| && g[j'] == b;
    assert ([x] + g)[0] == x && ([x] + g)[1 + j'] == b;
  }

  lemma OrderedPairPrepend<T>(h: seq<T>, g: seq<T>, a: T, b: T)
    requires exists i', j' :: 0 <= i' < j' < |g| && g[i'] == a && g[j'] == b
    ensures exists i', j' :: 0 <= i' < j' < |h + g| && (h + g)[i'] == a && (h + g)[j'] == b
  {
    var i', j' :| 0 <= i' < j' < |g| && g[i'] == a && g[j'] == b;
    assert (h + g)[|h| + i'] == a && (h + g)[|h| + j'] == b;
  }

  /** Python `del s[i]` guarded by `if i < len(s)`. */
  function RemoveAt<T>(s: seq<T>, i: nat): seq<T> {
    if i < |s| then s[..i] + s[i + 1..] else s
  }

  /** `for i in order: del s[i]` (each guarded as in `RemoveAt`). */
  function RemoveEach<T>(s: seq<T>, order: seq<nat>): seq<T>
    decreases |order|
  {
    if |order| == 0 then s else RemoveEach(RemoveAt(s, order[0]), order[1..])
  }

  /** The elements of `s` whose positions are not in `gone`, in their original order. */
  function Drop<T>(s: seq<T>, gone: set<nat>): seq<T>
    decreases |s|
  {
    if |s| == 0 then []
    else Drop(s[..|s| - 1], gone) + (if |s| - 1 in gone then [] else [s[|s| - 1]])
  }

  /** The positions below `n` outside `gone`, in increasing order. */
  function Outside(n: nat, gone: set<nat>): (ps: seq<nat>)
    ensures Ascending(ps)
    ensures forall k :: 0 <= k < |ps| ==> ps[k] < n && ps[k] !in gone
    ensures forall i :: 0 <= i < n && i !in gone ==> i in ps
  {
    if n == 0 then [] else Outside(n - 1, gone) + (if n - 1 in gone then [] else [n - 1])
  }

  /** `Drop` keeps exactly the elements at the positions outside `gone`, in order. */
  lemma {:induction false} DropPicks<T>(s: seq<T>, gone: set<nat>)
    ensures Picks(Drop(s, gone), s, Outside(|s|, gone))
    decreases |s|
  {
    if |s| > 0 {
      var init, x := s[..|s| - 1], s[|s| - 1];
      DropPicks(init, gone);
      assert s == init + [x];
      PicksSnoc(Drop(init, gone), init, Outside(|init|, gone), x, |init| !in gone);
    }
  }

  /** `Drop` is the comprehension `[s[i] for i in range(len(s)) if i not in gone]`:
      a survivor sits at a position outside `gone`, and every such position survives. */
  lemma {:induction false} DropMembers<T>(s: seq<T>, gone: set<nat>)
    ensures forall x :: x in Drop(s, gone) ==> exists i :: 0 <= i < |s| && i !in gone && s[i] == x
    ensures forall i :: 0 <= i < |s| && i !in gone ==> s[i] in Drop(s, gone)
    decreases |s|
  {
    if |s| > 0 {
      var init := s[..|s| - 1];
      DropMembers(init, gone);
      forall i | 0 <= i < |init|
        ensures init[i] == s[i]
      {
      }
    }
  }

  /** Only the positions below `|s|` matter to `Drop`. */
  lemma {:induction false} DropSamePositions<T>(s: seq<T>, a: set<nat>, b: set<nat>)
    requires forall i :: 0 <= i < |s| ==> (i in a <==> i in b)
    ensures Drop(s, a) == Drop(s, b)
    decreases |s|
  {
    if |s| > 0 {
      DropSamePositions(s[..|s| - 1], a, b);
    }
  }

  /** Dropping nothing keeps everything. */
  lemma {:induction false} DropNothing<T>(s: seq<T>)
    ensures Drop(s, {}) == s
    decreases |s|
  {
    if |s| > 0 {
      DropNothing(s[..|s| - 1]);
      assert s == s[..|s| - 1] + [s[|s| - 1]];
    }
  }

  /** Deleting position `d` and then positions below it is dropping them all at once. */
  lemma {:induction false} DropAfterRemoveAt<T>(s: seq<T>, d: nat, gone: set<nat>)
    requires d < |s|
    requires forall x :: x in gone ==> x < d
    ensures Drop(RemoveAt(s, d), gone) == Drop(s, gone + {d})
    decreases |s|
  {
    var u := RemoveAt(s, d);
    var init := s[..|s| - 1];
    if d == |s| - 1 {
      assert u == init;
      DropSamePositions(init, gone, gone + {d});
    } else {
      assert u[..|u| - 1] == RemoveAt(init, d);
      assert u[|u| - 1] == s[|s| - 1];
      DropAfterRemoveAt(init, d, gone);
    }
  }

  /** Deleting positions one by one from the largest down never shifts a position still
      to be deleted, so it drops exactly the positions listed. */
  lemma {:induction false} RemoveEachDescending<T>(s: seq<T>, order: seq<nat>, all: set<nat>)
    requires forall i, j :: 0 <= i < j < |order| ==> order[i] > order[j]
    requires forall x :: x in all <==> x in order
    ensures RemoveEach(s, order) == Drop(s, all)
    decreases |order|
  {
    if |order| == 0 {
      DropNothing(s);
      assert all == {};
    } else {
      var d, rest := order[0], order[1..];
      var later := set i | i in rest;
      assert all == later + {d};
      RemoveEachDescending(RemoveAt(s, d), rest, later);
      assert forall x :: x in later ==> x < d by {
        forall x | x in later
          ensures x < d
        {
          var j :| 0 <= j < |rest| && rest[j] == x;
          assert order[j + 1] == x;
        }
      }
      assert RemoveEach(s, order) == RemoveEach(RemoveAt(s, d), rest);
      assert RemoveEach(RemoveAt(s, d), rest) == Drop(RemoveAt(s, d), later);
      if d < |s| {
        DropAfterRemoveAt(s, d, later);
        assert Drop(RemoveAt(s, d), later) == Drop(s, all);
      } else {
        DropSamePositions(s, later, all);
      }
    }
  }

  /** A filter that every element passes changes nothing. */
  lemma {:induction false} FilterAll<T>(xs: seq<T>, p: T -> bool)
    requires forall i :: 0 <= i < |xs| ==> p(xs[i])
    ensures Filter(xs, p) == xs
    decreases |xs|
  {
    if |xs| > 0 {
      FilterAll(xs[1..], p);
      assert xs == [xs[0]] + xs[1..];
    }
  }

  /** The same deletions applied to two lists of one length leave lists of one length. */
  lemma {:induction false} RemoveEachSameLength<T, U>(a: seq<T>, b: seq<U>, order: seq<nat>)
    requires |a| == |b|
    ensures |RemoveEach(a, order)| == |RemoveEach(b, order)|
    decreases |order|
  {
    if |order| > 0 {
      RemoveEachSameLength(RemoveAt(a, order[0]), RemoveAt(b, order[0]), order[1..]);
    }
  }

  /** Dropping the same positions from two lists of one length leaves lists of one length. */
  lemma {:induction false} DropSameLength<T, U>(a: seq<T>, b: seq<U>, gone: set<nat>)
    requires |a| == |b|
    ensures |Drop(a, gone)| == |Drop(b, gone)|
    decreases |a|
  {
    if |a| > 0 {
      DropSameLength(a[..|a| - 1], b[..|b| - 1], gone);
    }
  }

  /** Counting distributes over concatenation. */
  lemma CountConcat<T>(a: seq<T>, b: seq<T>, p: T -> bool)
    ensures CountWhere(a + b, p) == CountWhere(a, p) + CountWhere(b, p)
  {
    FilterConcat(a, b, p);
  }

  /** Taking the same element out of two permutations of each other leaves two
      permutations of each other. */
  lemma RemoveMatching<T>(xs: seq<T>, ys: seq<T>, k: nat)
    requires |xs| > 0 && k < |ys| && ys[k] == xs[0]
    requires multiset(xs) == multiset(ys)
    ensures multiset(xs[1..]) == multiset(ys[..k] + ys[k + 1..])
  {
    var x := xs[0];
    assert ys == ys[..k] + [x] + ys[k + 1..];
    assert xs == [x] + xs[1..];
    calc {
      multiset(xs[1..]);
      multiset(xs) - multiset{x};
      multiset(ys) - multiset{x};
      multiset(ys[..k]) + multiset(ys[k + 1..]);
      multiset(ys[..k] + ys[k + 1..]);
    }
  }

  /** How many elements satisfy a predicate does not depend on their order. */
  lemma {:induction false} CountPermutation<T>(xs: seq<T>, ys: seq<T>, p: T -> bool)
    requires multiset(xs) == multiset(ys)
    ensures CountWhere(xs, p) == CountWhere(ys, p)
    decreases |xs|
  {
    if |xs| > 0 {
      var x := xs[0];
      assert x in multiset(ys);
      var k :| 0 <= k < |ys| && ys[k] == x;
      var before, after := ys[..k], ys[k + 1..];
      RemoveMatching(xs, ys, k);
      CountPermutation(xs[1..], before + after, p);
      assert ys == before + ([x] + after);
      assert xs == [x] + xs[1..];
      CountConcat(before, [x] + after, p);
      CountConcat([x], after, p);
      CountConcat(before, after, p);
      CountConcat([x], xs[1..], p);
    }
  }
}

=== FILE: sorting.dfy ===
/** Python's `list.sort(key=..., reverse=True)` / `sorted(..., reverse=True)`: a stable
    sort into non-increasing key order. Keys are compared with an abstract strict order
    `lt` (Python's `<` on the key type); an ascending sort is a descending sort under
    the flipped order. */
module Sorting {
  import Text
  import opened Seqs

  ghost predicate StrictOrder<K(!new)>(lt: (K, K) -> bool) {
    && (forall a :: !lt(a, a))
    && (forall a, b, c :: lt(a, b) && lt(b, c) ==> lt(a, c))
  }

  /** `lt` with its arguments swapped: sorting "descending" under it sorts ascending. */
  function Flip<K>(lt: (K, K) -> bool): (K, K) -> bool {
    (a, b) => lt(b, a)
  }

  function IntLt(a: int, b: int): bool { a < b }

  function RealLt(a: real, b: real): bool { a < b }

  lemma IntOrder()
    ensures StrictOrder(IntLt)
  {
  }

  lemma RealOrder()
    ensures StrictOrder(RealLt)
  {
  }

  lemma StringOrder()
    ensures StrictOrder(Text.StrLt)
  {
    forall a: string
      ensures !Text.StrLt(a, a)
    {
      Text.StrLtIrreflexive(a);
    }
    forall a: string, b: string, c: string | Text.StrLt(a, b) && Text.StrLt(b, c)
      ensures Text.StrLt(a, c)
    {
      Text.StrLtTransitive(a, b, c);
    }
  }

  lemma FlipOrder<K(!new)>(lt: (K, K) -> bool)
    requires StrictOrder(lt)
    ensures StrictOrder(Flip(lt))
  {
  }

  /** No element is followed by one with a strictly greater key. */
  ghost predicate Sorted<T, K>(s: seq<T>, key: T -> K, lt: (K, K) -> bool) {
    forall p, q :: 0 <= p < q < |s| ==> !lt(key(s[p]), key(s[q]))
  }

  /** The elements whose key is `k`. */
  function KeyIs<T, K(==)>(key: T -> K, k: K): T -> bool {
    y => key(y) == k
  }

  /** Place `x` just before the first element with a strictly smaller key, that is,
      after every element whose key it does not exceed. */
  function Insert<T, K(!new)>(x: T, s: seq<T>, key: T -> K, lt: (K, K) -> bool): (r: seq<T>)
    requires StrictOrder(lt) && Sorted(s, key, lt)
    ensures multiset(r) == multiset(s) + multiset{x}
    ensures Sorted(r, key, lt)
    decreases |s|
  {
    if |s| == 0 then [x]
    else if lt(key(s[0]), key(x)) then [x] + s
    else
      var rest := Insert(x, s[1..], key, lt);
      InsertHeadSorted(s[0], x, s[1..], rest, key, lt);
      assert s == [s[0]] + s[1..];
      [s[0]] + rest
  }

  lemma InsertHeadSorted<T, K(!new)>(h: T, x: T, tail: seq<T>, rest: seq<T>, key: T -> K, lt: (K, K) -> bool)
    requires Sorted([h] + tail, key, lt) && !lt(key(h), key(x))
    requires multiset(rest) == multiset(tail) + multiset{x}
    requires Sorted(rest, key, lt)
    ensures Sorted([h] + rest, key, lt)
  {
    var r := [h] + rest;
    forall p, q | 0 <= p < q < |r|
      ensures !lt(key(r[p]), key(r[q]))
    {
      if p == 0 {
        var y := rest[q - 1];
        assert y in multiset(rest);
        if y != x {
          assert y in tail;
          var j :| 0 <= j < |tail| && tail[j] == y;
          assert ([h] + tail)[0] == h && ([h] + tail)[j + 1] == y;
        }
      } else {
        assert r[p] == rest[p - 1] && r[q] == rest[q - 1];
      }
    }
  }

  /** Inserting adds `x` at the end of the run of elements that share its key. */
  lemma {:induction false} InsertTies<T, K(!new)>(x: T, s: seq<T>, key: T -> K, lt: (K, K) -> bool, k: K)
    requires StrictOrder(lt) && Sorted(s, key, lt)
    ensures Filter(Insert(x, s, key, lt), KeyIs(key, k)) ==
            Filter(s, KeyIs(key, k)) + Filter([x], KeyIs(key, k))
    decreases |s|
  {
    if |s| == 0 {
    } else if lt(key(s[0]), key(x)) {
      InsertTiesFront(x, s, key, lt, k);
    } else {
      var rest := Insert(x, s[1..], key, lt);
      assert Insert(x, s, key, lt) == [s[0]] + rest;
      InsertTies(x, s[1..], key, lt, k);
      InsertTiesLater(x, s, rest, KeyIs(key, k));
    }
  }

  /** When `x` goes to the front, everything sharing its key was already behind it. */
  lemma InsertTiesFront<T, K(!new)>(x: T, s: seq<T>, key: T -> K, lt: (K, K) -> bool, k: K)
    requires StrictOrder(lt) && Sorted(s, key, lt)
    requires |s| > 0 && lt(key(s[0]), key(x))
    ensures Filter([x] + s, KeyIs(key, k)) == Filter(s, KeyIs(key, k)) + Filter([x], KeyIs(key, k))
  {
    var P := KeyIs(key, k);
    FilterConcat([x], s, P);
    if key(x) == k {
      NoneWithKey(s, key, lt, k);
      assert Filter([x], P) == [x];
    } else {
      assert Filter([x], P) == [];
    }
  }

  /** When the head stays in front, the filtered head stays in front too. */
  lemma InsertTiesLater<T>(x: T, s: seq<T>, rest: seq<T>, P: T -> bool)
    requires |s| > 0
    requires Filter(rest, P) == Filter(s[1..], P) + Filter([x], P)
    ensures Filter([s[0]] + rest, P) == Filter(s, P) + Filter([x], P)
  {
    var head, tail, last := Filter([s[0]], P), Filter(s[1..], P), Filter([x], P);
    calc {
      Filter([s[0]] + rest, P);
    == { FilterConcat([s[0]], rest, P); }
      head + (tail + last);
    == { assert head + (tail + last) == (head + tail) + last; }
      (head + tail) + last;
    == { FilterConcat([s[0]], s[1..], P); assert [s[0]] + s[1..] == s; }
      Filter(s, P) + last;
    }
  }

  /** In a sorted list headed by a key smaller than `k`, no element has key `k`. */
  lemma NoneWithKey<T, K(!new)>(s: seq<T>, key: T -> K, lt: (K, K) -> bool, k: K)
    requires StrictOrder(lt) && Sorted(s, key, lt)
    requires |s| > 0 && lt(key(s[0]), k)
    ensures Filter(s, KeyIs(key, k)) == []
  {
  }

  /** `sorted(xs, key=key, reverse=True)`, by insertion in input order. */
  function SortDesc<T, K(!new)>(xs: seq<T>, key: T -> K, lt: (K, K) -> bool): (r: seq<T>)
    requires StrictOrder(lt)
    ensures multiset(r) == multiset(xs)
    ensures Sorted(r, key, lt)
    decreases |xs|
  {
    if |xs| == 0 then []
    else
      var init := xs[..|xs| - 1];
      assert xs == init + [xs[|xs| - 1]];
      Insert(xs[|xs| - 1], SortDesc(init, key, lt), key, lt)
  }

  /** The sort is stable: the elements sharing any one key come out in input order. */
  lemma {:induction false} SortDescStable<T, K(!new)>(xs: seq<T>, key: T -> K, lt: (K, K) -> bool, k: K)
    requires StrictOrder(lt)
    ensures Filter(SortDesc(xs, key, lt), KeyIs(key, k)) == Filter(xs, KeyIs(key, k))
    decreases |xs|
  {
    if |xs| > 0 {
      var init := xs[..|xs| - 1];
      SortDescStable(init, key, lt, k);
      StableStep(xs, SortDesc(init, key, lt), key, lt, k);
    }
  }

  /** Inserting the next element keeps the ties of the sorted prefix in input order. */
  lemma StableStep<T, K(!new)>(xs: seq<T>, sorted: seq<T>, key: T -> K, lt: (K, K) -> bool, k: K)
    requires |xs| > 0 && StrictOrder(lt) && Sorted(sorted, key, lt)
    requires Filter(sorted, KeyIs(key, k)) == Filter(xs[..|xs| - 1], KeyIs(key, k))
    ensures Filter(Insert(xs[|xs| - 1], sorted, key, lt), KeyIs(key, k)) == Filter(xs, KeyIs(key, k))
  {
    var init, last := xs[..|xs| - 1], xs[|xs| - 1];
    InsertTies(last, sorted, key, lt, k);
    FilterConcat(init, [last], KeyIs(key, k));
    assert xs == init + [last];
  }
}

=== FILE: text.dfy ===
/** String operations the stores rely on, with Python's meaning: `str.lower()`,
    `needle in hay`, `<` on `str`, and `str(n)` for a natural number. */
module Text {
  import opened Wrappers

  /** Python truthiness of an optional string argument: `None` and `""` are false. */
  predicate Given(o: Option<string>) {
    o.Some? && o.value != ""
  }

  function LowerChar(c: char): char {
    if 'A' <= c <= 'Z' then (c as int + 32) as char else c
  }

  /** `s.lower()`, restricted to ASCII letters. */
  function Lower(s: string): string {
    seq(|s|, i requires 0 <= i < |s| => LowerChar(s[i]))
  }

  predicate IsPrefix(p: string, s: string) {
    |p| <= |s| && s[..|p|] == p
  }

  /** `needle in hay` for two strings. */
  predicate Contains(hay: string, needle: string)
    decreases |hay|
  {
    IsPrefix(needle, hay) || (|hay| > 0 && Contains(hay[1..], needle))
  }

  /** `needle` sits in `hay` starting at position `i`. */
  predicate OccursAt(hay: string, needle: string, i: int) {
    0 <= i && i + |needle| <= |hay| && hay[i..i + |needle|] == needle
  }

  /** `Contains` agrees with the positional reading of `needle in hay`:
      some window of `hay` equals `needle`. */
  lemma {:induction false} ContainsIffOccurs(hay: string, needle: string)
    ensures Contains(hay, needle) <==> exists i :: OccursAt(hay, needle, i)
    decreases |hay|
  {
    if IsPrefix(needle, hay) {
      assert OccursAt(hay, needle, 0);
    } else if |hay| == 0 {
    } else {
      ContainsIffOccurs(hay[1..], needle);
      if Contains(hay[1..], needle) {
        var i :| OccursAt(hay[1..], needle, i);
        assert hay[1..][i..i + |needle|] == hay[i + 1..i + 1 + |needle|];
        assert OccursAt(hay, needle, i + 1);
      }
      if exists i :: OccursAt(hay, needle, i) {
        var i :| OccursAt(hay, needle, i);
        if i > 0 {
          assert hay[1..][i - 1..i - 1 + |needle|] == hay[i..i + |needle|];
          assert OccursAt(hay[1..], needle, i - 1);
        }
      }
    }
  }

  /** A substring of a substring is a substring. */
  lemma ContainsTransitive(a: string, b: string, c: string)
    requires Contains(a, b) && Contains(b, c)
    ensures Contains(a, c)
  {
    ContainsIffOccurs(a, b);
    ContainsIffOccurs(b, c);
    var i :| OccursAt(a, b, i);
    var j :| OccursAt(b, c, j);
    forall k | 0 <= k < |c|
      ensures a[i + j + k] == c[k]
    {
      assert c[k] == b[j..j + |c|][k] == b[j + k];
      assert b[j + k] == a[i..i + |b|][j + k] == a[i + j + k];
    }
    assert a[i + j..i + j + |c|] == c;
    ContainsIffOccurs(a, c);
    assert OccursAt(a, c, i + j);
  }

  /** Lower-casing keeps every occurrence. */
  lemma LowerContains(hay: string, needle: string)
    requires Contains(hay, needle)
    ensures Contains(Lower(hay), Lower(needle))
  {
    ContainsIffOccurs(hay, needle);
    var i :| OccursAt(hay, needle, i);
    assert Lower(hay)[i..i + |needle|] == Lower(needle);
    ContainsIffOccurs(Lower(hay), Lower(needle));
    assert OccursAt(Lower(hay), Lower(needle), i);
  }

  /** Every string contains the empty string. */
  lemma ContainsEmpty(hay: string)
    ensures Contains(hay, "")
  {
    assert IsPrefix("", hay);
  }

  /** Python `a < b` on `str`: lexicographic by code point, a proper prefix is smaller. */
  predicate StrLt(a: string, b: string)
    decreases |a|
  {
    if |a| == 0 then |b| > 0
    else if |b| == 0 then false
    else a[0] < b[0] || (a[0] == b[0] && StrLt(a[1..], b[1..]))
  }

  lemma {:induction false} StrLtIrreflexive(a: string)
    ensures !StrLt(a, a)
    decreases |a|
  {
    if |a| > 0 {
      StrLtIrreflexive(a[1..]);
    }
  }

  lemma {:induction false} StrLtTransitive(a: string, b: string, c: string)
    requires StrLt(a, b) && StrLt(b, c)
    ensures StrLt(a, c)
    decreases |a|
  {
    if |a| > 0 && a[0] == b[0] && b[0] == c[0] {
      StrLtTransitive(a[1..], b[1..], c[1..]);
    }
  }

  /** `<` on strings is total: two different strings are ordered one way or the other. */
  lemma {:induction false} StrLtTotal(a: string, b: string)
    ensures a == b || StrLt(a, b) || StrLt(b, a)
    decreases |a|
  {
    if |a| > 0 && |b| > 0 && a[0] == b[0] {
      StrLtTotal(a[1..], b[1..]);
      if a[1..] == b[1..] {
        assert a == [a[0]] + a[1..] && b == [b[0]] + b[1..];
      }
    }
  }

  function DigitChar(d: nat): char
    requires d < 10
  {
    "0123456789"[d]
  }

  predicate IsDigit(c: char) {
    '0' <= c <= '9'
  }

  /** `str(n)` for a natural number: its decimal digits, most significant first. */
  function Decimal(n: nat): (r: string)
    ensures |r| > 0
    ensures forall i :: 0 <= i < |r| ==> IsDigit(r[i])
    decreases n
  {
    if n < 10 then [DigitChar(n)] else Decimal(n / 10) + [DigitChar(n % 10)]
  }

  /** Different numbers are written differently. */
  lemma {:induction false} DecimalInjective(m: nat, n: nat)
    requires Decimal(m) == Decimal(n)
    ensures m == n
    decreases m
  {
    var a, b := Decimal(m), Decimal(n);
    if m < 10 && n < 10 {
      assert DigitChar(m) == a[0] == b[0] == DigitChar(n);
    } else if m >= 10 && n >= 10 {
      assert a[|a| - 1] == DigitChar(m % 10);
      assert b[|b| - 1] == DigitChar(n % 10);
      assert m % 10 == n % 10;
      assert Decimal(m / 10) == a[..|a| - 1] == b[..|b| - 1] == Decimal(n / 10);
      DecimalInjective(m / 10, n / 10);
    }
  }
}

=== FILE: user_utils.dfy ===
/** Per-user storage names: the identifier sanitiser of `get_user_id`, and the data
    directory, vector-store path and Milvus collection name derived from a user id. */
module UserPaths {
  import opened Wrappers
  import opened Seqs

  predicate Letter(c: char) {
    'a' <= c <= 'z' || 'A' <= c <= 'Z'
  }

  predicate Digit(c: char) {
    '0' <= c <= '9'
  }

  /** The characters a sanitised name may keep: `[a-zA-Z0-9_-]` for user ids, and
      `[a-zA-Z0-9_]` (no dash) for collection names. */
  predicate Allowed(c: char, dash: bool) {
    Letter(c) || Digit(c) || c == '_' || (dash && c == '-')
  }

  predicate NotUnderscore(c: char) {
    c != '_'
  }

  /** No two underscores in a row. */
  predicate NoDoubleUnderscore(s: string) {
    forall i :: 0 <= i < |s| - 1 ==> !(s[i] == '_' && s[i + 1] == '_')
  }

  /** Neither the first nor the last character is an underscore. */
  predicate NoEdgeUnderscore(s: string) {
    |s| == 0 || (s[0] != '_' && s[|s| - 1] != '_')
  }

  /** What a sanitised name looks like. */
  predicate Clean(s: string, dash: bool) {
    AllAllowed(s, dash) && NoDoubleUnderscore(s) && NoEdgeUnderscore(s)
  }

  /** `re.sub(r'[^a-zA-Z0-9_-]', '_', s)` (or without `-`): every other character
      becomes an underscore. */
  function ReplaceDisallowed(s: string, dash: bool): (r: string)
    ensures |r| == |s|
    ensures forall i :: 0 <= i < |s| ==> Allowed(r[i], dash)
    ensures forall i :: 0 <= i < |s| ==> (r[i] == s[i] <==> Allowed(s[i], dash))
  {
    seq(|s|, i requires 0 <= i < |s| => if Allowed(s[i], dash) then s[i] else '_')
  }

  /** Every character is allowed. */
  predicate AllAllowed(s: string, dash: bool) {
    forall i :: 0 <= i < |s| ==> Allowed(s[i], dash)
  }

  /** Every character is an underscore. */
  predicate Underscores(s: string) {
    forall k :: 0 <= k < |s| ==> s[k] == '_'
  }

  /** `re.sub(r'_+', '_', s)`: every run of underscores shrinks to one. */
  function Collapse(s: string): (r: string)
    ensures NoDoubleUnderscore(r)
    ensures |s| > 0 ==> |r| > 0 && r[0] == s[0]
    decreases |s|
  {
    if |s| < 2 then s
    else if s[0] == '_' && s[1] == '_' then Collapse(s[1..])
    else [s[0]] + Collapse(s[1..])
  }

  /** Collapsing only deletes underscores: every other character survives, in order. */
  lemma {:induction false} CollapseKeeps(s: string, dash: bool)
    ensures Filter(Collapse(s), NotUnderscore) == Filter(s, NotUnderscore)
    ensures AllAllowed(s, dash) ==> AllAllowed(Collapse(s), dash)
    decreases |s|
  {
    if |s| >= 2 {
      CollapseKeeps(s[1..], dash);
      assert s == [s[0]] + s[1..];
      FilterConcat([s[0]], s[1..], NotUnderscore);
      if !(s[0] == '_' && s[1] == '_') {
        FilterConcat([s[0]], Collapse(s[1..]), NotUnderscore);
      }
    }
  }

  /** Collapsing a string without a double underscore changes nothing. */
  lemma {:induction false} CollapseClean(s: string)
    requires NoDoubleUnderscore(s)
    ensures Collapse(s) == s
    decreases |s|
  {
    if |s| >= 2 {
      assert !(s[0] == '_' && s[1] == '_');
      assert NoDoubleUnderscore(s[1..]) by {
        forall i | 0 <= i < |s[1..]| - 1
          ensures !(s[1..][i] == '_' && s[1..][i + 1] == '_')
        {
          assert s[1..][i] == s[i + 1] && s[1..][i + 1] == s[i + 2];
        }
      }
      CollapseClean(s[1..]);
      assert s == [s[0]] + s[1..];
    }
  }

  /** A run of underscores followed by anything but an underscore becomes a single
      underscore, whatever its length. */
  lemma {:induction false} CollapseRun(u: string, w: string)
    requires |u| > 0 && Underscores(u)
    requires |w| == 0 || w[0] != '_'
    ensures Collapse(u + w) == "_" + Collapse(w)
    decreases |u|
  {
    if |u| == 1 {
      assert (u + w)[1..] == w;
    } else {
      assert (u + w)[1..] == u[1..] + w;
      CollapseRun(u[1..], w);
    }
  }

  /** Every other character is kept as it is, in its place. */
  lemma CollapseChar(c: char, w: string)
    requires c != '_'
    ensures Collapse([c] + w) == [c] + Collapse(w)
  {
    if |w| > 0 {
      assert ([c] + w)[1..] == w;
    }
  }

  /** The number of underscores `s` starts with. */
  function Leading(s: string): (n: nat)
    ensures n <= |s| && Underscores(s[..n]) && (n < |s| ==> s[n] != '_')
  {
    if |s| == 0 || s[0] != '_' then 0
    else
      var n := Leading(s[1..]);
      assert s[..n + 1] == [s[0]] + s[1..][..n];
      n + 1
  }

  /** The number of underscores `s` ends with. */
  function Trailing(s: string): (n: nat)
    ensures n <= |s| && Underscores(s[|s| - n..]) && (n < |s| ==> s[|s| - n - 1] != '_')
  {
    if |s| == 0 || s[|s| - 1] != '_' then 0
    else
      var n := Trailing(s[..|s| - 1]);
      assert s[|s| - (n + 1)..] == s[..|s| - 1][|s| - 1 - n..] + [s[|s| - 1]];
      n + 1
  }

  /** `s.strip('_')`: the underscores at both ends are removed, and nothing else. */
  function Strip(s: string): (r: string)
    ensures NoEdgeUnderscore(r)
  {
    var i := Leading(s);
    var j := |s| - Trailing(s[i..]);
    SliceOfSlice(s, i, j);
    s[i..j]
  }

  /** Stripping only deletes underscores, and what stays is a piece of the input. */
  lemma StripKeeps(s: string, dash: bool)
    ensures NoDoubleUnderscore(s) ==> NoDoubleUnderscore(Strip(s))
    ensures AllAllowed(s, dash) ==> AllAllowed(Strip(s), dash)
    ensures Filter(Strip(s), NotUnderscore) == Filter(s, NotUnderscore)
  {
    var i, j := StripSlice(s);
    StripFilter(s, i, j);
    SliceNoDouble(s, i, j);
    SliceAllowed(s, i, j, dash);
  }

  /** A piece of a string of allowed characters has only allowed characters. */
  lemma SliceAllowed(s: string, i: nat, j: nat, dash: bool)
    requires i <= j <= |s|
    ensures AllAllowed(s, dash) ==> AllAllowed(s[i..j], dash)
  {
    if AllAllowed(s, dash) {
      forall k | 0 <= k < j - i
        ensures Allowed(s[i..j][k], dash)
      {
        assert s[i..j][k] == s[i + k];
      }
    }
  }

  /** The stripped string is the piece between the leading and the trailing underscores. */
  lemma StripSlice(s: string) returns (i: nat, j: nat)
    ensures i <= j <= |s| && Strip(s) == s[i..j]
    ensures Underscores(s[..i]) && Underscores(s[j..])
  {
    i := Leading(s);
    var t := s[i..];
    var n := Trailing(t);
    j := |s| - n;
    SliceOfSlice(s, i, j);
    assert t[|t| - n..] == s[j..];
  }

  /** A piece of a string without a double underscore has none either. */
  lemma SliceNoDouble(s: string, i: nat, j: nat)
    requires i <= j <= |s|
    ensures NoDoubleUnderscore(s) ==> NoDoubleUnderscore(s[i..j])
  {
    if NoDoubleUnderscore(s) {
      var r := s[i..j];
      forall k | 0 <= k < |r| - 1
        ensures !(r[k] == '_' && r[k + 1] == '_')
      {
        assert r[k] == s[i + k] && r[k + 1] == s[i + k + 1];
      }
    }
  }

  lemma StripFilter(s: string, i: nat, j: nat)
    requires i <= j <= |s| && Underscores(s[..i]) && Underscores(s[j..])
    ensures Filter(s[i..j], NotUnderscore) == Filter(s, NotUnderscore)
  {
    var front, mid, back := s[..i], s[i..j], s[j..];
    NoneKept(front);
    NoneKept(back);
    FilterMiddle(front, mid, back, NotUnderscore);
    ThreeSlices(s, i, j);
  }

  /** Stripping a string without edge underscores changes nothing. */
  lemma StripClean(s: string)
    requires NoEdgeUnderscore(s)
    ensures Strip(s) == s
  {
  }

  lemma {:induction false} NoneKept(s: string)
    requires Underscores(s)
    ensures Filter(s, NotUnderscore) == []
  {
    if |s| > 0 {
      assert s == [s[0]] + s[1..];
      FilterConcat([s[0]], s[1..], NotUnderscore);
      NoneKept(s[1..]);
    }
  }

  /** Lines 66-70 of `get_user_id` (and 136-137 of `get_user_collection_name` when
      `dash` is false): replace, collapse, strip. */
  function Sanitize(s: string, dash: bool): (r: string)
    ensures Clean(r, dash)
    ensures Filter(r, NotUnderscore) == Filter(ReplaceDisallowed(s, dash), NotUnderscore)
  {
    var replaced := ReplaceDisallowed(s, dash);
    var collapsed := Collapse(replaced);
    CollapseKeeps(replaced, dash);
    StripKeeps(collapsed, dash);
    Strip(collapsed)
  }

  /** A name that is already clean passes through the sanitiser unchanged. */
  lemma {:induction false} SanitizeClean(s: string, dash: bool)
    requires Clean(s, dash)
    ensures Sanitize(s, dash) == s
  {
    assert ReplaceDisallowed(s, dash) == s;
    CollapseClean(s);
    StripClean(s);
  }

  /** Sanitising twice is sanitising once. */
  lemma SanitizeIdempotent(s: string, dash: bool)
    ensures Sanitize(Sanitize(s, dash), dash) == Sanitize(s, dash)
  {
    SanitizeClean(Sanitize(s, dash), dash);
  }

  /** A sanitised user id may keep dashes; a collection-name suffix may not. */
  function SanitizeUserId(identifier: string): (r: string)
    ensures Clean(r, true) && '/' !in r
  {
    Sanitize(identifier, true)
  }

  /** The user id a storage helper uses: the explicit one when given (even empty, as
      only `None` triggers the lookup), otherwise the ambient `get_user_id()` result,
      and `"default_user"` when that lookup raises. */
  function ResolveUserId(userId: Option<string>, current: Result<string>): (r: string)
    ensures userId.Some? ==> r == userId.value
    ensures userId.None? && current.Ok? ==> r == current.value
    ensures userId.None? && current.Err? ==> r == "default_user"
  {
    match userId
    case Some(u) => u
    case None => if current.Ok? then current.value else "default_user"
  }

  /** The root every per-user path starts with. */
  const DataRoot := "./user_data/"

  /** The text before the first `/` (all of it when there is none). */
  function Segment(s: string): (r: string)
    ensures '/' !in r && |r| <= |s| && r == s[..|r|]
    ensures |r| < |s| ==> s[|r|] == '/'
    decreases |s|
  {
    if |s| == 0 || s[0] == '/' then [] else [s[0]] + Segment(s[1..])
  }

  /** The user a path under the data root belongs to: its first segment after the
      root; `None` for a path outside the root. */
  function Owner(path: string): Option<string> {
    if |path| >= |DataRoot| && path[..|DataRoot|] == DataRoot then Some(Segment(path[|DataRoot|..])) else None
  }

  /** A `/`-free user id is read back as the owner of any path built as root, id, `/`. */
  lemma OwnerOf(u: string, t: string)
    requires '/' !in u && |t| > 0 && t[0] == '/'
    ensures Owner(DataRoot + u + t) == Some(u)
  {
    var path := DataRoot + u + t;
    assert path[..|DataRoot|] == DataRoot;
    assert path[|DataRoot|..] == u + t;
    SegmentOf(u, t);
  }

  lemma {:induction false} SegmentOf(u: string, t: string)
    requires '/' !in u && |t| > 0 && t[0] == '/'
    ensures Segment(u + t) == u
    decreases |u|
  {
    if |u| > 0 {
      assert (u + t)[1..] == u[1..] + t;
      SegmentOf(u[1..], t);
      assert u == [u[0]] + u[1..];
    } else {
      assert u + t == t;
    }
  }

  /** `get_user_data_dir(base_dir, user_id)`: `./user_data/<user>/<base_dir>`, with the
      user id used as given; a `/`-free user is read back as the directory's owner. */
  function UserDataDir(baseDir: string, userId: Option<string>, current: Result<string>): (r: string)
    ensures var u := ResolveUserId(userId, current);
            r == "./user_data/" + u + "/" + baseDir
    ensures '/' !in ResolveUserId(userId, current) ==> Owner(r) == Some(ResolveUserId(userId, current))
    ensures |r| > |baseDir| && r[|r| - |baseDir|..] == baseDir && r[|r| - |baseDir| - 1] == '/'
  {
    var u := ResolveUserId(userId, current);
    var r := DataRoot + u + ("/" + baseDir);
    assert '/' !in u ==> Owner(r) == Some(u) by {
      if '/' !in u {
        OwnerOf(u, "/" + baseDir);
      }
    }
    assert r[|r| - |baseDir|..] == baseDir;
    r
  }

  /** `get_user_vector_store_path(collection_name, user_id)`: a `/`-free user is read
      back as the store's owner, and the last segment names the collection. */
  function UserVectorStorePath(collectionName: string, userId: Option<string>, current: Result<string>): (r: string)
    ensures var u := ResolveUserId(userId, current);
            r == "./user_data/" + u + "/vector_store_" + collectionName
    ensures '/' !in ResolveUserId(userId, current) ==> Owner(r) == Some(ResolveUserId(userId, current))
    ensures |r| > |collectionName| + 13 && r[|r| - |collectionName| - 14..] == "/vector_store_" + collectionName
  {
    var u := ResolveUserId(userId, current);
    var r := DataRoot + u + ("/vector_store_" + collectionName);
    assert '/' !in u ==> Owner(r) == Some(u) by {
      if '/' !in u {
        OwnerOf(u, "/vector_store_" + collectionName);
      }
    }
    assert r[|r| - |collectionName| - 14..] == "/vector_store_" + collectionName;
    r
  }

  /** `get_user_collection_name(base_name, user_id)`: the base name, an underscore, and
      the user id sanitised down to `[A-Za-z0-9_]`. */
  function UserCollectionName(baseName: string, userId: Option<string>, current: Result<string>): (r: string)
    ensures |r| > |baseName| && r[..|baseName| + 1] == baseName + "_"
    ensures Clean(r[|baseName| + 1..], false)
    ensures r[|baseName| + 1..] == Sanitize(ResolveUserId(userId, current), false)
  {
    var s := Sanitize(ResolveUserId(userId, current), false);
    var r := baseName + "_" + s;
    assert r[|baseName| + 1..] == s;
    r
  }

  /** Two different users whose ids contain no `/` get different path strings, whatever
      the base directory names. Path strings are compared as text: `.`, `..` and the
      empty id are not resolved to the directories they name. */
  lemma {:induction false} DataDirsSeparate(b1: string, b2: string, u1: string, u2: string)
    requires u1 != u2 && '/' !in u1 && '/' !in u2
    ensures UserDataDir(b1, Some(u1), Err("")) != UserDataDir(b2, Some(u2), Err(""))
    ensures UserVectorStorePath(b1, Some(u1), Err("")) != UserVectorStorePath(b2, Some(u2), Err(""))
  {
    var p := "./user_data/";
    SegmentsDiffer(p, u1, u2, "/" + b1, "/" + b2);
    SegmentsDiffer(p, u1, u2, "/vector_store_" + b1, "/vector_store_" + b2);
    assert UserDataDir(b1, Some(u1), Err("")) == p + u1 + ("/" + b1);
    assert UserDataDir(b2, Some(u2), Err("")) == p + u2 + ("/" + b2);
    assert UserVectorStorePath(b1, Some(u1), Err("")) == p + u1 + ("/vector_store_" + b1);
    assert UserVectorStorePath(b2, Some(u2), Err("")) == p + u2 + ("/vector_store_" + b2);
  }

  /** Different `/`-free segments followed by `/` give different strings. */
  lemma SegmentsDiffer(p: string, u1: string, u2: string, t1: string, t2: string)
    requires u1 != u2 && '/' !in u1 && '/' !in u2
    requires |t1| > 0 && t1[0] == '/' && |t2| > 0 && t2[0] == '/'
    ensures p + u1 + t1 != p + u2 + t2
  {
    var x, y := p + u1 + t1, p + u2 + t2;
    if |u1| == |u2| {
      var k :| 0 <= k < |u1| && u1[k] != u2[k];
      assert x[|p| + k] == u1[k] && y[|p| + k] == u2[k];
    } else if |u1| < |u2| {
      assert x[|p| + |u1|] == '/' && y[|p| + |u1|] == u2[|u1|];
    } else {
      assert y[|p| + |u2|] == '/' && x[|p| + |u2|] == u1[|u2|];
    }
  }

  /** The sanitiser rules out path separators, so sanitised users get different
      directory path strings. */
  lemma SanitizedUsersSeparate(b: string, id1: string, id2: string)
    requires SanitizeUserId(id1) != SanitizeUserId(id2)
    ensures UserDataDir(b, Some(SanitizeUserId(id1)), Err("")) != UserDataDir(b, Some(SanitizeUserId(id2)), Err(""))
  {
    DataDirsSeparate(b, b, SanitizeUserId(id1), SanitizeUserId(id2));
  }
}

=== FILE: vector_store.dfy ===
/** `SimpleVectorStore`: a file-backed vector store holding two index-aligned lists,
    the embedding vectors and the metadata records (`id`, `text`, `timestamp` plus
    caller metadata). Search scores every stored vector against the query, sorts the
    (position, score) pairs stably by descending score and keeps the first `k`.

    The embedding provider, the cosine similarity and the clock are parameters;
    persistence to `vectors.pkl` / `metadata.json` is not modelled. */
module VectorStore {
  import opened Wrappers
  import opened Text
  import opened Seqs
  import opened Sorting

  /** A JSON scalar held in a metadata record. */
  datatype Json = JNull | JBool(b: bool) | JNum(n: int) | JStr(s: string)

  type Metadata = map<string, Json>

  type Vector = seq<real>

  datatype Store = Store(storePath: string, vectors: seq<Vector>, metadata: seq<Metadata>)

  /** The central invariant: position `i` of both lists describes the same record. */
  predicate Aligned(s: Store) {
    |s.vectors| == |s.metadata|
  }

  /** One reading of `datetime.now()`: `.timestamp()` rendered as text, and `.isoformat()`. */
  datatype Reading = Reading(epoch: string, iso: string)

  /** Keys the store writes itself and strips from search results. */
  const Reserved: set<string> := {"id", "text", "timestamp"}

  /** `f"doc_{len(self.vectors)}_{datetime.now().timestamp()}"`. */
  function DocId(position: nat, epoch: string): string {
    "doc_" + Decimal(position) + "_" + epoch
  }

  /** An id determines the position it was generated for. */
  lemma DocIdPosition(p1: nat, e1: string, p2: nat, e2: string)
    ensures DocId(p1, e1) == DocId(p2, e2) ==> p1 == p2
  {
    var a, b := Decimal(p1), Decimal(p2);
    var s1, s2 := DocId(p1, e1), DocId(p2, e2);
    if s1 == s2 {
      assert forall i :: 0 <= i < |a| ==> s1[4 + i] == a[i];
      assert forall i :: 0 <= i < |b| ==> s2[4 + i] == b[i];
      assert s1[4 + |a|] == '_' && s2[4 + |b|] == '_';
      assert |a| == |b|;
      assert a == s1[4..4 + |a|] == s2[4..4 + |b|] == b;
      DecimalInjective(p1, p2);
    }
  }

  /** `metadatas[i]` when `if metadatas and i < len(metadatas)` holds. */
  function UserMetadata(metadatas: Option<seq<Metadata>>, i: nat): Option<Metadata> {
    if metadatas.Some? && i < |metadatas.value| then Some(metadatas.value[i]) else None
  }

  function UserKeys(user: Option<Metadata>): set<string> {
    if user.Some? then user.value.Keys else {}
  }

  /** The record `add_texts` stores: `{"id", "text", "timestamp"}` then `.update(user)`,
      so caller keys win over the generated ones. */
  function NewRecord(id: string, text: string, iso: string, user: Option<Metadata>): Metadata {
    var base := map["id" := JStr(id), "text" := JStr(text), "timestamp" := JStr(iso)];
    match user
    case None => base
    case Some(u) => base + u
  }

  /** The record has exactly the generated keys and the caller's keys; the caller's
      values win, and the generated ones survive where the caller is silent. */
  lemma NewRecordKeys(id: string, text: string, iso: string, user: Option<Metadata>)
    ensures var m := NewRecord(id, text, iso, user);
      && m.Keys == Reserved + UserKeys(user)
      && (user.Some? ==> forall k :: k in user.value ==> m[k] == user.value[k])
      && ("id" !in UserKeys(user) ==> m["id"] == JStr(id))
      && ("text" !in UserKeys(user) ==> m["text"] == JStr(text))
      && ("timestamp" !in UserKeys(user) ==> m["timestamp"] == JStr(iso))
  {
  }

  datatype Added = Added(ids: seq<string>, store: Store)

  /** The ids the first `n` iterations generate when the store held `base` vectors:
      iteration `i` sees `len(self.vectors) == base + i`. */
  function NewIds(base: nat, clock: nat -> Reading, n: nat): (r: seq<string>)
    ensures |r| == n
    ensures forall i :: 0 <= i < n ==> r[i] == DocId(base + i, clock(i).epoch)
    decreases n
  {
    if n == 0 then [] else NewIds(base, clock, n - 1) + [DocId(base + n - 1, clock(n - 1).epoch)]
  }

  lemma NewIdsStep(base: nat, clock: nat -> Reading, i: nat, prev: seq<string>, count: nat)
    requires prev == NewIds(base, clock, i) && count == base + i
    ensures prev + [DocId(count, clock(i).epoch)] == NewIds(base, clock, i + 1)
  {
  }

  /** The records the first `n` iterations append: iteration `i` stores `texts[i]` under
      the id it generated, with its own time and the caller's metadata `i` if any. */
  function NewRecords(base: nat, texts: seq<string>, metadatas: Option<seq<Metadata>>,
                      clock: nat -> Reading, n: nat): (r: seq<Metadata>)
    requires n <= |texts|
    ensures |r| == n
    ensures forall i :: 0 <= i < n ==>
      r[i] == NewRecord(DocId(base + i, clock(i).epoch), texts[i], clock(i).iso, UserMetadata(metadatas, i))
    decreases n
  {
    if n == 0 then []
    else
      var i := n - 1;
      NewRecords(base, texts, metadatas, clock, i) +
        [NewRecord(DocId(base + i, clock(i).epoch), texts[i], clock(i).iso, UserMetadata(metadatas, i))]
  }

  lemma RecordAt(prefix: seq<Metadata>, whole: seq<Metadata>, base: nat, texts: seq<string>,
                 metadatas: Option<seq<Metadata>>, clock: nat -> Reading, n: nat, i: nat)
    requires n <= |texts| && i < n
    requires whole == prefix + NewRecords(base, texts, metadatas, clock, n)
    ensures |prefix| + i < |whole|
    ensures whole[|prefix| + i] ==
      NewRecord(DocId(base + i, clock(i).epoch), texts[i], clock(i).iso, UserMetadata(metadatas, i))
  {
    assert whole[|prefix| + i] == NewRecords(base, texts, metadatas, clock, n)[i];
  }

  /** The store after the first `n` iterations of `for i, (text, embedding) in
      enumerate(zip(texts, embeddings))`, with the ids generated so far. */
  function AddFirst(s: Store, texts: seq<string>, embeddings: seq<Vector>,
                    metadatas: Option<seq<Metadata>>, clock: nat -> Reading, n: nat): (r: Added)
    requires n <= |texts| && n <= |embeddings|
    ensures r.store.storePath == s.storePath
    ensures r.ids == NewIds(|s.vectors|, clock, n)
    ensures r.store.vectors == s.vectors + embeddings[..n]
    ensures r.store.metadata == s.metadata + NewRecords(|s.vectors|, texts, metadatas, clock, n)
    decreases n
  {
    if n == 0 then Added([], s)
    else
      var prev := AddFirst(s, texts, embeddings, metadatas, clock, n - 1);
      var i := n - 1;
      var id := DocId(|prev.store.vectors|, clock(i).epoch);
      var record := NewRecord(id, texts[i], clock(i).iso, UserMetadata(metadatas, i));
      TakeSnoc(embeddings, i);
      SnocAssoc(s.vectors, embeddings[..i], embeddings[i]);
      SnocAssoc(s.metadata, NewRecords(|s.vectors|, texts, metadatas, clock, i), record);
      NewIdsStep(|s.vectors|, clock, i, prev.ids, |prev.store.vectors|);
      Added(prev.ids + [id],
            Store(s.storePath, prev.store.vectors + [embeddings[i]], prev.store.metadata + [record]))
  }

  function Min(a: nat, b: nat): nat {
    if a <= b then a else b
  }

  /** `add_texts(texts, metadatas)`: embeds the texts with `embedDocuments`, appends one
      vector and one record per (text, embedding) pair and returns the new ids. */
  function AddTexts(s: Store, texts: seq<string>, metadatas: Option<seq<Metadata>>,
                    embedDocuments: seq<string> -> seq<Vector>, clock: nat -> Reading): (r: Added)
    ensures |texts| == 0 ==> r == Added([], s)
    ensures |texts| > 0 ==> |r.ids| == Min(|texts|, |embedDocuments(texts)|)
    ensures |texts| > 0 ==> r.store.vectors == s.vectors + embedDocuments(texts)[..|r.ids|]
    ensures Aligned(s) ==> Aligned(r.store)
    ensures r.ids == NewIds(|s.vectors|, clock, |r.ids|)
    ensures |r.ids| <= |texts| && r.store.metadata == s.metadata + NewRecords(|s.vectors|, texts, metadatas, clock, |r.ids|)
    ensures r.store.storePath == s.storePath
  {
    if |texts| == 0 then Added([], s)
    else
      var embeddings := embedDocuments(texts);
      AddFirst(s, texts, embeddings, metadatas, clock, Min(|texts|, |embeddings|))
  }

  /** The ids returned by one `add_texts` call are pairwise different. */
  lemma AddTextsIdsDistinct(s: Store, texts: seq<string>, metadatas: Option<seq<Metadata>>,
                            embedDocuments: seq<string> -> seq<Vector>, clock: nat -> Reading)
    ensures var ids := AddTexts(s, texts, metadatas, embedDocuments, clock).ids;
      forall i, j :: 0 <= i < j < |ids| ==> ids[i] != ids[j]
  {
    var ids := AddTexts(s, texts, metadatas, embedDocuments, clock).ids;
    NewIdsDistinct(|s.vectors|, clock, |ids|);
    assert ids == NewIds(|s.vectors|, clock, |ids|);
  }

  /** The `i`-th record `add_texts` appends is built from the `i`-th text and metadata. */
  lemma AddedRecordAt(s: Store, texts: seq<string>, metadatas: Option<seq<Metadata>>,
                      embedDocuments: seq<string> -> seq<Vector>, clock: nat -> Reading, i: nat)
    requires i < |AddTexts(s, texts, metadatas, embedDocuments, clock).ids|
    ensures i < |texts|
    ensures AddTexts(s, texts, metadatas, embedDocuments, clock).store.metadata[|s.metadata| + i] ==
      NewRecord(DocId(|s.vectors| + i, clock(i).epoch), texts[i], clock(i).iso, UserMetadata(metadatas, i))
  {
    var n, whole := AddedShape(s, texts, metadatas, embedDocuments, clock);
    RecordAt(s.metadata, whole, |s.vectors|, texts, metadatas, clock, n, i);
  }

  lemma AddedShape(s: Store, texts: seq<string>, metadatas: Option<seq<Metadata>>,
                   embedDocuments: seq<string> -> seq<Vector>, clock: nat -> Reading)
    returns (n: nat, whole: seq<Metadata>)
    ensures n == |AddTexts(s, texts, metadatas, embedDocuments, clock).ids| && n <= |texts|
    ensures whole == AddTexts(s, texts, metadatas, embedDocuments, clock).store.metadata
    ensures whole == s.metadata + NewRecords(|s.vectors|, texts, metadatas, clock, n)
  {
    var r := AddTexts(s, texts, metadatas, embedDocuments, clock);
    n, whole := |r.ids|, r.store.metadata;
  }

  /** Ids generated for different positions differ, whatever the clock says. */
  lemma NewIdsDistinct(base: nat, clock: nat -> Reading, n: nat)
    ensures var ids := NewIds(base, clock, n);
      forall i, j :: 0 <= i < j < n ==> ids[i] != ids[j]
  {
    var ids := NewIds(base, clock, n);
    forall i, j | 0 <= i < j < n
      ensures ids[i] != ids[j]
    {
      DocIdPosition(base + i, clock(i).epoch, base + j, clock(j).epoch);
    }
  }

  datatype Document = Document(content: Json, metadata: Metadata)

  /** `Document(page_content=text, metadata=meta)` after popping `text` (default `""`),
      `id` and `timestamp` from a copy of the stored record. */
  function Project(m: Metadata): Document {
    Document(if "text" in m then m["text"] else JStr(""), m - Reserved)
  }

  /** What a caller stores is what search hands back: the text as content and the
      caller's metadata without the reserved keys, unless the caller overrode `text`. */
  lemma ProjectNewRecord(id: string, text: string, iso: string, user: Option<Metadata>)
    ensures var d := Project(NewRecord(id, text, iso, user));
      && d.content == (if "text" in UserKeys(user) then user.value["text"] else JStr(text))
      && d.metadata.Keys == UserKeys(user) - Reserved
      && forall k :: k in d.metadata ==> d.metadata[k] == user.value[k]
  {
    NewRecordKeys(id, text, iso, user);
  }

  /** `self._cosine_similarity(query_embedding, vector)` for every stored vector. */
  function Scores(vectors: seq<Vector>, query: Vector, cosine: (Vector, Vector) -> real): (r: seq<real>)
    ensures |r| == |vectors|
  {
    seq(|vectors|, i requires 0 <= i < |vectors| => cosine(query, vectors[i]))
  }

  /** `similarities`: the list of `(i, similarity)` pairs in storage order. */
  function Indexed(scores: seq<real>): (r: seq<(nat, real)>)
    ensures |r| == |scores|
  {
    seq(|scores|, i requires 0 <= i < |scores| => (i, scores[i]))
  }

  function Score(e: (nat, real)): real {
    e.1
  }

  /** The similarity list after `similarities.sort(key=lambda x: x[1], reverse=True)`. */
  function Ranking(scores: seq<real>): seq<(nat, real)> {
    RealOrder();
    SortDesc(Indexed(scores), Score, RealLt)
  }

  /** Position `j` is among the returned pairs. */
  predicate Returned(r: seq<(nat, real)>, j: nat) {
    exists q :: 0 <= q < |r| && r[q].0 == j
  }

  /** `similarities[:k]`: exactly `min(k, n)` pairs for `k >= 0`, each a stored position
      with its own score, in non-increasing score order, equal scores in storage order,
      and every returned score at least every omitted one. */
  function TopK(scores: seq<real>, k: int): (r: seq<(nat, real)>)
    ensures |r| == SliceEnd(|scores|, k)
    ensures forall p :: 0 <= p < |r| ==> r[p].0 < |scores| && r[p].1 == scores[r[p].0]
    ensures forall p, q :: 0 <= p < q < |r| ==> r[p].1 >= r[q].1
    ensures forall p, q :: 0 <= p < q < |r| && r[p].1 == r[q].1 ==> r[p].0 < r[q].0
    ensures forall p, j :: 0 <= p < |r| && 0 <= j < |scores| && !Returned(r, j) ==> r[p].1 >= scores[j]
    ensures |r| == |scores| ==> forall j :: 0 <= j < |scores| ==> Returned(r, j)
    ensures forall p, j :: 0 <= p < |r| && 0 <= j < |scores| && !Returned(r, j) && scores[j] == r[p].1 ==> r[p].0 < j
  {
    TakeFacts(scores, k);
    Take(Ranking(scores), k)
  }

  /** The first `k` ranked pairs beat every pair left out, and are all pairs when
      `k` covers the list. */
  lemma TakeFacts(scores: seq<real>, k: int)
    ensures var r := Take(Ranking(scores), k);
      && (forall p, j :: 0 <= p < |r| && 0 <= j < |scores| && !Returned(r, j) ==> r[p].1 >= scores[j])
      && (|r| == |scores| ==> forall j :: 0 <= j < |scores| ==> Returned(r, j))
      && |r| == SliceEnd(|scores|, k)
      && (forall p :: 0 <= p < |r| ==> r[p].0 < |scores| && r[p].1 == scores[r[p].0])
      && (forall p, q :: 0 <= p < q < |r| ==> r[p].1 >= r[q].1)
      && (forall p, q :: 0 <= p < q < |r| && r[p].1 == r[q].1 ==> r[p].0 < r[q].0)
      && (forall p, j :: 0 <= p < |r| && 0 <= j < |scores| && !Returned(r, j) && scores[j] == r[p].1 ==> r[p].0 < j)
  {
    var ranked := Ranking(scores);
    RankingFacts(scores);
    TakePrefix(scores, ranked, k);
    TakeBeatsRest(scores, ranked, k);
    TakeTiesEarlier(scores, ranked, k);
  }

  /** A prefix of the ranking keeps its per-pair facts and its order. */
  lemma TakePrefix(scores: seq<real>, ranked: seq<(nat, real)>, k: int)
    requires |ranked| == |scores|
    requires forall p :: 0 <= p < |ranked| ==> ranked[p].0 < |scores| && ranked[p].1 == scores[ranked[p].0]
    requires forall p, q :: 0 <= p < q < |ranked| ==> ranked[p].1 >= ranked[q].1
    requires forall p, q :: 0 <= p < q < |ranked| && ranked[p].1 == ranked[q].1 ==> ranked[p].0 < ranked[q].0
    ensures var r := Take(ranked, k);
      && |r| == SliceEnd(|scores|, k)
      && (forall p :: 0 <= p < |r| ==> r[p].0 < |scores| && r[p].1 == scores[r[p].0])
      && (forall p, q :: 0 <= p < q < |r| ==> r[p].1 >= r[q].1)
      && (forall p, q :: 0 <= p < q < |r| && r[p].1 == r[q].1 ==> r[p].0 < r[q].0)
  {
    var r := Take(ranked, k);
    assert forall p :: 0 <= p < |r| ==> r[p] == ranked[p];
  }

  /** A prefix of the ranking outranks every position it leaves out, and holds every
      position when it is the whole ranking. */
  lemma TakeBeatsRest(scores: seq<real>, ranked: seq<(nat, real)>, k: int)
    requires |ranked| == |scores|
    requires forall p, q :: 0 <= p < q < |ranked| ==> ranked[p].1 >= ranked[q].1
    requires forall j :: 0 <= j < |scores| ==> exists q :: 0 <= q < |ranked| && ranked[q] == (j, scores[j])
    ensures var r := Take(ranked, k);
      && (forall p, j :: 0 <= p < |r| && 0 <= j < |scores| && !Returned(r, j) ==> r[p].1 >= scores[j])
      && (|r| == |scores| ==> forall j :: 0 <= j < |scores| ==> Returned(r, j))
  {
    var r := Take(ranked, k);
    forall p, j | 0 <= p < |r| && 0 <= j < |scores| && !Returned(r, j)
      ensures r[p].1 >= scores[j]
    {
      var q :| 0 <= q < |ranked| && ranked[q] == (j, scores[j]);
      assert q >= |r|;
    }
    forall j | |r| == |scores| && 0 <= j < |scores|
      ensures Returned(r, j)
    {
      var q :| 0 <= q < |ranked| && ranked[q] == (j, scores[j]);
      assert r[q].0 == j;
    }
  }

  /** At the cut, a position left out that ties with a returned pair comes after it
      in storage order: the stable sort keeps the earliest of equal scores. */
  lemma TakeTiesEarlier(scores: seq<real>, ranked: seq<(nat, real)>, k: int)
    requires |ranked| == |scores|
    requires forall p, q :: 0 <= p < q < |ranked| ==> ranked[p].1 >= ranked[q].1
    requires forall p, q :: 0 <= p < q < |ranked| && ranked[p].1 == ranked[q].1 ==> ranked[p].0 < ranked[q].0
    requires forall j :: 0 <= j < |scores| ==> exists q :: 0 <= q < |ranked| && ranked[q] == (j, scores[j])
    ensures var r := Take(ranked, k);
      forall p, j :: 0 <= p < |r| && 0 <= j < |scores| && !Returned(r, j) && scores[j] == r[p].1 ==> r[p].0 < j
  {
    var r := Take(ranked, k);
    forall p, j | 0 <= p < |r| && 0 <= j < |scores| && !Returned(r, j) && scores[j] == r[p].1
      ensures r[p].0 < j
    {
      var q :| 0 <= q < |ranked| && ranked[q] == (j, scores[j]);
      assert q >= |r|;
      assert ranked[p] == r[p];
    }
  }

  /** The sorted similarity list is a permutation of the (position, score) pairs in
      non-increasing score order with equal scores in storage order. */
  lemma RankingFacts(scores: seq<real>)
    ensures var r := Ranking(scores);
      && |r| == |scores|
      && (forall p :: 0 <= p < |r| ==> r[p].0 < |scores| && r[p].1 == scores[r[p].0])
      && (forall p, q :: 0 <= p < q < |r| ==> r[p].1 >= r[q].1)
      && (forall p, q :: 0 <= p < q < |r| && r[p].1 == r[q].1 ==> r[p].0 < r[q].0)
      && (forall j :: 0 <= j < |scores| ==> exists q :: 0 <= q < |r| && r[q] == (j, scores[j]))
  {
    RealOrder();
    var r := Ranking(scores);
    PermutedIndexed(scores, r);
    forall p, q | 0 <= p < q < |r|
      ensures r[p].1 >= r[q].1
    {
      assert !RealLt(Score(r[p]), Score(r[q]));
    }
    forall p, q | 0 <= p < q < |r| && r[p].1 == r[q].1
      ensures r[p].0 < r[q].0
    {
      RankingTie(scores, p, q);
    }
  }

  /** A rearrangement of the indexed scores pairs every position with its own score,
      and holds every position. */
  lemma PermutedIndexed(scores: seq<real>, r: seq<(nat, real)>)
    requires multiset(r) == multiset(Indexed(scores))
    ensures |r| == |scores|
    ensures forall p :: 0 <= p < |r| ==> r[p].0 < |scores| && r[p].1 == scores[r[p].0]
    ensures forall j :: 0 <= j < |scores| ==> exists q :: 0 <= q < |r| && r[q] == (j, scores[j])
  {
    var xs := Indexed(scores);
    assert |r| == |scores| by {
      assert |multiset(r)| == |multiset(xs)|;
    }
    forall p | 0 <= p < |r|
      ensures r[p].0 < |scores| && r[p].1 == scores[r[p].0]
    {
      assert r[p] in multiset(xs);
    }
    forall j | 0 <= j < |scores|
      ensures exists q :: 0 <= q < |r| && r[q] == (j, scores[j])
    {
      assert xs[j] in multiset(r);
    }
  }

  lemma RankingTie(scores: seq<real>, p: nat, q: nat)
    requires var r := Ranking(scores); p < q < |r| && r[p].1 == r[q].1
    ensures var r := Ranking(scores); r[p].0 < r[q].0
  {
    RealOrder();
    var xs := Indexed(scores);
    var r := Ranking(scores);
    var P := KeyIs(Score, r[p].1);
    SortDescStable(xs, Score, RealLt, r[p].1);
    FilterPairwise(xs, P, (a: (nat, real), b: (nat, real)) => a.0 < b.0);
    FilterKeepsOrder(r, P, p, q);
  }

  /** `similarity_search_with_score(query, k)`: `[]` for an empty store; otherwise the
      projected record and score of every top-`k` position that has a record. */
  function SearchWithScore(s: Store, query: string, k: int, embedQuery: string -> Vector,
                           cosine: (Vector, Vector) -> real): (r: seq<(Document, real)>)
    ensures |s.vectors| == 0 ==> r == []
    ensures Aligned(s) ==>
      var top := TopK(Scores(s.vectors, embedQuery(query), cosine), k);
      && |r| == |top|
      && forall p :: 0 <= p < |r| ==> r[p] == (Project(s.metadata[top[p].0]), top[p].1)
  {
    if |s.vectors| == 0 then []
    else
      var top := TopK(Scores(s.vectors, embedQuery(query), cosine), k);
      var present := Filter(top, (e: (nat, real)) => e.0 < |s.metadata|);
      assert Aligned(s) ==> present == top by {
        if Aligned(s) {
          FilterAll(top, (e: (nat, real)) => e.0 < |s.metadata|);
        }
      }
      seq(|present|, p requires 0 <= p < |present| => (Project(s.metadata[present[p].0]), present[p].1))
  }

  /** `similarity_search(query, k)`: the documents of `similarity_search_with_score`. */
  function Search(s: Store, query: string, k: int, embedQuery: string -> Vector,
                  cosine: (Vector, Vector) -> real): (r: seq<Document>)
    ensures |s.vectors| == 0 ==> r == []
    ensures Aligned(s) ==>
      var top := TopK(Scores(s.vectors, embedQuery(query), cosine), k);
      && |r| == |top|
      && forall p :: 0 <= p < |r| ==> r[p] == Project(s.metadata[top[p].0])
  {
    Firsts(SearchWithScore(s, query, k, embedQuery, cosine))
  }

  /** For `k >= 0` an aligned store answers with `min(k, n)` results, never padded. */
  lemma SearchCount(s: Store, query: string, k: int, embedQuery: string -> Vector,
                    cosine: (Vector, Vector) -> real)
    requires Aligned(s) && k >= 0
    ensures |SearchWithScore(s, query, k, embedQuery, cosine)| == Min(k, |s.vectors|)
  {
  }

  /** Round trip: a text added to an aligned store without metadata comes back, with
      empty metadata, from any search whose `k` covers the whole store. */
  lemma AddThenSearch(s: Store, text: string, embedDocuments: seq<string> -> seq<Vector>,
                      clock: nat -> Reading, query: string, k: int,
                      embedQuery: string -> Vector, cosine: (Vector, Vector) -> real)
    requires Aligned(s) && |embedDocuments([text])| > 0
    requires k >= |s.vectors| + 1
    ensures var s' := AddTexts(s, [text], None, embedDocuments, clock).store;
      exists p :: 0 <= p < |SearchWithScore(s', query, k, embedQuery, cosine)| &&
        SearchWithScore(s', query, k, embedQuery, cosine)[p].0 == Document(JStr(text), map[])
  {
    var added := AddTexts(s, [text], None, embedDocuments, clock);
    var s' := added.store;
    var n := |s.vectors|;
    var top := TopK(Scores(s'.vectors, embedQuery(query), cosine), k);
    var r := SearchWithScore(s', query, k, embedQuery, cosine);
    assert Returned(top, n);
    var p :| 0 <= p < |top| && top[p].0 == n;
    var m := NewRecord(added.ids[0], text, clock(0).iso, None);
    assert s'.metadata[n] == m;
    PlainRecordProjects(added.ids[0], text, clock(0).iso);
    assert r[p].0 == Project(m);
  }

  /** A record stored without caller metadata projects to its bare text. */
  lemma PlainRecordProjects(id: string, text: string, iso: string)
    ensures Project(NewRecord(id, text, iso, None)) == Document(JStr(text), map[])
  {
    NewRecordKeys(id, text, iso, None);
    assert (NewRecord(id, text, iso, None) - Reserved).Keys == {};
  }

  /** `meta.get("id") == doc_id`. */
  function HasId(docId: string): Metadata -> bool {
    m => "id" in m && m["id"] == JStr(docId)
  }

  /** Position `i` holds the first record whose id is `docId`. */
  predicate IsFirstMatch(metadata: seq<Metadata>, docId: string, i: nat) {
    i < |metadata| && HasId(docId)(metadata[i]) && forall j :: 0 <= j < i ==> !HasId(docId)(metadata[j])
  }

  /** The indices of the given ids whose first match is position `i`. */
  ghost function MatchedBy(metadata: seq<Metadata>, ids: seq<string>, i: nat): set<nat> {
    set j: nat | j < |ids| && IsFirstMatch(metadata, ids[j], i)
  }

  /** `indices_to_remove`: for each id in turn, the position of the first record carrying
      it, if any. A position is listed once per id that finds it, so an id passed twice
      lists its position twice. */
  function FirstMatches(metadata: seq<Metadata>, ids: seq<string>): (r: seq<nat>)
    ensures forall p :: 0 <= p < |r| ==> exists j :: 0 <= j < |ids| && IsFirstMatch(metadata, ids[j], r[p])
    ensures forall j, i :: 0 <= j < |ids| && IsFirstMatch(metadata, ids[j], i) ==> i in r
    decreases |ids|
  {
    if |ids| == 0 then []
    else
      var init := FirstMatches(metadata, ids[..|ids| - 1]);
      var last := ids[|ids| - 1];
      FirstMatchesStep(metadata, ids, init);
      init + (match FindFirst(metadata, HasId(last)) case None => [] case Some(i) => [i])
  }

  /** `indices_to_remove` lists a position once per given id whose first match it is,
      so an id passed twice lists its position twice. */
  lemma {:induction false} FirstMatchesCount(metadata: seq<Metadata>, ids: seq<string>)
    ensures forall i :: multiset(FirstMatches(metadata, ids))[i] == |MatchedBy(metadata, ids, i)|
    decreases |ids|
  {
    if |ids| > 0 {
      var init := ids[..|ids| - 1];
      FirstMatchesCount(metadata, init);
      FirstMatchesCountStep(metadata, ids, FirstMatches(metadata, init));
    }
  }

  /** Appending the last id's first match adds one to that position's count only. */
  lemma FirstMatchesCountStep(metadata: seq<Metadata>, ids: seq<string>, init: seq<nat>)
    requires |ids| > 0
    requires forall i :: multiset(init)[i] == |MatchedBy(metadata, ids[..|ids| - 1], i)|
    ensures var r := init + (match FindFirst(metadata, HasId(ids[|ids| - 1])) case None => [] case Some(i) => [i]);
      forall i :: multiset(r)[i] == |MatchedBy(metadata, ids, i)|
  {
    var n := |ids| - 1;
    var last := ids[n];
    var found := FindFirst(metadata, HasId(last));
    var tail: seq<nat> := match found case None => [] case Some(k) => [k];
    forall i
      ensures multiset(init + tail)[i] == |MatchedBy(metadata, ids, i)|
    {
      MatchedByStep(metadata, ids, i);
      if IsFirstMatch(metadata, last, i) {
        FirstMatchUnique(metadata, last, i, found);
      } else {
        assert multiset(tail)[i] == 0;
      }
    }
  }

  /** The last id adds its own index to the set of the position it first matches. */
  lemma MatchedByStep(metadata: seq<Metadata>, ids: seq<string>, i: nat)
    requires |ids| > 0
    ensures var n := |ids| - 1;
      |MatchedBy(metadata, ids, i)| ==
        |MatchedBy(metadata, ids[..n], i)| + (if IsFirstMatch(metadata, ids[n], i) then 1 else 0)
  {
    var n := |ids| - 1;
    var extra: set<nat> := if IsFirstMatch(metadata, ids[n], i) then {n} else {};
    MatchedByExtend(metadata, ids, i, extra);
    var before := MatchedBy(metadata, ids[..n], i);
    assert before !! extra;
    assert |before + extra| == |before| + |extra|;
  }

  lemma MatchedByExtend(metadata: seq<Metadata>, ids: seq<string>, i: nat, extra: set<nat>)
    requires |ids| > 0
    requires extra == if IsFirstMatch(metadata, ids[|ids| - 1], i) then {|ids| - 1} else {}
    ensures MatchedBy(metadata, ids, i) == MatchedBy(metadata, ids[..|ids| - 1], i) + extra
  {
    var n := |ids| - 1;
    forall j: nat | j < n
      ensures ids[..n][j] == ids[j]
    {
    }
  }



  lemma FirstMatchesStep(metadata: seq<Metadata>, ids: seq<string>, init: seq<nat>)
    requires |ids| > 0
    requires forall p :: 0 <= p < |init| ==> exists j :: 0 <= j < |ids| - 1 && IsFirstMatch(metadata, ids[j], init[p])
    requires forall j, i :: 0 <= j < |ids| - 1 && IsFirstMatch(metadata, ids[j], i) ==> i in init
    ensures var r := init + (match FindFirst(metadata, HasId(ids[|ids| - 1])) case None => [] case Some(i) => [i]);
      && (forall p :: 0 <= p < |r| ==> exists j :: 0 <= j < |ids| && IsFirstMatch(metadata, ids[j], r[p]))
      && (forall j, i :: 0 <= j < |ids| && IsFirstMatch(metadata, ids[j], i) ==> i in r)
  {
    var last := ids[|ids| - 1];
    var found := FindFirst(metadata, HasId(last));
    var r := init + (match found case None => [] case Some(i) => [i]);
    forall p | 0 <= p < |r|
      ensures exists j :: 0 <= j < |ids| && IsFirstMatch(metadata, ids[j], r[p])
    {
      if p < |init| {
        assert r[p] == init[p];
        assert exists j :: 0 <= j < |ids| - 1 && IsFirstMatch(metadata, ids[j], init[p]);
      } else {
        assert IsFirstMatch(metadata, ids[|ids| - 1], r[p]);
      }
    }
    forall j, i | 0 <= j < |ids| && IsFirstMatch(metadata, ids[j], i)
      ensures i in r
    {
      if j == |ids| - 1 {
        FirstMatchUnique(metadata, last, i, found);
      }
    }
  }

  lemma FirstMatchUnique(metadata: seq<Metadata>, docId: string, i: nat, found: Option<nat>)
    requires IsFirstMatch(metadata, docId, i)
    requires found == FindFirst(metadata, HasId(docId))
    ensures found == Some(i)
  {
  }

  /** The positions `delete(ids)` is meant to remove. */
  function Doomed(metadata: seq<Metadata>, ids: seq<string>): (r: set<nat>)
    ensures forall i :: i in r <==> exists j :: 0 <= j < |ids| && IsFirstMatch(metadata, ids[j], i)
  {
    set i | i in FirstMatches(metadata, ids)
  }

  function Natural(i: nat): int {
    i
  }

  /** `sorted(indices_to_remove, reverse=True)`. */
  function Descending(xs: seq<nat>): (r: seq<nat>)
    ensures multiset(r) == multiset(xs)
    ensures forall p, q :: 0 <= p < q < |r| ==> r[p] >= r[q]
  {
    IntOrder();
    var r := SortDesc(xs, Natural, IntLt);
    assert forall p, q :: 0 <= p < q < |r| ==> !IntLt(Natural(r[p]), Natural(r[q]));
    r
  }

  /** Without repeated positions the descending order is strict. */
  lemma DescendingStrict(xs: seq<nat>)
    requires forall p, q :: 0 <= p < q < |xs| ==> xs[p] != xs[q]
    ensures forall p, q :: 0 <= p < q < |Descending(xs)| ==> Descending(xs)[p] > Descending(xs)[q]
  {
    var r := Descending(xs);
    forall p, q | 0 <= p < q < |r|
      ensures r[p] > r[q]
    {
      DistinctAfterPermutation(xs, r, p, q);
    }
  }

  /** `delete(ids)` AS WRITTEN: `indices_to_remove` may list a position twice when `ids`
      repeats an id, and `del` then runs twice, removing a neighbour too. */
  function DeleteAsWritten(s: Store, ids: Option<seq<string>>): (r: Store)
    ensures Aligned(s) ==> Aligned(r)
    ensures ids.None? || |ids.value| == 0 ==> r == s
  {
    if ids.None? || |ids.value| == 0 then s
    else
      var order := Descending(FirstMatches(s.metadata, ids.value));
      assert Aligned(s) ==> |RemoveEach(s.vectors, order)| == |RemoveEach(s.metadata, order)| by {
        if Aligned(s) {
          RemoveEachSameLength(s.vectors, s.metadata, order);
        }
      }
      Store(s.storePath, RemoveEach(s.vectors, order), RemoveEach(s.metadata, order))
  }

  /** `delete(ids)` as intended: the first record carrying each given id is removed
      from both lists, unknown ids are ignored, and every other record survives in
      its original order. */
  function Delete(s: Store, ids: Option<seq<string>>): (r: Store)
    ensures ids.None? || |ids.value| == 0 ==> r == s
    ensures Aligned(s) ==> Aligned(r)
    ensures ids.Some? ==> forall i :: 0 <= i < |s.metadata| ==>
      (s.metadata[i] in r.metadata <== !exists j :: 0 <= j < |ids.value| && IsFirstMatch(s.metadata, ids.value[j], i))
    ensures ids.Some? ==> forall m :: m in r.metadata ==>
      (exists i :: 0 <= i < |s.metadata| && s.metadata[i] == m &&
        !exists j :: 0 <= j < |ids.value| && IsFirstMatch(s.metadata, ids.value[j], i))
    ensures ids.Some? ==> Picks(r.metadata, s.metadata, Outside(|s.metadata|, Doomed(s.metadata, ids.value)))
    ensures ids.Some? ==> Picks(r.vectors, s.vectors, Outside(|s.vectors|, Doomed(s.metadata, ids.value)))
  {
    if ids.None? then s
    else if |ids.value| == 0 then
      KeepAll(s.metadata, Doomed(s.metadata, ids.value));
      KeepAll(s.vectors, Doomed(s.metadata, ids.value));
      s
    else
      var gone := Doomed(s.metadata, ids.value);
      assert Aligned(s) ==> |Drop(s.vectors, gone)| == |Drop(s.metadata, gone)| by {
        if Aligned(s) {
          DropSameLength(s.vectors, s.metadata, gone);
        }
      }
      DropDoomed(s.metadata, ids.value, Drop(s.metadata, gone));
      DropPicks(s.metadata, gone);
      DropPicks(s.vectors, gone);
      Store(s.storePath, Drop(s.vectors, gone), Drop(s.metadata, gone))
  }

  /** With no position doomed, every element is kept in place. */
  lemma KeepAll<T>(xs: seq<T>, gone: set<nat>)
    requires gone == {}
    ensures Picks(xs, xs, Outside(|xs|, gone))
  {
    DropNothing(xs);
    DropPicks(xs, gone);
  }

  /** The survivors of dropping the doomed positions are exactly the records at
      positions no id matches first. */
  lemma DropDoomed(metadata: seq<Metadata>, ids: seq<string>, kept: seq<Metadata>)
    requires kept == Drop(metadata, Doomed(metadata, ids))
    ensures forall i :: 0 <= i < |metadata| ==>
      (metadata[i] in kept <== !exists j :: 0 <= j < |ids| && IsFirstMatch(metadata, ids[j], i))
    ensures forall m :: m in kept ==>
      (exists i :: 0 <= i < |metadata| && metadata[i] == m &&
        !exists j :: 0 <= j < |ids| && IsFirstMatch(metadata, ids[j], i))
  {
    var gone := Doomed(metadata, ids);
    var idx := FirstMatches(metadata, ids);
    DropMembers(metadata, gone);
    forall i | 0 <= i < |metadata| && !exists j :: 0 <= j < |ids| && IsFirstMatch(metadata, ids[j], i)
      ensures metadata[i] in kept
    {
      assert i !in idx;
    }
    forall m | m in kept
      ensures exists i :: 0 <= i < |metadata| && metadata[i] == m &&
                          !exists j :: 0 <= j < |ids| && IsFirstMatch(metadata, ids[j], i)
    {
      var i :| 0 <= i < |metadata| && i !in gone && metadata[i] == m;
      assert i !in idx;
    }
  }

  /** With distinct ids the code as written and the intended deletion agree. */
  lemma DeleteAsWrittenAgrees(s: Store, ids: seq<string>)
    requires forall i, j :: 0 <= i < j < |ids| ==> ids[i] != ids[j]
    ensures DeleteAsWritten(s, Some(ids)) == Delete(s, Some(ids))
  {
    if |ids| > 0 {
      var idx := FirstMatches(s.metadata, ids);
      FirstMatchesDistinct(s.metadata, ids);
      RemoveDescendingIsDrop(s.vectors, idx);
      RemoveDescendingIsDrop(s.metadata, idx);
      assert DeleteAsWritten(s, Some(ids)) ==
        Store(s.storePath, RemoveEach(s.vectors, Descending(idx)), RemoveEach(s.metadata, Descending(idx)));
      assert Delete(s, Some(ids)) ==
        Store(s.storePath, Drop(s.vectors, set i | i in idx), Drop(s.metadata, set i | i in idx));
    }
  }

  /** Deleting distinct positions from the largest down drops exactly those positions. */
  lemma RemoveDescendingIsDrop<T>(xs: seq<T>, idx: seq<nat>)
    requires forall p, q :: 0 <= p < q < |idx| ==> idx[p] != idx[q]
    ensures RemoveEach(xs, Descending(idx)) == Drop(xs, set i | i in idx)
  {
    var order := Descending(idx);
    DescendingStrict(idx);
    var gone := set i | i in idx;
    SameMembers(idx, order, gone);
    RemoveEachDescending(xs, order, gone);
  }

  lemma SameMembers(xs: seq<nat>, ys: seq<nat>, all: set<nat>)
    requires multiset(xs) == multiset(ys)
    requires all == set i | i in xs
    ensures forall x :: x in all <==> x in ys
  {
    forall x
      ensures x in all <==> x in ys
    {
      assert x in xs <==> x in multiset(xs);
      assert x in ys <==> x in multiset(ys);
    }
  }

  /** Distinct ids have distinct first matches. */
  lemma FirstMatchesDistinct(metadata: seq<Metadata>, ids: seq<string>)
    requires forall i, j :: 0 <= i < j < |ids| ==> ids[i] != ids[j]
    ensures forall p, q :: 0 <= p < q < |FirstMatches(metadata, ids)| ==>
      FirstMatches(metadata, ids)[p] != FirstMatches(metadata, ids)[q]
    decreases |ids|
  {
    if |ids| > 0 {
      var init := ids[..|ids| - 1];
      FirstMatchesDistinct(metadata, init);
      var r := FirstMatches(metadata, ids);
      var prev := FirstMatches(metadata, init);
      var last := ids[|ids| - 1];
      match FindFirst(metadata, HasId(last))
      case None =>
        assert r == prev;
      case Some(i) =>
        assert r == prev + [i];
        forall p | 0 <= p < |prev|
          ensures prev[p] != i
        {
          var j :| 0 <= j < |init| && IsFirstMatch(metadata, init[j], prev[p]);
          assert init[j] != last;
        }
    }
  }

  /** A permutation of a list without repeats has no repeats either. */
  lemma DistinctAfterPermutation(xs: seq<nat>, ys: seq<nat>, i: nat, j: nat)
    requires forall p, q :: 0 <= p < q < |xs| ==> xs[p] != xs[q]
    requires multiset(xs) == multiset(ys)
    requires i < j < |ys|
    ensures ys[i] != ys[j]
  {
    if ys[i] == ys[j] {
      var v := ys[i];
      assert multiset(ys)[v] >= 2 by {
        assert ys == ys[..i] + [v] + ys[i + 1..j] + [v] + ys[j + 1..];
      }
      DistinctCount(xs, v);
    }
  }

  lemma {:induction false} DistinctCount(xs: seq<nat>, v: nat)
    requires forall p, q :: 0 <= p < q < |xs| ==> xs[p] != xs[q]
    ensures multiset(xs)[v] <= 1
    decreases |xs|
  {
    if |xs| > 0 {
      DistinctCount(xs[1..], v);
      assert xs == [xs[0]] + xs[1..];
      if xs[0] == v {
        assert v !in xs[1..];
      }
    }
  }

  /** The store the defect shows on: records `a` then `b`. */
  function TwoRecords(): Store {
    Store("store", [[1.0], [2.0]], [map["id" := JStr("a")], map["id" := JStr("b")]])
  }

  /** The defect: passing the same id twice deletes a second, unrelated record. */
  lemma DuplicateIdOverDeletes()
    ensures DeleteAsWritten(TwoRecords(), Some(["a", "a"])).metadata == []
  {
    var s := TwoRecords();
    var ids := ["a", "a"];
    var idx := FirstMatches(s.metadata, ids);
    DuplicateFirstMatches(s.metadata[0], s.metadata[1]);
    DescendingPair();
    DeleteAsWrittenRemoves(s, ids);
    RemoveTwice(s.metadata[0], s.metadata[1]);
  }

  /** The corrected deletion removes only record `a`. */
  lemma DuplicateIdDeletesOnce()
    ensures Delete(TwoRecords(), Some(["a", "a"])).metadata == [map["id" := JStr("b")]]
  {
    var s := TwoRecords();
    var ids := ["a", "a"];
    var idx := FirstMatches(s.metadata, ids);
    DuplicateFirstMatches(s.metadata[0], s.metadata[1]);
    assert Delete(s, Some(ids)).metadata == Drop(s.metadata, Doomed(s.metadata, ids));
    assert Doomed(s.metadata, ids) == {0} by {
      assert 0 in idx;
    }
    DropFirst(s.metadata[0], s.metadata[1]);
  }

  lemma DeleteAsWrittenRemoves(s: Store, ids: seq<string>)
    requires |ids| > 0
    ensures DeleteAsWritten(s, Some(ids)).metadata == RemoveEach(s.metadata, Descending(FirstMatches(s.metadata, ids)))
  {
  }

  lemma RemoveTwice(m0: Metadata, m1: Metadata)
    ensures RemoveEach([m0, m1], [0, 0]) == []
  {
    assert RemoveAt([m0, m1], 0) == [m1];
    assert RemoveAt([m1], 0) == [];
    assert [0, 0][1..] == [0];
    assert RemoveEach([m1], [0]) == RemoveEach([], []);
  }

  lemma DuplicateFirstMatches(m0: Metadata, m1: Metadata)
    requires m0 == map["id" := JStr("a")] && m1 == map["id" := JStr("b")]
    ensures FirstMatches([m0, m1], ["a", "a"]) == [0, 0]
  {
    assert FindFirst([m0, m1], HasId("a")) == Some(0);
    assert ["a", "a"][..1] == ["a"];
    assert ["a"][..0] == [];
    assert FirstMatches([m0, m1], ["a"]) == [0];
  }

  lemma DescendingPair()
    ensures Descending([0, 0]) == [0, 0]
  {
    var r := Descending([0, 0]);
    assert |multiset(r)| == 2;
    assert |r| == 2;
    assert r[0] in multiset(r) && r[1] in multiset(r);
  }

  lemma DropFirst(m0: Metadata, m1: Metadata)
    ensures Drop([m0, m1], {0}) == [m1]
  {
    assert [m0][..0] == [];
    assert Drop([m0], {0}) == [];
    assert [m0, m1][..1] == [m0];
  }

  /** Deleting again is a no-op when ids are unique in the store: every first match
      is gone, and no other record carries one of the ids. */
  lemma DeleteIdempotent(s: Store, ids: seq<string>)
    requires forall i, j :: 0 <= i < j < |s.metadata| && "id" in s.metadata[i] ==>
      s.metadata[i] != s.metadata[j] && ("id" in s.metadata[j] ==> s.metadata[i]["id"] != s.metadata[j]["id"])
    ensures Delete(Delete(s, Some(ids)), Some(ids)) == Delete(s, Some(ids))
  {
    var d := Delete(s, Some(ids));
    if |ids| > 0 {
      forall i, j | 0 <= i < |d.metadata| && 0 <= j < |ids|
        ensures !HasId(ids[j])(d.metadata[i])
      {
        var m := d.metadata[i];
        assert m in d.metadata;
        var k :| 0 <= k < |s.metadata| && s.metadata[k] == m &&
          !exists j' :: 0 <= j' < |ids| && IsFirstMatch(s.metadata, ids[j'], k);
        UniqueIdIsFirst(s.metadata, ids[j], k);
      }
      var gone := Doomed(d.metadata, ids);
      assert gone == {};
      DropNothing(d.vectors);
      DropNothing(d.metadata);
    }
  }

  /** When no two records share an id, a record carrying `docId` is its first match. */
  lemma UniqueIdIsFirst(metadata: seq<Metadata>, docId: string, k: nat)
    requires forall i, j :: 0 <= i < j < |metadata| && "id" in metadata[i] ==>
      metadata[i] != metadata[j] && ("id" in metadata[j] ==> metadata[i]["id"] != metadata[j]["id"])
    requires k < |metadata|
    ensures HasId(docId)(metadata[k]) ==> IsFirstMatch(metadata, docId, k)
  {
    forall j | 0 <= j < k
      ensures HasId(docId)(metadata[k]) ==> !HasId(docId)(metadata[j])
    {
    }
  }

  datatype Stats = Stats(documentCount: nat, vectorCount: nat, storePath: string, status: string)

  /** `get_collection_stats()`: the two counts agree exactly when the lists are aligned. */
  function CollectionStats(s: Store): (r: Stats)
    ensures Aligned(s) <==> r.documentCount == r.vectorCount
    ensures r.status == "ready"
  {
    Stats(|s.metadata|, |s.vectors|, s.storePath, "ready")
  }

  /** `[doc.page_content for doc in documents]`, for documents whose content is a string. */
  function Contents(documents: seq<Document>): (r: seq<string>)
    requires forall i :: 0 <= i < |documents| ==> documents[i].content.JStr?
    ensures |r| == |documents|
    ensures forall i :: 0 <= i < |r| ==> JStr(r[i]) == documents[i].content
  {
    seq(|documents|, i requires 0 <= i < |documents| => documents[i].content.s)
  }

  /** `[doc.metadata for doc in documents]`. */
  function Metadatas(documents: seq<Document>): (r: seq<Metadata>)
    ensures |r| == |documents|
    ensures forall i :: 0 <= i < |r| ==> UserMetadata(Some(r), i) == Some(documents[i].metadata)
  {
    seq(|documents|, i requires 0 <= i < |documents| => documents[i].metadata)
  }

  /** `add_documents(documents)`: the documents unzipped into texts and metadatas. */
  function AddDocuments(s: Store, documents: seq<Document>, embedDocuments: seq<string> -> seq<Vector>,
                        clock: nat -> Reading): (r: Added)
    requires forall i :: 0 <= i < |documents| ==> documents[i].content.JStr?
    ensures |documents| == 0 ==> r == Added([], s)
    ensures Aligned(s) ==> Aligned(r.store)
    ensures |r.ids| <= |documents| && |r.store.metadata| == |s.metadata| + |r.ids|
    ensures r.ids == NewIds(|s.vectors|, clock, |r.ids|)
    ensures |documents| > 0 ==> |r.store.vectors| == |s.vectors| + |r.ids|
    ensures |s.vectors| <= |r.store.vectors| && r.store.vectors[..|s.vectors|] == s.vectors
    ensures r.store.metadata[..|s.metadata|] == s.metadata
    ensures r.store.storePath == s.storePath
  {
    var texts := Contents(documents);
    var r := AddTexts(s, texts, Some(Metadatas(documents)), embedDocuments, clock);
    assert |texts| > 0 ==> r.store.vectors == s.vectors + embedDocuments(texts)[..|r.ids|];
    r
  }

  /** The record `m` stored for document `d` keeps the document's own metadata, and its
      content as `text` unless the metadata supplies a `text` of its own. */
  ghost predicate KeepsDocument(m: Metadata, d: Document) {
    && (forall k :: k in d.metadata ==> k in m && m[k] == d.metadata[k])
    && ("text" !in d.metadata ==> "text" in m && m["text"] == d.content)
  }

  /** Each added document's record keeps that document's metadata and content. */
  lemma AddDocumentsRecords(s: Store, documents: seq<Document>, embedDocuments: seq<string> -> seq<Vector>,
                            clock: nat -> Reading)
    requires forall i :: 0 <= i < |documents| ==> documents[i].content.JStr?
    ensures var r := AddDocuments(s, documents, embedDocuments, clock);
      forall i :: 0 <= i < |r.ids| ==> KeepsDocument(r.store.metadata[|s.metadata| + i], documents[i])
  {
    var r := AddDocuments(s, documents, embedDocuments, clock);
    forall i | 0 <= i < |r.ids|
      ensures KeepsDocument(r.store.metadata[|s.metadata| + i], documents[i])
    {
      AddedDocumentRecord(s, documents, embedDocuments, clock, i);
    }
  }

  lemma AddedDocumentRecord(s: Store, documents: seq<Document>, embedDocuments: seq<string> -> seq<Vector>,
                            clock: nat -> Reading, i: nat)
    requires forall i :: 0 <= i < |documents| ==> documents[i].content.JStr?
    requires i < |AddDocuments(s, documents, embedDocuments, clock).ids|
    ensures KeepsDocument(AddDocuments(s, documents, embedDocuments, clock).store.metadata[|s.metadata| + i],
                          documents[i])
  {
    var texts, metadatas := Contents(documents), Metadatas(documents);
    var m := AddDocuments(s, documents, embedDocuments, clock).store.metadata[|s.metadata| + i];
    StoredDocumentRecord(s, documents, embedDocuments, clock, i);
    DocumentRecord(documents[i], m, texts[i], DocId(|s.vectors| + i, clock(i).epoch), clock(i).iso,
                   UserMetadata(Some(metadatas), i));
  }

  /** The record stored for the `i`-th added document is built from its content and metadata. */
  lemma StoredDocumentRecord(s: Store, documents: seq<Document>, embedDocuments: seq<string> -> seq<Vector>,
                             clock: nat -> Reading, i: nat)
    requires forall i :: 0 <= i < |documents| ==> documents[i].content.JStr?
    requires i < |AddDocuments(s, documents, embedDocuments, clock).ids|
    ensures i < |documents|
    ensures AddDocuments(s, documents, embedDocuments, clock).store.metadata[|s.metadata| + i] ==
      NewRecord(DocId(|s.vectors| + i, clock(i).epoch), Contents(documents)[i], clock(i).iso,
                UserMetadata(Some(Metadatas(documents)), i))
  {
    AddedRecordAt(s, Contents(documents), Some(Metadatas(documents)), embedDocuments, clock, i);
  }

  lemma DocumentRecord(d: Document, m: Metadata, text: string, id: string, iso: string, user: Option<Metadata>)
    requires JStr(text) == d.content && user == Some(d.metadata)
    requires m == NewRecord(id, text, iso, user)
    ensures KeepsDocument(m, d)
  {
    NewRecordKeys(id, text, iso, user);
  }

  /** A mutating call on the store. */
  datatype Op =
    | AddTextsOp(texts: seq<string>, metadatas: Option<seq<Metadata>>, clock: nat -> Reading)
    | DeleteOp(ids: Option<seq<string>>)

  function Run(s: Store, ops: seq<Op>, embedDocuments: seq<string> -> seq<Vector>): Store
    decreases |ops|
  {
    if |ops| == 0 then s
    else
      var next := match ops[0]
        case AddTextsOp(texts, metadatas, clock) => AddTexts(s, texts, metadatas, embedDocuments, clock).store
        case DeleteOp(ids) => DeleteAsWritten(s, ids);
      Run(next, ops[1..], embedDocuments)
  }

  /** Any sequence of adds and deletes, as written, keeps the two lists aligned, so
      `document_count == vector_count` always holds. */
  lemma {:induction false} RunKeepsAligned(s: Store, ops: seq<Op>, embedDocuments: seq<string> -> seq<Vector>)
    requires Aligned(s)
    ensures Aligned(Run(s, ops, embedDocuments))
    ensures var st := CollectionStats(Run(s, ops, embedDocuments)); st.documentCount == st.vectorCount
    decreases |ops|
  {
    if |ops| > 0 {
      var next := match ops[0]
        case AddTextsOp(texts, metadatas, clock) => AddTexts(s, texts, metadatas, embedDocuments, clock).store
        case DeleteOp(ids) => DeleteAsWritten(s, ids);
      RunKeepsAligned(next, ops[1..], embedDocuments);
    }
  }
}

=== FILE: wrappers.dfy ===
/** Failure-carrying datatypes shared by every store: `Option` for lookups that may
    find nothing (Python `None`), `Result` for operations that raise `ValueError`. */
module Wrappers {

  datatype Option<+T> = None | Some(value: T)

  /** `Err` carries the message of the exception the source raises. */
  datatype Result<+T> = Ok(value: T) | Err(message: string)
}
